=== FILE: README.md ===
# Lead-generation pipeline in Dafny

This project models the core of an MCP lead-generation orchestrator. It is a Python system with four parts:

- a SQLite lead database;
- a rule-based and LLM-backed enricher;
- a message personalizer;
- a rate-limited outreach dispatcher.

A FastAPI worker (`execute_pipeline`) and an MCP server (`call_tool`) drive the leads through the statuses NEW → ENRICHED → MESSAGED → SENT or FAILED.

The model keeps the program's structure, one module per source file:

| module | file | models |
|---|---|---|
| `Common` | common.dfy | optional values, `Result` for calls that raise, Python slicing and `dict.get` |
| `Text` | text.dfy | the Python `str` operations the code relies on (`in`, `split(sep, 1)`, `replace`, `strip()`, `split()`, `lower()`) |
| `LeadStore` | store.dfy | backend/database.py: the four tables as an immutable value and every store operation as a pure function |
| `Outreach` | outreach.dfy | backend/outreach.py: the fixed-window rate limiter, email and LinkedIn retries, channel routing |
| `Enrich` | enrichment.dfy | backend/enrichment.py: the rule tables, offline enrichment, the AI mode with its fallback |
| `Messaging` | messaging.dfy | backend/messaging.py: prompt fields, reply parsing, fallback templates, `generate_all_messages` |
| `LeadGen` | leadgen.dfy | backend/lead_generator.py: the tables, URL and e-mail builders, the two regular-expression validators, the validation summary |
| `Pipeline` | pipeline.dfy | backend/api.py: the run state, the endpoints that change it, and the four stages of `execute_pipeline` |
| `Tools` | tools.dfy | mcp_server/server.py: `call_tool` and its six tools |
| `Migrate` | migrate.dfy | backend/migrate_db.py: which ALTER statements are needed and what a failure leaves behind |

The outside world becomes explicit inputs:

- **Time.** The clock is a real number threaded through a `Dispatcher` value. Every clock read and every `sleep` advances it by at least the requested amount. A `Trial` record supplies the non-negative overshoots.
- **SMTP and the LinkedIn coin flip.** These are an oracle `trials: nat -> Trial`, consumed one attempt at a time.
- **Faker and `random`.** These are an oracle of `Draws` records, one per generated lead.
- **The Groq model.** Its replies are `Option` values, with `None` for a call or parse that raised. An enrichment reply that parsed is a dict in which each key the store reads may be absent.
- **`GROQ_API_KEY`.** It is an `Option<string>`.
- **Store order.** `ORDER BY created_at DESC` is modelled as descending id. `created_at` has one-second resolution, and SQLite returns rows with equal `created_at` in no specified order (in practice ascending id). So the model's order agrees with the code only between rows created in different seconds.

Exceptions become `Result.Err` with Python's message. The stages of `execute_pipeline` return the progress values they write, so the progress sequence is part of each stage's contract.

Some behaviours of the code that the contracts pin down:

- The rate-limit window is fixed and restarts on demand; it does not slide.
- The one-second gap is measured from the clock reading taken before any window wait.
- LinkedIn messages ignore the dry-run flag and can fail even in a dry run.
- `stop_pipeline` only changes the run state; the worker never reads `running`, so a scheduled run goes on.
- A dispatch (one lead's send) with no channel results counts as all-success, so a lead dispatched on an unknown channel becomes SENT.
- A model reply that parses but lacks one of the keys `insert_enrichment` reads makes the store raise KeyError. That aborts the enrich stage of the worker and the `enrich_leads` tool, with the earlier leads already enriched.

## Model

| member | source | states |
|---|---|---|
| Common.Slice | backend/api.py:112 | `s[start:stop]` has Python's clamped length and takes its elements from the normalised start |
| Common.Lookup | backend/enrichment.py:160 | `dict.get` on a dict literal finds the first entry with the key, and finds nothing exactly when no entry has it |
| Text.SplitOnce | backend/database.py:295 | `split(sep, 1)` gives one part exactly when the separator is absent; otherwise the text is the first part, the separator and the rest, and the first part holds no separator |
| Text.Strip | backend/database.py:296-297 | `strip()` yields the text between the leading and trailing whitespace runs, with no whitespace at either end |
| Text.Lower | backend/database.py:290 | `lower()` on ASCII: same length, each capital A-Z replaced by its small letter and every other character kept, so no ASCII capital remains |
| Text.LowerIdempotent | backend/database.py:290 | lower-casing twice gives the same as lower-casing once |
| Text.Words | backend/messaging.py:137 | `split()` yields non-empty tokens with no whitespace in them, and yields none exactly when the text is all whitespace |
| Text.StripIdempotent | backend/messaging.py:123 | stripping an already stripped reply changes nothing |
| Text.ReplaceAbsent | backend/database.py:296 | `replace` of a text that does not occur is the identity |
| Text.WordCountIsWordStarts | backend/messaging.py:137 | `len(body.split())` equals the number of positions where a whitespace-separated word starts |
| Text.WordIsRun | backend/messaging.py:137 | every token of `split()` is a maximal run of non-space characters of the text: it occurs there, after a space or at the start, and before a space or at the end |
| Text.FirstWord | backend/api.py:290 | `full_name.split()[0]` exists exactly when the name has a word, and is the first word |
| Text.WordsHead | backend/api.py:290 | the first token of `split()` is the maximal run of non-space characters that starts at the first non-space character of the text: a space or the end follows it |
| Text.FirstWordIsLeadingRun | backend/api.py:290 | `full_name.split()[0]` raises exactly for an all-whitespace name; otherwise it is the maximal non-space run that begins at the first non-space character, with only spaces before it |
| Text.ThreeDigits | backend/lead_generator.py:81 | a number from `randint(100, 999)` prints as exactly three digits |
| LeadStore.ParseStatus | backend/database.py:12-17 | `LeadStatus(v)` returns the member whose value is `v`, and fails exactly when no member has that value |
| LeadStore.StatusEnumeration | backend/database.py:12-17 | the enum has exactly five members with distinct values, and parsing a member's value gives the member back |
| LeadStore.NewLead | backend/database.py:114-124 | a stored lead starts NEW; phone and comments default to "" and source to "external" |
| LeadStore.InsertLead | backend/database.py:103-130 | `insert_lead` returns an id not in use and adds exactly that lead; the other tables do not change |
| LeadStore.InsertedListedFirst | backend/database.py:218-227 | a lead just inserted heads both the full newest-first listing and the NEW listing |
| LeadStore.InsertEnrichment | backend/database.py:137-150 | the write for a dict holding every key: one enrichment row is appended, and the leads, messages, outreach rows and lead counter do not change |
| LeadStore.MissingKey | backend/database.py:143-148 | no key is missing exactly when the dict holds all five keys `insert_enrichment` indexes; otherwise the missing key is the first absent one in the order they are read |
| LeadStore.StoredAs | backend/database.py:143-149 | a dict holding every indexed key is stored with its own values, and a missing `enrichment_mode` is stored as "offline" |
| LeadStore.InsertEnrichmentDict | backend/database.py:132-153 | `insert_enrichment` raises KeyError quoting the first missing key exactly when the dict lacks an indexed key, and then writes nothing; otherwise it appends one row holding the dict's values and no other table changes |
| LeadStore.ModeNotIndexed | backend/database.py:149 | whether `insert_enrichment` raises does not depend on `enrichment_mode`, which is read with a default |
| LeadStore.DictRoundTrip | backend/database.py:143-149 | an enrichment written out as a dict is stored as that same enrichment |
| LeadStore.CompleteDictStored | backend/database.py:132-153 | storing a dict built from a complete enrichment never raises and appends exactly that enrichment |
| LeadStore.InsertMessage | backend/database.py:155-168 | one message row is appended; the leads, enrichments and outreach tables and both id counters do not change |
| LeadStore.InsertOutreach | backend/database.py:170-181 | a new outreach row is PENDING with no retries, under an id not in use; the leads, enrichments and messages tables and the lead id counter do not change |
| LeadStore.UpdateLeadStatus | backend/database.py:183-195 | only the given lead's status is overwritten, whatever it was; every other lead and table is unchanged |
| LeadStore.NoTransitionCheck | backend/database.py:183-195 | any status may follow any other, backward moves included |
| LeadStore.UpdateMovesListing | backend/database.py:183-195 | after an update the lead is listed under its new status and under no other |
| LeadStore.UpdateOutreachStatus | backend/database.py:197-216 | both branches overwrite the row's status and error message; 'SENT' also stamps `sent_at`, every other status adds exactly one to `retry_count` and keeps `sent_at`; the row's lead, message and channel, every other outreach row, the leads, enrichments and messages are unchanged; an unknown id changes nothing |
| LeadStore.Collect | backend/database.py:224-227 | the selected ids below a bound, each once, in descending order |
| LeadStore.LeadsByStatus | backend/database.py:218-232 | exactly the leads with the status (all leads for no status), each once, newest first |
| LeadStore.EnrichmentOf | backend/database.py:240-246 | the LEFT JOIN pairs a lead with an enrichment row exactly when it has one, and the pair is a stored row |
| LeadStore.ParseEmailContent | backend/database.py:293-297 | the subject comes from the text before the first blank line, or the whole content when there is none; it has every "Subject: " removed and is stripped, so it has no surrounding whitespace. Without a blank line the body is the whole content; otherwise the body is the stripped text after the first blank line |
| LeadStore.EmailRoundTrip | backend/database.py:289-301 | a stored `subject + "\n\n" + body` reads back as that subject and body, given a trimmed subject with no blank line and no "Subject: ", and a trimmed body |
| LeadStore.SeparatorAfterSubject | backend/database.py:295 | in such a stored email the first blank line is the one right after the subject |
| LeadStore.ViewOf | backend/database.py:293-305 | email rows are read as subject and body; every other channel as `{'message': content}` |
| LeadStore.MessageKey | backend/database.py:289-290 | a row's result key is its channel, "_", then a variation of the same length with no ASCII capital left |
| LeadStore.MessageKeyIgnoresCase | backend/database.py:290 | variations that differ only in ASCII case land under the same key |
| LeadStore.NewestFirst | backend/database.py:277-282 | the lead's message rows, exactly those and no others |
| LeadStore.FoldViews | backend/database.py:287-305 | the result has exactly one key per distinct channel and lower-cased variation of the rows |
| LeadStore.FoldViewsLastWins | backend/database.py:287-305 | for rows sharing a key, the row processed last decides the value |
| LeadStore.LeadMessages | backend/database.py:271-307 | `get_lead_messages` has a key exactly for each key of the lead's stored rows |
| LeadStore.LeadMessagesOldestWins | backend/database.py:277-305 | because rows are read newest first, the oldest row of a key wins |
| LeadStore.GetMetrics | backend/database.py:321-355 | total is the number of leads; the breakdown lists exactly the statuses that occur, with their counts; `leads_enriched` is ENRICHED + MESSAGED + SENT, with FAILED excluded; `messages_generated` is the number of message rows; `messages_sent` and `messages_failed` count the outreach rows with that status, and together are at most the number of outreach rows |
| LeadStore.StatusBreakdown | backend/database.py:330-332 | the `GROUP BY status` dict has a key exactly for each status some lead has, mapped to its number of leads, so `.get(s, 0)` is the count of any status |
| LeadStore.OutreachCountsBounded | backend/database.py:338-344 | the SENT and FAILED outreach counts together are at most the number of outreach rows |
| LeadStore.StatusCountsPartition | backend/database.py:331-332 | the five per-status counts add up to the number of leads |
| LeadStore.StatusesCount | backend/database.py:331-332 | over distinct statuses, the summed counts count the leads having one of them |
| LeadStore.ClearAllData | backend/database.py:357-368 | every table is emptied and the AUTOINCREMENT counters are kept |
| LeadStore.ClearedMetrics | backend/database.py:321-368 | a cleared store reports zero for every metric and an empty breakdown |
| Outreach.NewDispatcher | backend/outreach.py:19-40 | the service starts with its settings, an empty window opened at the current reading, and the oracle at its first trial; its timestamps lie behind the clock |
| Outreach.ApplyRateLimit | backend/outreach.py:42-66 | a limiter pass never moves the clock back, stamps `last_send_time` with the clock, and leaves it at least one second after the previous send |
| Outreach.RateLimitWindow | backend/outreach.py:46-58 | the count stays in 1..cap; a window 60 s old restarts at the current reading; under the cap the send is counted in the same window; at the cap the call waits out the window and starts a new one |
| Outreach.WaitsAccumulate | backend/outreach.py:44-63 | the gap is measured from the reading taken before the window wait, so the two pauses add up |
| Outreach.Passes | backend/outreach.py:42-66 | a run of limiter passes yields one dispatcher per pass |
| Outreach.PassesStayCapped | backend/outreach.py:46-66 | with a positive cap, every pass of a run keeps the count between 1 and the cap |
| Outreach.PassesSpaced | backend/outreach.py:60-65 | passes i < j of a run are at least j − i seconds apart |
| Outreach.Budget | backend/outreach.py:126-134 | the attempts left at retry counter k: `max_retries − k + 1` while `k < max_retries`, else one |
| Outreach.BackoffFromZero | backend/outreach.py:133 | the first m backoff pauses add up to 2^m − 1 seconds |
| Outreach.BackoffShift | backend/outreach.py:133 | the pauses after attempts k..k+m−1 add up to 2^(k+m) − 2^k seconds |
| Outreach.EmailFrom | backend/outreach.py:68-141 | an email makes between 1 and `max_retries + 1` attempts, one oracle trial each; a dry run is one limiter pass and always "Dry run - email logged" |
| Outreach.EmailRetries | backend/outreach.py:126-134 | a refused live attempt with retries left is one more attempt in front of the retry |
| Outreach.EmailStops | backend/outreach.py:89-141 | otherwise the send ends with this one attempt |
| Outreach.RefusalsSplit | backend/outreach.py:126-134 | a run of refused attempts is a refused attempt followed by the rest of the run |
| Outreach.EmailFailure | backend/outreach.py:126-141 | an email fails exactly when it is live and every allowed attempt is refused, and then every allowed attempt was made |
| Outreach.EmailFailureReport | backend/outreach.py:136-141 | a failure reports "after {retry_count + 1} attempts" with the attempts counted from the first call, and the last attempt's error; it is returned, never raised |
| Outreach.EmailStopReport | backend/outreach.py:136-141 | a send that stops at once made one attempt and reports that attempt's error |
| Outreach.EmailSuccess | backend/outreach.py:113-124 | a live success is the first delivered attempt, after only refusals |
| Outreach.EmailBackoffTaken | backend/outreach.py:131-134 | a send that made a attempts from counter k slept at least the backoff of its first a − 1 attempts |
| Outreach.EmailSpacing | backend/outreach.py:89-134 | every attempt re-enters the limiter, so a send of a attempts moves `last_send_time` on by at least a seconds |
| Outreach.EmailTiming | backend/outreach.py:89-134 | both timing facts together: the limiter spacing and the backoff pauses |
| Outreach.SendEmail | backend/outreach.py:68-141 | the retry recursion written as a bounded loop with an attempt counter computes the same send |
| Outreach.EmailRecoversAfterFailures | backend/outreach.py:126-134 | f refusals followed by a delivery, within the budget, succeed in exactly f + 1 attempts |
| Outreach.EmailExhaustionBackoff | backend/outreach.py:126-141 | when every attempt is refused, all `max_retries − k + 1` attempts are made and every backoff pause is slept |
| Outreach.LinkedinFrom | backend/outreach.py:143-192 | a DM makes between 1 and `max_retries + 1` attempts and reports the success or failure message that matches its status |
| Outreach.LinkedinRetries | backend/outreach.py:181-185 | a failed flip with retries left is one more attempt in front of the retry |
| Outreach.LinkedinStops | backend/outreach.py:174-192 | otherwise the DM ends with this attempt, which succeeds exactly when the flip does |
| Outreach.LinkedinOutcome | backend/outreach.py:174-192 | a DM fails exactly when every allowed flip fails; a success follows only failed flips |
| Outreach.LinkedinTiming | backend/outreach.py:165-185 | every attempt passes the limiter, and the fixed one-second pause is slept after each failed flip that is retried |
| Outreach.SendLinkedin | backend/outreach.py:143-192 | the bounded loop computes the same DM as the recursion |
| Outreach.LinkedinIgnoresDryRun | backend/outreach.py:165-192 | flipping the dry-run flag changes neither the result of a DM nor its number of attempts |
| Outreach.RateLimitIgnoresDryRun | backend/outreach.py:42-66 | the limiter does not read the dry-run flag |
| Outreach.DryRunLinkedinCanFail | backend/outreach.py:167-192 | even in a dry run, a DM whose every flip fails reports failure |
| Outreach.SendOutreach | backend/outreach.py:194-227 | key "email" is present exactly for "email" or "both", and key "linkedin" exactly for "linkedin" or "both"; the email is sent first and the DM starts from the dispatcher the email left; any other channel sends nothing |
| Outreach.OutreachTiming | backend/outreach.py:194-227 | a dispatch never moves the clock back and keeps the limiter's stamps behind the clock |
| Outreach.UnknownChannelVacuous | backend/api.py:300 | an unknown channel sends nothing and still counts as all-success |
| Outreach.PartialSuccessIsFailure | backend/api.py:300-304 | with "both", a delivered email next to a failed DM is not all-success |
| Outreach.DryRunEmailAlwaysSucceeds | backend/outreach.py:89-100 | in a dry run an email-only dispatch is always all-success |
| Enrich.SizeFrom | backend/enrichment.py:153-157 | the size is that of the first rule at or after i whose keyword the role contains, "medium" when there is none |
| Enrich.CompanySize | backend/enrichment.py:152-157 | the size comes from the first keyword, in declaration order, contained in the role; otherwise "medium"; so it is small, medium or enterprise |
| Enrich.FirstKeywordWins | backend/enrichment.py:31-40 | a role naming both "VP" and "Chief" gets the VP size, "medium" |
| Enrich.Persona | backend/enrichment.py:159-160 | the exact (industry, role) entry, else "Business Leader" |
| Enrich.Confidence | backend/enrichment.py:175-187 | the score is one of 75, 85, 90 and 100; it is 85 or 100 exactly when the role names "Chief" or "VP", and at least 90 exactly when the industry is known |
| Enrich.RowLength | backend/enrichment.py:87-145 | a row found in a table whose rows all have n entries has n entries |
| Enrich.PainRowsOfThree | backend/enrichment.py:87-118 | every industry's pain-point list, and the default one, has three entries |
| Enrich.TriggerRowsOfTwo | backend/enrichment.py:120-145 | every industry's trigger list, and the default one, has two entries |
| Enrich.PainPoints | backend/enrichment.py:163-167 | the industry's pain points or the defaults; exactly three, so the `[:3]` cuts nothing |
| Enrich.Triggers | backend/enrichment.py:170-173 | the industry's buying triggers or the defaults; exactly two, so the `[:2]` cuts nothing |
| Enrich.OfflineEnrichment | backend/enrichment.py:147-189 | the rule-based result always carries the mode tag "offline" |
| Enrich.NewEnricher | backend/enrichment.py:15-28 | "ai" mode without a non-empty key raises ValueError; every other mode is accepted |
| Enrich.EnrichLead | backend/enrichment.py:191-260 | in "ai" mode a reply that parsed is returned as parsed, whatever keys it holds, tagged "ai", and lacks the same keys as the reply; a failed call or parse, and every other mode, give the rules' result, which holds every key |
| Enrich.ModeTagTellsPath | backend/enrichment.py:238-260 | the `enrichment_mode` is "ai" exactly when the model's parsed reply was used, and "offline" exactly when the rules were |
| Enrich.RulesTagged | backend/enrichment.py:243-260 | whenever the rules answer, the enrichment is tagged "offline" and holds every key the store reads |
| Enrich.StoringRaisesOnlyOnIncompleteReply | backend/database.py:143-148 | storing an enrichment raises exactly when "ai" mode used a parsed reply lacking an indexed key, and the KeyError names the first such key |
| Enrich.OfflineIgnoresReply | backend/enrichment.py:257-260 | outside "ai" mode the model is never consulted |
| Enrich.EnrichLeads | backend/enrichment.py:262-282 | one enrichment dict per lead, in input order, the i-th made from the i-th reply |
| Messaging.NewPersonalizer | backend/messaging.py:15-21 | a missing or empty GROQ_API_KEY raises ValueError |
| Messaging.PersonaShown | backend/messaging.py:42 | the joined row's persona as an f-string shows it; "None" without an enrichment row |
| Messaging.SizeShown | backend/messaging.py:45 | the joined row's company size as an f-string shows it; "None" without an enrichment row |
| Messaging.EmailPainText | backend/messaging.py:25-28 | the first two pain points joined by ", ", or "operational challenges" when there are none |
| Messaging.TriggerText | backend/messaging.py:26-29 | the first trigger, or "business growth" |
| Messaging.LinkedinPainText | backend/messaging.py:65-68 | the first pain point, or "operational efficiency" |
| Messaging.EmailStyle | backend/messaging.py:31-36 | "A" selects the direct style and approach; every other string the consultative one |
| Messaging.LinkedinStyle | backend/messaging.py:70-73 | "A" selects the friendly style; every other string the professional one |
| Messaging.EmailPromptFor | backend/messaging.py:23-61 | the email prompt's fields come from the lead, the joined enrichment and the variation's style |
| Messaging.LinkedinPromptFor | backend/messaging.py:63-90 | the same for the LinkedIn prompt |
| Messaging.VariationsDifferOnlyInStyle | backend/messaging.py:23-90 | two variations' prompts differ only in style; "A" and any other variation get different email and LinkedIn styles; all variations other than "A" give the same prompt |
| Messaging.PainTextsAgree | backend/messaging.py:25-68 | the two prompts fall back to their defaults together; otherwise the email's pain text starts with the LinkedIn one |
| Messaging.ParseEmailReply | backend/messaging.py:123-138 | with "Subject:" and a blank line, the subject is the first paragraph with the marker removed, stripped, and the body is the stripped rest; with the marker but no blank line the subject is the whole stripped reply with the marker removed, stripped again, and the body is the whole stripped reply; without the marker, the industry's default subject and the whole stripped reply; the word count is the body's number of words |
| Messaging.ParseDmReply | backend/messaging.py:180-185 | the stripped reply and its number of words |
| Messaging.WellFormedReplyParses | backend/messaging.py:123-138 | a reply in the requested "Subject: …", blank line, body format reads back as exactly that subject and body |
| Messaging.HeadKeepsNoBlankLine | backend/messaging.py:127 | prefixing "Subject: " does not create a blank line |
| Messaging.HeadLosesMarker | backend/messaging.py:128 | removing "Subject:" and stripping gives back the subject |
| Messaging.ParsedEmailSurvivesStorage | backend/database.py:293-301 | a parsed email whose subject is trimmed and holds neither a blank line nor "Subject: " reads back unchanged once stored as `subject + "\n\n" + body` |
| Messaging.FallbackError | backend/messaging.py:140-147 | a fallback template raises exactly when the name has no first word or the enrichment has no pain points; with a first word, it is a TypeError exactly when there is no enrichment row |
| Messaging.FallbackEmail | backend/messaging.py:140-147 | the fallback email names persona and company, greets the first name, and claims 60 words |
| Messaging.FallbackDm | backend/messaging.py:187-194 | the fallback DM greets the first name and claims 25 words |
| Messaging.GenerateEmail | backend/messaging.py:92-147 | a reply is parsed; a failed call falls back to the template |
| Messaging.GenerateDm | backend/messaging.py:149-194 | the same for the LinkedIn DM |
| Messaging.GenerateAll | backend/messaging.py:196-208 | the four drafts under email_a, email_b, linkedin_a and linkedin_b, each from its own call |
| Messaging.GenerateAllFails | backend/messaging.py:196-208 | `generate_all_messages` raises exactly when some model call failed and that fallback template raises, and it raises the template's exception |
| Messaging.AnsweredWordCounts | backend/messaging.py:196-208 | when every call answers, the result exists and each word count is the real number of words |
| LeadGen.NewGenerator | backend/lead_generator.py:12-60 | the generator holds the six industries and ten countries |
| LeadGen.Choice | backend/lead_generator.py:66 | `random.choice` returns an element of the list |
| LeadGen.SchemeLength | backend/lead_generator.py:98 | `https?://` is matched as 8 or 7 characters, or not at all |
| LeadGen.IndexOf | backend/lead_generator.py:93 | the first position at or after a start that holds a given character, or none |
| LeadGen.LastIndexOf | backend/lead_generator.py:93 | the last position below a bound that holds a given character, or none |
| LeadGen.EmailFull | backend/lead_generator.py:93 | the whole text has the e-mail shape exactly when the first "@" and the last "." split it correctly |
| LeadGen.ValidEmail | backend/lead_generator.py:91-94 | accepts exactly `L@D.T` with L over `[a-zA-Z0-9._%+-]`, D non-empty over `[a-zA-Z0-9.-]` and T two or more ASCII letters, with one trailing "\n" also allowed |
| LeadGen.ScanHost | backend/lead_generator.py:98 | the host-name scan finds a "." followed by two letters exactly when one exists in the run |
| LeadGen.NoMatchPastRun | backend/lead_generator.py:98 | no match lies past the end of the host-name run |
| LeadGen.ValidUrl | backend/lead_generator.py:96-99 | accepts exactly the texts starting with http:// or https://, a host-name run, "." and two letters; any suffix is allowed |
| LeadGen.Alnums | backend/lead_generator.py:65 | `re.sub(r'[^a-zA-Z0-9]', '', s)` keeps only letters and digits, and is empty exactly when there are none |
| LeadGen.Clean | backend/lead_generator.py:65 | the cleaned company is lower-case letters and digits, and is non-empty exactly when the name has a letter or digit |
| LeadGen.AlnumsChar | backend/lead_generator.py:65 | one character survives `re.sub(r'[^a-zA-Z0-9]', '', ·)` exactly when it is an ASCII letter or digit |
| LeadGen.AlnumsAppend | backend/lead_generator.py:65 | the filter distributes over concatenation, so together with `AlnumsChar` the result is exactly the letters and digits of the input, in order |
| LeadGen.CleanChar | backend/lead_generator.py:65 | one character cleans to itself lower-cased when it is an ASCII letter or digit, and to nothing otherwise |
| LeadGen.CleanAppend | backend/lead_generator.py:65 | cleaning distributes over concatenation, so the domain text of every e-mail and website is fixed character by character |
| LeadGen.CleanIdempotent | backend/lead_generator.py:65 | cleaning twice is cleaning once |
| LeadGen.AlnumsKeepsAlnum | backend/lead_generator.py:65 | a text of letters and digits is its own cleaning |
| LeadGen.CompanyEmail | backend/lead_generator.py:62-74 | an empty first name raises IndexError "string index out of range" whichever format is drawn; otherwise the address is one of the three formats at the cleaned company + ".com", and the drawn domain is never used |
| LeadGen.EmailLocals | backend/lead_generator.py:68-72 | there are exactly three local-part formats |
| LeadGen.LowerKeepsLocal | backend/lead_generator.py:69-71 | lower-casing keeps the local-part characters |
| LeadGen.LocalChoiceText | backend/lead_generator.py:68-74 | every format's local part stays over the local-part characters |
| LeadGen.AddressValid | backend/lead_generator.py:91-94 | `local@host.com` passes the validator for a non-empty local part and host |
| LeadGen.CompanyEmailValid | backend/lead_generator.py:62-74 | names over the local-part characters and a company with a letter or digit give an address that passes `_validate_email` |
| LeadGen.CompanyEmailShape | backend/lead_generator.py:62-74 | with a non-empty first name the address is exactly the drawn local part, "@", the cleaned company name and ".com" |
| LeadGen.LinkedinUrl | backend/lead_generator.py:76-82 | every LinkedIn URL starts with "https://www.linkedin.com/in/", and any number appended lies in 100..999 |
| LeadGen.LinkedinUrlValid | backend/lead_generator.py:76-82 | every LinkedIn URL passes `_validate_url` |
| LeadGen.CompanyWebsite | backend/lead_generator.py:84-89 | "https://www." + cleaned company + one of .com, .io, .co or .net |
| LeadGen.WebsiteValid | backend/lead_generator.py:84-89 | every website passes `_validate_url`, whatever the company name |
| LeadGen.GenerateLead | backend/lead_generator.py:101-144 | a generated lead passed all three validators and is named "first last" |
| LeadGen.GeneratedFromTables | backend/lead_generator.py:104-126 | industry, role and country are drawn from the tables |
| LeadGen.DefaultCompaniesNamed | backend/lead_generator.py:24-55 | every company suffix of the table starts with a letter or digit |
| LeadGen.FirstRowsNamed | backend/lead_generator.py:25-39 | the same for the first three industries |
| LeadGen.LastRowsNamed | backend/lead_generator.py:40-54 | the same for the last three industries |
| LeadGen.GenerateLeadIndexErrors | backend/lead_generator.py:114-121 | a fake company without a word raises "list index out of range"; otherwise an empty first name raises "string index out of range" |
| LeadGen.GenerateLeadSucceeds | backend/lead_generator.py:101-144 | with names over the local-part characters, a lead is produced exactly when the fake company has a word and the first name is non-empty; the URL assertions never fire |
| LeadGen.GenerateLeads | backend/lead_generator.py:146-161 | exactly `count` leads (none for a negative count), lead i from draw i; the first lead that raises aborts the call with its error |
| LeadGen.CountWhere | backend/lead_generator.py:166-168 | the number of leads passing a test: at most the number of leads, equal to it exactly when every lead passes, and 0 exactly when none does |
| LeadGen.CountValidEmails | backend/lead_generator.py:166 | at most the number of leads; all of them exactly when every e-mail passes `_validate_email`, none exactly when no e-mail does |
| LeadGen.CountValidWebsites | backend/lead_generator.py:167 | at most the number of leads; all of them exactly when every website passes `_validate_url`, none exactly when no website does |
| LeadGen.CountValidLinkedin | backend/lead_generator.py:168 | at most the number of leads; all of them exactly when every LinkedIn URL passes `_validate_url`, none exactly when no URL does |
| LeadGen.Bump | backend/lead_generator.py:172 | `d[key] = d.get(key, 0) + 1` either keeps the number of entries or appends the key with count 1 |
| LeadGen.BumpTotal | backend/lead_generator.py:172 | bumping adds one to the total |
| LeadGen.BumpCount | backend/lead_generator.py:172 | bumping a key adds one to its count and leaves every other count alone |
| LeadGen.BumpKeys | backend/lead_generator.py:172 | bumping a present key keeps every key in place; the key is appended only when no entry has it |
| LeadGen.BumpDistinct | backend/lead_generator.py:172 | a counter whose keys are distinct keeps them distinct after a bump, as a Python dict does |
| LeadGen.DistributionTotal | backend/lead_generator.py:170-172 | the industry counts add up to the number of leads |
| LeadGen.DistributionCounts | backend/lead_generator.py:170-172 | each industry's count is its number of leads |
| LeadGen.DistributionDistinct | backend/lead_generator.py:170-172 | the industry distribution lists each industry once |
| LeadGen.ValidationSummary | backend/lead_generator.py:163-181 | total is the number of leads; each valid count is at most the total, equals it exactly when every lead passes that validator, and is 0 exactly when no lead does |
| LeadGen.SummaryDistribution | backend/lead_generator.py:170-180 | the distribution adds up to the total, and each entry counts its industry |
| LeadGen.GeneratedAllValid | backend/lead_generator.py:163-166 | leads that passed the validator are all counted as valid |
| LeadGen.ValidationRate | backend/lead_generator.py:179 | an empty list raises ZeroDivisionError; otherwise the rate is a percentage, 100 when every e-mail is valid |
| Pipeline.DefaultRequest | backend/api.py:44-48 | dry run, offline enrichment, 200 leads, both channels |
| Pipeline.RunPipeline | backend/api.py:133-159 | refused with 409 exactly while running; the request is echoed otherwise; the endpoint never changes the run state |
| Pipeline.StopPipeline | backend/api.py:162-168 | not running, no stage, progress kept |
| Pipeline.StopIdempotent | backend/api.py:162-168 | stopping twice is stopping once |
| Pipeline.StopThenRunAccepted | backend/api.py:139-140 | after a stop a new run is always accepted |
| Pipeline.ClearLeads | backend/api.py:171-178 | every table is emptied and the run state is reset to idle |
| Pipeline.GetLeads | backend/api.py:95-119 | an unknown non-empty status is a 400; otherwise total is the filtered count and the page is Python's slice `[offset:offset + limit]` of the newest-first listing, for any integers: non-negative bounds past the end are cut to its length, and negative bounds count from the end |
| Pipeline.NegativeOffsetFromEnd | backend/api.py:112 | a negative offset counts from the end: with `offset + limit < 0` the page is the `limit` leads starting `-offset` places before the end |
| Pipeline.PagesTile | backend/api.py:112 | consecutive pages join into the listing's slice of twice the size |
| Pipeline.ClearedListsNothing | backend/api.py:171-178 | after `clear_leads` every listing is empty |
| Pipeline.StageTrace | backend/api.py:243 | one progress value per lead of a stage |
| Pipeline.ShareBounds | backend/api.py:243 | `int((i / n) * 25)` for i < n lies in 0..24 and grows with i |
| Pipeline.StageTraceStep | backend/api.py:237-243 | writing lead i's value extends the stage's trace by one |
| Pipeline.StageTraceShape | backend/api.py:243 | a stage's values never fall and stay within base..base + 24 |
| Pipeline.JoinNonDecreasing | backend/api.py:226-245 | two non-decreasing runs separated by a value join into one |
| Pipeline.FullTraceShape | backend/api.py:206-308 | the progress sequence 0, 10, 25, stage 2, 50, stage 3, 75, stage 4, 100 never falls and stays within 0..100 |
| Pipeline.PrefixShape | backend/api.py:206-308 | so does every prefix of it, which is what an interrupted run wrote |
| Pipeline.IntakeOf | backend/api.py:223-224 | a generated lead is inserted without phone, comments or source |
| Pipeline.InsertAll | backend/api.py:223-224 | the k-th lead gets the k-th fresh id and status NEW; earlier leads and the other tables are untouched |
| Pipeline.DescendingCard | backend/database.py:224-227 | a listing of distinct ids is as long as the set it lists |
| Pipeline.NumberedCard | backend/database.py:127 | n consecutive ids are n ids |
| Pipeline.SelectsAll | backend/api.py:234 | when every lead has the status, the stage's listing holds them all |
| Pipeline.ListingListed | backend/database.py:218-232 | a status listing lists leads of the store, none twice |
| Pipeline.Mark | backend/database.py:183-195 | writing statuses over leads keeps the same ids |
| Pipeline.MarkStep | backend/database.py:183-195 | one more status update is one more mark |
| Pipeline.UniformStep | backend/api.py:242 | adding the next lead's mark keeps the marks uniform |
| Pipeline.MarkedListing | backend/api.py:234-242 | marking every lead of a status listing moves exactly that status |
| Pipeline.EnrichStep | backend/api.py:237-243 | storing one more lead whose dict holds every key extends the loop's invariant |
| Pipeline.EnrichOne | backend/api.py:240-242 | a dict lacking an indexed key raises KeyError before either write; otherwise one enrichment row with the dict's values is appended and only that lead becomes ENRICHED |
| Pipeline.EnrichNext | backend/api.py:240-242 | one pass of the stage-2 loop either stores the lead's complete dict and marks it ENRICHED, extending the enriched prefix by one, or writes nothing and reports the KeyError of that lead's dict |
| Pipeline.EnrichLoop | backend/api.py:237-243 | the leads before the stopping point each got the row stored from their own dict and are ENRICHED; it stops early exactly at the first dict lacking a key, with that KeyError; the progress written is the matching prefix of the stage's trace |
| Pipeline.EnrichStage | backend/api.py:233-245 | it succeeds exactly when every NEW lead's dict holds every key, and then exactly the NEW leads move to ENRICHED with one row each, in listing order; otherwise the KeyError is that of the first incomplete dict, the leads before it were stored, and the trace is a proper prefix |
| Pipeline.EnrichedEvery | backend/api.py:237-243 | a loop that ran over the whole NEW listing moved exactly the NEW leads to ENRICHED; every dict held every key, and row k holds the k-th lead's dict as stored |
| Pipeline.EnrichStopped | backend/api.py:237-243 | a loop stopped at lead k: that lead's dict lacks a key, every earlier dict held every key, and exactly k rows were added |
| Pipeline.MessageStep | backend/api.py:256-268 | one more messaged lead extends the loop's invariant |
| Pipeline.MessageOne | backend/api.py:263-267 | only email A, as subject, blank line and body, then LinkedIn A are appended, in that order; only that lead becomes MESSAGED; no other table changes |
| Pipeline.MessageLoop | backend/api.py:256-268 | the loop stops at the first lead whose drafts raise, after messaging the leads before it |
| Pipeline.MessageStage | backend/api.py:252-270 | on success exactly the ENRICHED leads move to MESSAGED, each with email A and LinkedIn A stored; on failure the trace is a proper prefix |
| Pipeline.MessagedEvery | backend/api.py:256-270 | a loop that ran over the whole ENRICHED listing drafted every lead without raising, moved exactly the ENRICHED leads to MESSAGED, and stored each lead's e-mail A then LinkedIn A row in listing order |
| Pipeline.Verdict | backend/api.py:300-304 | SENT exactly when every channel result is "success", so also when there is none; otherwise FAILED |
| Pipeline.MarkedStep | backend/api.py:301-304 | one more status update extends the marks |
| Pipeline.VerdictStep | backend/api.py:297-304 | one more dispatch extends the verdicts |
| Pipeline.ChainStep | backend/api.py:277-297 | each dispatch starts from the dispatcher the previous one left |
| Pipeline.SentAll | backend/api.py:278-306 | once every MESSAGED lead is handled, the store is settled |
| Pipeline.VerdictsShown | backend/api.py:297-304 | each handled lead carries its own dispatch's verdict |
| Pipeline.DispatchStep | backend/api.py:281-306 | one more dispatched lead extends the loop's invariant |
| Pipeline.SendLoop | backend/api.py:281-306 | the loop stops with IndexError at the first full name without a word; before that, every lead carries its verdict and the dispatches are chained |
| Pipeline.OutreachStage | backend/api.py:277-308 | on success every MESSAGED lead becomes SENT or FAILED by its verdict; on success or failure only lead statuses change, and the enrichments, messages and outreach tables and both id counters are kept |
| Pipeline.Aborted | backend/api.py:316-324 | after an exception: not running, stage "Error: " + message, progress kept |
| Pipeline.PrefixAppend | backend/api.py:206-308 | a proper prefix stays proper under any common head |
| Pipeline.GeneratePhase | backend/api.py:209-227 | on success the store holds exactly the n generated leads under the next n ids, all NEW, with no enrichment or message rows; a failure is the error of some draw that raised |
| Pipeline.MovedAll | backend/api.py:234-245 | moving a store whose leads all had one status leaves them all at the next |
| Pipeline.EnrichPhase | backend/api.py:229-246 | "ai" mode without a key raises before any write; outside "ai" mode the stage never fails; a failure is the missing-key ValueError or a KeyError naming an indexed key, after a prefix of the trace; on success every lead is ENRICHED |
| Pipeline.EnrichEvery | backend/api.py:233-245 | if every dict the enricher can make holds every key, every lead becomes ENRICHED with one row; a failure is a KeyError after a proper prefix of the trace |
| Pipeline.RulesAlwaysStored | backend/enrichment.py:257-260 | outside "ai" mode every dict the enricher makes can be stored |
| Pipeline.MessagePhase | backend/api.py:248-271 | without a key the stage fails before writing any progress; otherwise a stage that finishes leaves every lead MESSAGED, and a stage that raises wrote a prefix of its trace |
| Pipeline.SettledAllMessaged | backend/api.py:297-304 | settling a store of MESSAGED leads leaves each SENT or FAILED |
| Pipeline.SendPhase | backend/api.py:273-310 | on success the store is settled; enrichments and messages do not change |
| Pipeline.LaterStages | backend/api.py:248-310 | stages 3 and 4 in order; the trace is a proper prefix exactly when a stage raised |
| Pipeline.EarlyTraces | backend/api.py:206-226 | the traces of runs that stop in stage 1 or at the enricher are proper prefixes |
| Pipeline.EnrichTraces | backend/api.py:237-243 | a run that stops in stage 2 has written 0, 10, 25 and then a prefix of stage 2's values, a proper prefix of the full trace |
| Pipeline.LaterTraces | backend/api.py:245-308 | the trace of a run that reaches stage 3 continues after the 50 that closes stage 2 |
| Pipeline.RunStages | backend/api.py:208-310 | the trace is the full progress sequence exactly when nothing raised, and a proper prefix otherwise; without a key the run fails with progress at most 50; a run that finishes delivers all n fresh leads |
| Pipeline.StagesAfterGeneration | backend/api.py:229-310 | from n fresh NEW leads with no enrichment or message rows, the trace is full exactly on success and a proper prefix when stage 2, 3 or 4 raised; without a key the run fails with progress at most 50; a finished run delivers each lead |
| Pipeline.ExecutePipeline | backend/api.py:192-325 | the run always ends not running; "Complete" exactly when nothing raised, and then progress is 100 and the full sequence was written; otherwise "Error: " + message with the last progress kept; progress never falls and stays in 0..100; without a key it stops at 50 or below; a complete run leaves exactly n fresh leads, each SENT or FAILED, with n enrichment rows and 2n message rows |
| Tools.PrefixListed | mcp_server/server.py:169-170 | a prefix of a listing is a listing |
| Tools.Picked | mcp_server/server.py:168-170 | the leads with the status, newest first, cut to `leads[:limit]` when the limit is truthy; a limit of 0 or none means all, and a negative limit drops that many of the oldest |
| Tools.PrefixNewer | mcp_server/server.py:169-170 | a lead left out of a prefix of a newest-first listing is older than every lead in the prefix |
| Tools.PickedNewest | mcp_server/server.py:168-170 | the picked leads have the status, and any lead of that status that was not picked is older than all of them |
| Tools.UniformMoved | mcp_server/server.py:182-186 | marking every picked lead with one status moves exactly those leads |
| Tools.InsertedNew | mcp_server/server.py:139-142 | the insert loop appends its leads under the next ids, all NEW |
| Tools.GeneratedCountValid | mcp_server/server.py:145 | every lead `generate_leads` returns is counted as a valid e-mail, website and LinkedIn URL |
| Tools.GenerateLeadsTool | mcp_server/server.py:130-161 | count 200 and seed 42 by default; a count of 0 or less raises ZeroDivisionError with nothing inserted; for a positive count, the exception of the first draw that raises propagates, after every earlier draw succeeded, with nothing inserted; otherwise the leads get the next ids, the ids shown are the first and last, all three valid counts equal the count, and the rate is 100% |
| Tools.ReportGenerated | mcp_server/server.py:138-161 | a generated batch is inserted under the next ids, and its summary counts every lead as a valid e-mail, website and LinkedIn URL, so the rate is 100% |
| Tools.LoopEnrichedAll | mcp_server/server.py:182-186 | an enrich loop stopped after i leads enriched exactly the first i picked leads, each with the row stored from its own dict |
| Tools.EnrichLeadsTool | mcp_server/server.py:163-196 | an empty pick answers "No NEW leads" and changes nothing; "ai" mode without a key raises only when there is a lead, changing nothing; outside "ai" mode it never fails; a KeyError names a picked lead's missing key, with the picked leads before it already enriched; on success exactly the picked leads become ENRICHED, one row each |
| Tools.StoreDrafts | mcp_server/server.py:220-228 | storing a lead's drafts appends its four rows (email A, email B, LinkedIn A, LinkedIn B) after the existing ones and sets that lead, if present, to MESSAGED; no other table changes |
| Tools.Written | mcp_server/server.py:220-226 | four rows per lead |
| Tools.WrittenStep | mcp_server/server.py:216-229 | one more lead appends its four rows |
| Tools.DraftStep | mcp_server/server.py:216-229 | one more drafted lead extends the loop's invariant |
| Tools.DraftLoop | mcp_server/server.py:216-229 | the loop stops at the first lead whose drafts raise, after storing the drafts of the leads before it |
| Tools.GenerateMessagesTool | mcp_server/server.py:198-241 | an empty pick changes nothing; no key raises; when lead k's drafts raise, the error is that lead's, the leads before it drafted, their four rows each are stored and exactly they are MESSAGED; otherwise exactly the picked leads become MESSAGED with four messages each, 4 × count in all |
| Tools.DraftedPrefix | mcp_server/server.py:216-229 | the leads whose drafts were stored are exactly the ones moved to MESSAGED |
| Tools.CountAt | mcp_server/server.py:282-289 | the number of picked leads stored with the status: all of them exactly when every picked lead has it, 0 exactly when none does |
| Tools.SentFailedPartition | mcp_server/server.py:282-289 | when every picked lead is SENT or FAILED, `sent_count + failed_count` is the number picked |
| Tools.SendOutreachTool | mcp_server/server.py:243-303 | channel "both" and dry run by default; an empty pick changes nothing; a name without a word raises IndexError, and then the leads before the first such name carry their verdicts and every other lead is as it was; otherwise each picked lead becomes SENT or FAILED by its verdict, the others are unchanged, and the two counts add up to the number picked |
| Tools.MarkedKept | mcp_server/server.py:264-289 | a lead the send loop has not reached keeps its row |
| Tools.LoopHalted | mcp_server/server.py:264-289 | a loop stopped at a name without a word leaves the earlier leads with their verdicts and the rest unchanged |
| Tools.DispatchedEvery | mcp_server/server.py:264-289 | a loop run to the end gives every picked lead its verdict, leaves the others alone, and the SENT and FAILED counts add up to the number picked |
| Tools.PercentBounded | mcp_server/server.py:328 | a part of a whole is at most 100 percent |
| Tools.EnrichedShareBounded | mcp_server/server.py:326-331 | the enriched share lies in 0..100 percent, and an empty store shows 0 |
| Tools.SharesOf | mcp_server/server.py:322-349 | the enriched share is 100 × enriched / total leads, the sent share 100 × sent / total leads, and the failure rate 100 × failed / generated messages; a share whose divisor is zero is 0, and the sent share is 0 while no message was generated |
| Tools.ToolNamed | mcp_server/server.py:130-356 | a name selects a tool exactly when `list_tools` advertises it |
| Tools.ToolNamedRoundTrip | mcp_server/server.py:32-123 | every advertised tool is selected by its own name |
| Tools.RunLeadTool | mcp_server/server.py:130-196 | the lead tools write neither messages nor outreach rows |
| Tools.RunOutreachTool | mcp_server/server.py:198-303 | the message tools write neither enrichments nor outreach rows; `send_outreach` keeps the lead ids and messages |
| Tools.CallTool | mcp_server/server.py:126-356 | an unknown name answers "Unknown tool" and leaves the store untouched; `get_status` and `get_metrics` only read; no tool writes the outreach table |
| Migrate.Missing | backend/migrate_db.py:26-33 | the wanted columns the table lacks, each once, in the checking order phone, comments, source: the subsequence of the wanted list that the table does not have |
| Migrate.MigrationsNeeded | backend/migrate_db.py:24-33 | one ALTER per wanted column the table lacks, and nothing else; empty exactly when phone, comments and source all exist |
| Migrate.MigrationIdempotent | backend/migrate_db.py:21-37 | after the ALTERs are applied, nothing is left to migrate |
| Migrate.MigrateAsWritten | backend/migrate_db.py:10-54 | a missing file reports that and changes nothing; nothing missing reports "up to date"; a failure at statement k leaves the first k missing columns added; a success adds them all |
| Migrate.MigrateAtomic | backend/migrate_db.py:10-54 | the corrected migration reports the same outcomes, but a failure leaves the table as it was |
| Migrate.AtomicAllOrNothing | backend/migrate_db.py:39-52 | afterwards either the table is unchanged or every wanted column is present |
| Migrate.AtomicRerunIsUpToDate | backend/migrate_db.py:35-37 | re-running after a success reports "up to date" |
| Migrate.AsWrittenLeavesPartialSchema | backend/migrate_db.py:40-52 | as written, a failure at the second ALTER leaves `phone` added without `comments` |

## Left out

- SQLite itself: connections, SQL text, the schema DDL and timestamps. `ORDER BY created_at DESC` is modelled as descending id. This agrees with SQLite only between rows created in different seconds; rows created in the same second come back in an unspecified order, usually ascending id.
- LeadStore.LeadsByStatus: "newest first" is descending id. For leads created in the same second the source's order is unspecified, so the stated order holds only across distinct seconds.
- LeadStore.NewestFirst: the message rows are ordered by descending id. Rows written in the same second, such as the four drafts of one lead, come back from SQLite in an unspecified order.
- LeadStore.InsertedListedFirst: the new lead heads the listings only when no other listed lead was created in the same second.
- LeadStore.LeadMessagesOldestWins: "the oldest row of a key wins" holds only between rows created in different seconds. For same-second rows sharing a key, SQLite's order decides.
- Tools.Picked: the newest-first cut by `limit` is exact only across distinct seconds. Among leads created in the same second, which ones fall inside the limit depends on SQLite's unspecified order.
- Tools.PickedNewest: "an unpicked lead is older than every picked one" holds only for leads created in different seconds.
- The JSON encoding of pain points and triggers in the enrichment table, and `json.loads` in `get_lead_with_enrichment`. The stored lists are kept as lists.
- The unreachable code after `return` in `get_lead_messages` (backend/database.py:309-319).
- SMTP and MIME construction: each attempt's outcome is an oracle trial. Print statements and `datetime.now().isoformat()`: a result's timestamp is the clock reading.
- The Groq client, its prompts' full wording, and the JSON extraction of `_ai_enrichment`: a model reply is an oracle value that either parsed or raised.
- Faker, `random.seed` and `random.random()`: these are oracle draws. The 95% success rate of the LinkedIn coin is not modelled, only success or failure.
- FastAPI routing, CORS, uvicorn, the MCP stdio transport, and `list_tools`' schemas other than the tool names.
- `BackgroundTasks` concurrency and the check-then-set race between `run_pipeline` and `execute_pipeline`. The model runs one worker call at a time.
- Real blocking in `time.sleep`: the clock advances instead.
- The formatted text of every tool reply, including emoji, the per-status percentages of `get_metrics` and the `:.1f` formatting of floats.
- `get_lead` (backend/api.py:122-130) and the read-only `/`, `/health`, `/metrics` and `/pipeline/status` endpoints, which only echo values the model already holds.
- Text.Lower: only the ASCII capitals A-Z are lower-cased. Python's `str.lower()` also folds other letters, for example the "Ø" of "Øberg".
- LeadGen.CompanyEmail: the name parts are lower-cased by the ASCII-only `Text.Lower`, so for a name with a non-ASCII capital the modelled address differs from Python's. The company part is exact, because it is filtered to ASCII letters and digits before `lower()`.
- LeadGen.LinkedinUrl: the name parts are lower-cased by the ASCII-only `Text.Lower`, with the same gap for non-ASCII capitals as in the e-mail address.
- LeadStore.MessageKey: the variation is lower-cased on ASCII only. The code only ever stores "A" and "B".
- The value types inside a parsed enrichment reply. A present key is taken to hold a value of the declared type; SQLite would store a JSON number for `company_size`, say, as it is. A reply that parses to something other than a JSON object fails on the tag assignment inside the `try`, so it falls back to the rules like any other failure.
- Non-integer `limit`, `count` and `seed` arguments: the model takes integers, as the tool schemas declare.
- Pipeline.StageTrace: `int((i / n) * 25)` is computed in floating point by the source and as the exact floor of 25·i/n here. The two can differ when rounding lands just below an integer.
- Tools.GenerateLeadsTool: the reply shows only the first and last inserted id; the per-lead id list is not kept.
- Messaging.FallbackEmail: the body text's fixed wording is modelled, but the `word_count` of 60 is the source's constant, not a count of that text.
- Outreach.SendOutreach: a channel value other than "email", "linkedin" or "both" is passed through unchanged. The source's callers never validate it either.

## Findings

| source | as written | input that shows it | evidently intended | confidence | as-written member | corrected member |
|---|---|---|---|---|---|---|
| backend/migrate_db.py:39-52 | each `ALTER TABLE` runs outside a transaction, because Python's sqlite3 opens its implicit transaction only before INSERT, UPDATE, DELETE or REPLACE; the `rollback()` in the handler therefore undoes none of the earlier ALTERs | a `leads` table with none of the three columns, where the second ALTER (`comments`) raises, for example because the database is locked: `phone` stays added and the report says the migration failed | all or nothing: a failed migration leaves the schema as it was, as the rollback suggests | medium, not executed | Migrate.MigrateAsWritten, Migrate.AsWrittenLeavesPartialSchema | Migrate.MigrateAtomic, Migrate.AtomicAllOrNothing |

=== FILE: common.dfy ===
/** Shared helper types: optional values, results that carry a Python
    exception message, and Python's list-slicing semantics. */
module Common {

  datatype Option<+T> = None | Some(value: T)

  /** The outcome of a Python call that may raise: `Err` carries the
      exception's message. */
  datatype Result<+T> = Ok(value: T) | Err(error: string)

  /** The message of the ValueError both model clients raise when
      GROQ_API_KEY is unset or empty. */
  const KeyMissing: string := "GROQ_API_KEY not found in environment variables"

  /** The message of Python's IndexError for `[][0]`. */
  const IndexErrorMessage: string := "list index out of range"
  /** The message of Python's IndexError for `""[0]`. */
  const StringIndexErrorMessage: string := "string index out of range"

  function Max(a: int, b: int): int { if a < b then b else a }
  function Min(a: int, b: int): int { if a < b then a else b }

  /** Python's normalisation of one slice bound against a length `n`:
      negative bounds count from the end, and the result is clamped to 0..n. */
  function SliceBound(i: int, n: nat): (r: nat)
    ensures r <= n
    ensures 0 <= i ==> r == Min(i, n)
    ensures i < 0 ==> r == Max(0, n + i)
  {
    if i < 0 then (if n + i < 0 then 0 else n + i) else if i > n then n else i
  }

  /** `s[start:stop]` in Python. */
  function Slice<T>(s: seq<T>, start: int, stop: int): (r: seq<T>)
    ensures |r| == Max(0, SliceBound(stop, |s|) - SliceBound(start, |s|))
    ensures forall k :: 0 <= k < |r| ==> r[k] == s[SliceBound(start, |s|) + k]
  {
    var lo := SliceBound(start, |s|);
    var hi := SliceBound(stop, |s|);
    if hi <= lo then [] else s[lo..hi]
  }

  /** `s[:stop]` in Python. */
  function Take<T>(s: seq<T>, stop: int): (r: seq<T>)
    ensures 0 <= stop ==> r == s[..Min(stop, |s|)]
    ensures stop < 0 ==> r == s[..Max(0, |s| + stop)]
  {
    Slice(s, 0, stop)
  }

  /** Python truthiness of an optional integer argument (`if limit:`). */
  predicate Truthy(limit: Option<int>) {
    limit.Some? && limit.value != 0
  }

  /** `dict.get(key)` on a dict literal, kept as its list of entries in
      declaration order: the value of the first entry with that key. */
  function Lookup<V>(table: seq<(string, V)>, key: string): (r: Option<V>)
    ensures r.None? <==> forall i :: 0 <= i < |table| ==> table[i].0 != key
    ensures r.Some? ==> exists i :: 0 <= i < |table| && table[i] == (key, r.value)
                                   && forall j :: 0 <= j < i ==> table[j].0 != key
  {
    if |table| == 0 then None
    else if table[0].0 == key then Some(table[0].1)
    else
      var r := Lookup(table[1..], key);
      assert forall i :: 1 <= i < |table| ==> table[i] == table[1..][i - 1];
      r
  }

  /** `dict.get(key, default)`. */
  function LookupOr<V>(table: seq<(string, V)>, key: string, default: V): (v: V)
    ensures Lookup(table, key).Some? ==> v == Lookup(table, key).value
    ensures Lookup(table, key).None? ==> v == default
  {
    match Lookup(table, key)
    case Some(x) => x
    case None => default
  }
}

=== FILE: enrichment.dfy ===
/** The lead enricher (backend/enrichment.py): rule-based ("offline")
    enrichment from the role title and industry, and an "ai" mode that asks
    a language model and falls back to the rules when that fails. The model's
    reply is an oracle: `Some(d)` is a reply that parsed into a JSON object,
    which may lack any key, `None` any failure of the call or of the parse. */
module Enrich {
  import opened Common
  import Text
  import opened LeadStore

  /** A configured enricher. Its rule tables are the instance attributes
      `__init__` sets, so they are members here. */
  datatype Enricher = Enricher(mode: string)
  {
    /** Keyword rules for the company size, in the dict's declaration order;
        the first keyword contained in the role wins. */
    function SizeRules(): seq<(string, string)> {
      [
        ("VP", "medium"), ("Director", "medium"), ("Chief", "enterprise"), ("CTO", "enterprise"),
        ("CFO", "enterprise"), ("COO", "enterprise"), ("Manager", "small"), ("Head", "medium")
      ]
    }

    function PersonaTable(): seq<(string, seq<(string, string)>)> {
      [
        ("Technology", [("VP of Engineering", "Tech Leader"), ("CTO", "Technology Executive"),
                        ("Head of IT", "IT Decision Maker"), ("Director of Technology", "Tech Leader"),
                        ("Chief Data Officer", "Data Leader")]),
        ("Manufacturing", [("VP of Operations", "Operations Executive"), ("COO", "C-Suite Operations"),
                           ("Plant Manager", "Operations Manager"), ("Supply Chain Director", "Supply Chain Leader"),
                           ("Operations Manager", "Operations Manager")]),
        ("Healthcare", [("Chief Medical Officer", "Healthcare Executive"), ("VP of Operations", "Healthcare Operations"),
                        ("Hospital Administrator", "Healthcare Admin"), ("Director of IT", "Healthcare IT Leader"),
                        ("Head of Procurement", "Procurement Head")]),
        ("Retail", [("VP of Sales", "Sales Executive"), ("Retail Operations Director", "Retail Ops Leader"),
                    ("Merchandising Manager", "Merchandising Head"), ("Store Operations VP", "Retail Executive"),
                    ("Chief Retail Officer", "C-Suite Retail")]),
        ("Finance", [("CFO", "Finance Executive"), ("VP of Finance", "Finance Leader"),
                     ("Treasury Director", "Treasury Leader"), ("Risk Management Director", "Risk Leader"),
                     ("Chief Investment Officer", "Investment Executive")]),
        ("Logistics", [("VP of Logistics", "Logistics Executive"), ("Supply Chain Director", "Supply Chain Leader"),
                       ("Operations Manager", "Logistics Manager"), ("Distribution VP", "Distribution Leader"),
                       ("Fleet Manager", "Fleet Operations")])
      ]
    }

    function PainTable(): seq<(string, seq<string>)> {
      [
        ("Technology", ["Managing complex cloud infrastructure costs", "Scaling development teams efficiently",
                        "Ensuring data security and compliance"]),
        ("Manufacturing", ["Optimizing production line efficiency", "Managing supply chain disruptions",
                           "Reducing operational downtime"]),
        ("Healthcare", ["Improving patient care coordination", "Managing regulatory compliance",
                        "Reducing operational costs while maintaining quality"]),
        ("Retail", ["Managing inventory across multiple locations", "Improving customer experience",
                    "Optimizing supply chain and logistics"]),
        ("Finance", ["Managing financial risk and compliance", "Improving operational efficiency",
                     "Modernizing legacy systems"]),
        ("Logistics", ["Optimizing route planning and fuel costs", "Managing fleet maintenance and downtime",
                       "Improving delivery speed and reliability"])
      ]
    }

    function DefaultPains(): seq<string> {
      ["Improving operational efficiency", "Managing costs", "Scaling operations"]
    }

    function TriggerTable(): seq<(string, seq<string>)> {
      [
        ("Technology", ["Digital transformation initiative", "Cloud migration project"]),
        ("Manufacturing", ["Expansion or new facility opening", "Automation initiative"]),
        ("Healthcare", ["New facility or expansion", "Regulatory compliance deadline"]),
        ("Retail", ["Omnichannel expansion", "Peak season preparation"]),
        ("Finance", ["Regulatory compliance requirement", "System modernization project"]),
        ("Logistics", ["Fleet expansion", "Route optimization initiative"])
      ]
    }

    function DefaultTriggers(): seq<string> {
      ["Business expansion", "Cost optimization initiative"]
    }
  }

  /** The six industries the persona table knows. */
  predicate KnownIndustry(en: Enricher, industry: string) {
    Lookup(en.PersonaTable(), industry).Some?
  }

  /** The size of the first rule at or after `i` whose keyword the role contains. */
  function SizeFrom(en: Enricher, role: string, i: nat): (size: string)
    requires i <= |en.SizeRules()|
    ensures size == "small" || size == "medium" || size == "enterprise"
    ensures (forall j :: i <= j < |en.SizeRules()| ==> !Text.Contains(role, en.SizeRules()[j].0)) ==> size == "medium"
    ensures forall j :: i <= j < |en.SizeRules()| && Text.Contains(role, en.SizeRules()[j].0)
                        && (forall l :: i <= l < j ==> !Text.Contains(role, en.SizeRules()[l].0))
                        ==> size == en.SizeRules()[j].1
    decreases |en.SizeRules()| - i
  {
    if i == |en.SizeRules()| then "medium"
    else if Text.Contains(role, en.SizeRules()[i].0) then
      assert i in {0, 1, 2, 3, 4, 5, 6, 7};
      en.SizeRules()[i].1
    else SizeFrom(en, role, i + 1)
  }

  /** The company-size rule of `_offline_enrichment`. */
  function CompanySize(en: Enricher, role: string): (size: string)
    ensures size == "small" || size == "medium" || size == "enterprise"
    ensures (forall j :: 0 <= j < |en.SizeRules()| ==> !Text.Contains(role, en.SizeRules()[j].0)) ==> size == "medium"
    ensures forall j :: 0 <= j < |en.SizeRules()| && Text.Contains(role, en.SizeRules()[j].0)
                        && (forall l :: 0 <= l < j ==> !Text.Contains(role, en.SizeRules()[l].0))
                        ==> size == en.SizeRules()[j].1
  {
    SizeFrom(en, role, 0)
  }

  /** A role naming both "VP" and "Chief" gets the VP size, because the
      rules are tried in declaration order. */
  lemma FirstKeywordWins(en: Enricher, role: string)
    requires Text.Contains(role, "VP") && Text.Contains(role, "Chief")
    ensures CompanySize(en, role) == "medium"
  {
    assert en.SizeRules()[0].0 == "VP";
  }

  /** The persona for a role in an industry, "Business Leader" when either is unknown. */
  function Persona(en: Enricher, role: string, industry: string): (p: string)
    ensures Lookup(en.PersonaTable(), industry).None? ==> p == "Business Leader"
    ensures Lookup(en.PersonaTable(), industry).Some? && Lookup(Lookup(en.PersonaTable(), industry).value, role).Some? ==>
              p == Lookup(Lookup(en.PersonaTable(), industry).value, role).value
    ensures Lookup(en.PersonaTable(), industry).Some? && Lookup(Lookup(en.PersonaTable(), industry).value, role).None? ==>
              p == "Business Leader"
  {
    LookupOr(LookupOr(en.PersonaTable(), industry, []), role, "Business Leader")
  }

  /** The confidence score of `_offline_enrichment`. */
  function Confidence(en: Enricher, role: string, industry: string): (c: int)
    ensures 75 <= c <= 100
    ensures c == 75 || c == 85 || c == 90 || c == 100
    ensures c == 85 || c == 100 <==> Text.Contains(role, "Chief") || Text.Contains(role, "VP")
    ensures c >= 90 <==> KnownIndustry(en, industry)
  {
    var c := 75
      + (if Text.Contains(role, "Chief") || Text.Contains(role, "VP") then 10 else 0)
      + (if KnownIndustry(en, industry) then 15 else 0);
    Min(c, 100)
  }

  /** Every row found in a table whose rows all have `n` entries has `n` entries. */
  lemma RowLength<V>(table: seq<(string, seq<V>)>, key: string, n: nat)
    requires forall i :: 0 <= i < |table| ==> |table[i].1| == n
    ensures Lookup(table, key).Some? ==> |Lookup(table, key).value| == n
  {
  }

  /** Every industry in the pain-point table lists three pain points. */
  lemma PainRowsOfThree(en: Enricher, industry: string)
    ensures |LookupOr(en.PainTable(), industry, en.DefaultPains())| == 3
  {
    RowLength(en.PainTable(), industry, 3);
  }

  /** Every industry in the trigger table lists two buying triggers. */
  lemma TriggerRowsOfTwo(en: Enricher, industry: string)
    ensures |LookupOr(en.TriggerTable(), industry, en.DefaultTriggers())| == 2
  {
    RowLength(en.TriggerTable(), industry, 2);
  }

  /** The pain points of `_offline_enrichment`: the industry's three, or
      the three defaults; the `[:3]` slice never cuts anything. */
  function PainPoints(en: Enricher, industry: string): (pp: seq<string>)
    ensures |pp| == 3
    ensures Lookup(en.PainTable(), industry).Some? ==> pp == Lookup(en.PainTable(), industry).value
    ensures Lookup(en.PainTable(), industry).None? ==> pp == en.DefaultPains()
  {
    PainRowsOfThree(en, industry);
    Take(LookupOr(en.PainTable(), industry, en.DefaultPains()), 3)
  }

  /** The buying triggers of `_offline_enrichment`: the industry's two, or
      the two defaults; the `[:2]` slice never cuts anything. */
  function Triggers(en: Enricher, industry: string): (tr: seq<string>)
    ensures |tr| == 2
    ensures Lookup(en.TriggerTable(), industry).Some? ==> tr == Lookup(en.TriggerTable(), industry).value
    ensures Lookup(en.TriggerTable(), industry).None? ==> tr == en.DefaultTriggers()
  {
    TriggerRowsOfTwo(en, industry);
    Take(LookupOr(en.TriggerTable(), industry, en.DefaultTriggers()), 2)
  }

  /** `_offline_enrichment` for a lead's role title and industry. */
  function OfflineEnrichment(en: Enricher, role: string, industry: string): (e: Enrichment)
    ensures e.enrichmentMode == "offline"
  {
    Enrichment(CompanySize(en, role), Persona(en, role, industry), PainPoints(en, industry), Triggers(en, industry),
               Confidence(en, role, industry), "offline")
  }

  /** The constructor: "ai" mode needs a non-empty GROQ_API_KEY; every other
      mode string is accepted and behaves as "offline". */
  function NewEnricher(mode: string, groqKey: Option<string>): (r: Result<Enricher>)
    ensures r.Err? <==> mode == "ai" && (groqKey.None? || groqKey.value == "")
    ensures r.Err? ==> r.error == KeyMissing
    ensures r.Ok? ==> r.value.mode == mode
  {
    if mode == "ai" && (groqKey.None? || groqKey.value == "") then
      Err(KeyMissing)
    else Ok(Enricher(mode))
  }

  /** `enrich_lead`: in "ai" mode the dict the model's reply parsed into,
      tagged "ai" whatever keys it holds, or the rules when the call or the
      parse fails; in any other mode the rules, which fill every key. */
  function EnrichLead(en: Enricher, lead: Lead, reply: Option<EnrichmentDict>): (d: EnrichmentDict)
    ensures en.mode == "ai" && reply.Some? ==> d == reply.value.(enrichmentMode := Some("ai"))
    ensures !(en.mode == "ai" && reply.Some?) ==> d == AsDict(OfflineEnrichment(en, lead.roleTitle, lead.industry))
    ensures en.mode == "ai" && reply.Some? ==> MissingKey(d) == MissingKey(reply.value)
    ensures !(en.mode == "ai" && reply.Some?) ==> MissingKey(d).None?
  {
    if en.mode == "ai" && reply.Some? then
      ModeNotIndexed(reply.value, Some("ai"));
      reply.value.(enrichmentMode := Some("ai"))
    else AsDict(OfflineEnrichment(en, lead.roleTitle, lead.industry))
  }

  /** The `enrichment_mode` an enrichment carries tells which path
      produced it: "ai" exactly when the enricher is in "ai" mode and the
      model's reply parsed, "offline" otherwise. */
  lemma ModeTagTellsPath(en: Enricher, lead: Lead, reply: Option<EnrichmentDict>)
    ensures EnrichLead(en, lead, reply).enrichmentMode == Some("ai") <==> en.mode == "ai" && reply.Some?
    ensures EnrichLead(en, lead, reply).enrichmentMode == Some("offline") <==> !(en.mode == "ai" && reply.Some?)
  {
    if en.mode != "ai" {
      RulesTagged(en, lead, reply);
    } else if reply.None? {
      RulesTagged(en, lead, reply);
    }
  }

  /** Whenever the rules answer, the enrichment is tagged "offline" and
      holds every key the store indexes. */
  lemma RulesTagged(en: Enricher, lead: Lead, reply: Option<EnrichmentDict>)
    requires !(en.mode == "ai" && reply.Some?)
    ensures EnrichLead(en, lead, reply).enrichmentMode == Some("offline")
    ensures MissingKey(EnrichLead(en, lead, reply)).None?
  {
  }

  /** A reply that parsed but lacks a key the store indexes makes storing
      the enrichment raise KeyError naming the first such key; the rules'
      enrichment is always stored. */
  lemma StoringRaisesOnlyOnIncompleteReply(st: Store, id: nat, en: Enricher, lead: Lead, reply: Option<EnrichmentDict>)
    ensures InsertEnrichmentDict(st, id, EnrichLead(en, lead, reply)).Err? <==>
              en.mode == "ai" && reply.Some? && MissingKey(reply.value).Some?
    ensures en.mode == "ai" && reply.Some? && MissingKey(reply.value).Some? ==>
              InsertEnrichmentDict(st, id, EnrichLead(en, lead, reply)).error == KeyErrorMessage(MissingKey(reply.value).value)
  {
    if !(en.mode == "ai" && reply.Some?) {
      RulesTagged(en, lead, reply);
    }
  }

  /** Outside "ai" mode the model's reply is never consulted. */
  lemma OfflineIgnoresReply(en: Enricher, lead: Lead, a: Option<EnrichmentDict>, b: Option<EnrichmentDict>)
    requires en.mode != "ai"
    ensures EnrichLead(en, lead, a) == EnrichLead(en, lead, b)
  {
  }

  /** `enrich_leads`: one enrichment per lead, in order; `replies(i)` is the
      model's reply for the i-th lead. */
  method EnrichLeads(en: Enricher, leads: seq<Lead>, replies: nat -> Option<EnrichmentDict>) returns (out: seq<EnrichmentDict>)
    ensures |out| == |leads|
    ensures forall i :: 0 <= i < |leads| ==> out[i] == EnrichLead(en, leads[i], replies(i))
  {
    out := seq(|leads|, i requires 0 <= i < |leads| => EnrichLead(en, leads[i], replies(i)));
  }
}

=== FILE: leadgen.dfy ===
/** The synthetic lead generator: its industry tables, the URL and e-mail
    builders, the two regular-expression validators it asserts on every
    lead, `generate_leads` and the validation summary.

    Faker and `random` are oracles: each lead consumes one `Draws` record
    holding the fake names and company, and the indices `random.choice`
    picks (taken modulo the length of the list chosen from). */
module LeadGen {
  import opened Common
  import opened Text

  datatype IndustryData = IndustryData(name: string, companies: seq<string>, roles: seq<string>, domains: seq<string>)

  /** The generator's instance tables. */
  datatype Tables = Tables(industries: seq<IndustryData>, countries: seq<string>)

  /** Every list `random.choice` draws from is non-empty. */
  predicate Stocked(t: Tables) {
    && |t.industries| > 0 && |t.countries| > 0
    && forall k :: 0 <= k < |t.industries| ==>
         |t.industries[k].companies| > 0 && |t.industries[k].roles| > 0 && |t.industries[k].domains| > 0
  }

  type Generator = t: Tables | Stocked(t) witness Tables([IndustryData("", [""], [""], [""])], [""])

  /** `LeadGenerator.__init__`: the industry table, in the dict's
      declaration order, and the country list. The seed only fixes the
      draws (see `Draws`), so the tables are the same for every seed. */
  function NewGenerator(seed: int): (g: Generator)
    ensures |g.industries| == 6 && |g.countries| == 10
  {
    Tables(Industries(seed), Countries(seed))
  }

  /** The `industries` dict: name, company suffixes, roles and domain
      suffixes of each industry. It does not depend on the seed; the
      parameter only keeps each generator's table a term of its own. */
  function Industries(seed: int): seq<IndustryData> {
      [
        IndustryData("Technology",
          ["TechCorp", "DataSystems", "CloudVentures", "AIInnovate", "CyberSolutions"],
          ["VP of Engineering", "CTO", "Head of IT", "Director of Technology", "Chief Data Officer"],
          ["tech", "software", "cloud", "data", "ai"]),
        IndustryData("Manufacturing",
          ["IndustrialWorks", "ManufactureHub", "PrecisionParts", "AutoAssembly", "ProduceMakers"],
          ["VP of Operations", "COO", "Plant Manager", "Supply Chain Director", "Operations Manager"],
          ["manufacturing", "industrial", "production", "assembly", "factory"]),
        IndustryData("Healthcare",
          ["MedicalCare", "HealthSystems", "WellnessGroup", "CareProviders", "HealthTech"],
          ["Chief Medical Officer", "VP of Operations", "Hospital Administrator", "Director of IT", "Head of Procurement"],
          ["health", "medical", "care", "wellness", "hospital"]),
        IndustryData("Retail",
          ["RetailCo", "ShopSmart", "MarketPlace", "ConsumerGoods", "TradeCenter"],
          ["VP of Sales", "Retail Operations Director", "Merchandising Manager", "Store Operations VP", "Chief Retail Officer"],
          ["retail", "shop", "store", "market", "consumer"]),
        IndustryData("Finance",
          ["FinanceHub", "BankingGroup", "InvestCorp", "CapitalSolutions", "WealthManagement"],
          ["CFO", "VP of Finance", "Treasury Director", "Risk Management Director", "Chief Investment Officer"],
          ["finance", "banking", "invest", "capital", "wealth"]),
        IndustryData("Logistics",
          ["LogiTrans", "ShipFast", "SupplyChainPro", "FreightMasters", "DeliveryHub"],
          ["VP of Logistics", "Supply Chain Director", "Operations Manager", "Distribution VP", "Fleet Manager"],
          ["logistics", "transport", "supply", "freight", "delivery"])
      ]
  }

  /** The `countries` list, likewise the same for every seed. */
  function Countries(seed: int): seq<string> {
      ["United States", "United Kingdom", "Canada", "Germany", "France",
       "Australia", "Netherlands", "Singapore", "Sweden", "Switzerland"]
  }

  /** The top-level domains `_generate_company_website` draws from. */
  function Extensions(): seq<string> {
    [".com", ".io", ".co", ".net"]
  }

  /** `random.choice(xs)`, with the oracle's draw reduced to an index. */
  function Choice<T>(xs: seq<T>, draw: nat): (x: T)
    requires |xs| > 0
    ensures x in xs
  {
    xs[draw % |xs|]
  }

  // ---------------------------------------------------------------------------
  // The two validators.

  /** `[a-zA-Z0-9._%+-]`, the local part of an address. */
  predicate LocalChar(c: char) {
    IsAsciiAlnum(c) || c == '.' || c == '_' || c == '%' || c == '+' || c == '-'
  }

  /** `[a-zA-Z0-9.-]`, a host name. */
  predicate DomainChar(c: char) {
    IsAsciiAlnum(c) || c == '.' || c == '-'
  }

  predicate LocalSpan(s: string, lo: int, hi: int)
    requires 0 <= lo <= hi <= |s|
  {
    forall i :: lo <= i < hi ==> LocalChar(s[i])
  }

  predicate DomainSpan(s: string, lo: int, hi: int)
    requires 0 <= lo <= hi <= |s|
  {
    forall i :: lo <= i < hi ==> DomainChar(s[i])
  }

  predicate LetterSpan(s: string, lo: int, hi: int)
    requires 0 <= lo <= hi <= |s|
  {
    forall i :: lo <= i < hi ==> IsAsciiLetter(s[i])
  }

  /** `s` is, in full, `L@D.T` with L over the local characters, D a
      non-empty host name and T at least two ASCII letters: `a` is the
      position of "@" and `d` that of the last ".". */
  predicate EmailAt(s: string, a: int, d: int) {
    && 0 < a && a + 1 < d && d + 2 < |s|
    && s[a] == '@' && s[d] == '.'
    && LocalSpan(s, 0, a) && DomainSpan(s, a + 1, d) && LetterSpan(s, d + 1, |s|)
  }

  /** What `re.match(r'^[a-zA-Z0-9._%+-]+@[a-zA-Z0-9.-]+\.[a-zA-Z]{2,}$', s)`
      accepts: the whole text has that shape, or the text minus one final
      newline does (`$` also matches just before a trailing "\n"). */
  ghost predicate EmailMatch(s: string) {
    || EmailShape(s)
    || (|s| > 0 && s[|s| - 1] == '\n' && EmailShape(s[..|s| - 1]))
  }

  ghost predicate EmailShape(s: string) {
    exists a, d :: EmailAt(s, a, d)
  }

  /** The first index at or after `from` holding `c`, or -1. */
  function IndexOf(s: string, c: char, from: nat): (r: int)
    requires from <= |s|
    ensures r == -1 || (from <= r < |s| && s[r] == c)
    ensures forall i :: from <= i < |s| && (r == -1 || i < r) ==> s[i] != c
    decreases |s| - from
  {
    if from == |s| then -1 else if s[from] == c then from else IndexOf(s, c, from + 1)
  }

  /** The last index below `hi` holding `c`, or -1. */
  function LastIndexOf(s: string, c: char, hi: nat): (r: int)
    requires hi <= |s|
    ensures r == -1 || (0 <= r < hi && s[r] == c)
    ensures forall i :: 0 <= i < hi && r < i ==> s[i] != c
  {
    if hi == 0 then -1 else if s[hi - 1] == c then hi - 1 else LastIndexOf(s, c, hi - 1)
  }

  /** Deciding the full-text shape: the "@" must be the first one and the
      "." the last one, so only one split needs checking. */
  function EmailFull(s: string): (ok: bool)
    ensures ok <==> EmailShape(s)
  {
    var a := IndexOf(s, '@', 0);
    var d := LastIndexOf(s, '.', |s|);
    var ok := EmailAt(s, a, d);
    assert (exists a', d' :: EmailAt(s, a', d')) ==> ok by {
      if exists a', d' :: EmailAt(s, a', d') {
        var a', d' :| EmailAt(s, a', d');
        assert a' == a by {
          assert forall i :: 0 <= i < a' ==> s[i] != '@' by {
            forall i | 0 <= i < a' ensures s[i] != '@' { assert LocalChar(s[i]); }
          }
        }
        assert d' == d by {
          forall i | d' < i < |s| ensures s[i] != '.' { assert IsAsciiLetter(s[i]); }
        }
      }
    }
    ok
  }

  /** `_validate_email`. */
  function ValidEmail(s: string): (ok: bool)
    ensures ok <==> EmailMatch(s)
  {
    EmailFull(s) || (|s| > 0 && s[|s| - 1] == '\n' && EmailFull(s[..|s| - 1]))
  }

  /** `s` starts with `t`. */
  predicate HasPrefix(s: string, t: string) {
    |t| <= |s| && s[..|t|] == t
  }

  /** The length of the scheme `https?://` that starts `s`, or 0. */
  function SchemeLength(s: string): (p: nat)
    ensures p == 0 || p == 7 || p == 8
    ensures p == 8 <==> HasPrefix(s, "https://")
    ensures p == 7 <==> HasPrefix(s, "http://")
  {
    if HasPrefix(s, "https://") then
      assert !HasPrefix(s, "http://") by { assert s[4] == 's'; }
      8
    else if HasPrefix(s, "http://") then 7 else 0
  }

  /** A "." at `k` followed by two ASCII letters. */
  predicate DotPair(s: string, k: int) {
    0 <= k && k + 2 < |s| && s[k] == '.' && IsAsciiLetter(s[k + 1]) && IsAsciiLetter(s[k + 2])
  }

  /** After the scheme of length `p`, a non-empty host-name run ending at a
      "." that two letters follow. */
  predicate UrlAt(s: string, p: int, k: int) {
    p < k && k + 2 < |s| && 0 <= p && DomainSpan(s, p, k) && DotPair(s, k)
  }

  /** What `re.match(r'^https?://[a-zA-Z0-9.-]+\.[a-zA-Z]{2,}', s)` accepts:
      a prefix of the text has that shape, so whatever follows is allowed. */
  ghost predicate UrlMatch(s: string) {
    exists p, k :: (p == 7 || p == 8) && p == SchemeLength(s) && UrlAt(s, p, k)
  }

  /** Scanning the host-name run from `k` for a "." followed by two letters. */
  function ScanHost(s: string, p: nat, k: nat): (found: bool)
    requires p <= k <= |s| && DomainSpan(s, p, k)
    ensures found <==> exists j :: k <= j && UrlAt(s, p, j)
    decreases |s| - k
  {
    if k == |s| || !DomainChar(s[k]) then
      NoMatchPastRun(s, p, k);
      false
    else if p < k && DotPair(s, k) then
      assert UrlAt(s, p, k);
      true
    else
      var r := ScanHost(s, p, k + 1);
      assert (exists j :: k <= j && UrlAt(s, p, j)) ==> r by {
        if exists j :: k <= j && UrlAt(s, p, j) {
          var j :| k <= j && UrlAt(s, p, j);
          assert j != k;
        }
      }
      r
  }

  /** A host-name run that stops at `k` has no match at or after `k`. */
  lemma NoMatchPastRun(s: string, p: nat, k: nat)
    requires p <= k <= |s| && (k == |s| || !DomainChar(s[k]))
    ensures forall j :: k <= j ==> !UrlAt(s, p, j)
  {
    forall j | k <= j ensures !UrlAt(s, p, j) {
      if k < |s| && k < j <= |s| {
        assert !DomainChar(s[k]);
      }
    }
  }

  /** `_validate_url`. */
  function ValidUrl(s: string): (ok: bool)
    ensures ok <==> UrlMatch(s)
  {
    var p := SchemeLength(s);
    p != 0 && ScanHost(s, p, p)
  }

  // ---------------------------------------------------------------------------
  // Builders.

  /** The ASCII letters and digits of `s`, in order. */
  function Alnums(s: string): (r: string)
    ensures |r| <= |s|
    ensures forall i :: 0 <= i < |r| ==> IsAsciiAlnum(r[i])
    ensures (exists i :: 0 <= i < |s| && IsAsciiAlnum(s[i])) <==> |r| > 0
  {
    if |s| == 0 then ""
    else
      var rest := Alnums(s[1..]);
      assert forall i :: 1 <= i < |s| ==> s[i] == s[1..][i - 1];
      if IsAsciiAlnum(s[0]) then [s[0]] + rest else rest
  }

  /** `re.sub(r'[^a-zA-Z0-9]', '', name).lower()`: lower-case letters and digits. */
  function Clean(name: string): (c: string)
    ensures forall i :: 0 <= i < |c| ==> IsDigit(c[i]) || 'a' <= c[i] <= 'z'
    ensures |c| > 0 <==> exists i :: 0 <= i < |name| && IsAsciiAlnum(name[i])
  {
    Lower(Alnums(name))
  }

  /** One character is kept exactly when it is an ASCII letter or digit. */
  lemma AlnumsChar(c: char)
    ensures Alnums([c]) == (if IsAsciiAlnum(c) then [c] else [])
  {
    assert [c][1..] == [];
  }

  /** Filtering distributes over concatenation; with `AlnumsChar` and
      `Alnums("") == ""` this fixes `Alnums` on every text: its letters and
      digits, in order. */
  lemma {:induction false} AlnumsAppend(a: string, b: string)
    ensures Alnums(a + b) == Alnums(a) + Alnums(b)
    decreases |a|
  {
    if |a| == 0 {
      assert a + b == b;
    } else {
      assert (a + b)[0] == a[0];
      assert (a + b)[1..] == a[1..] + b;
      AlnumsAppend(a[1..], b);
    }
  }

  /** The cleaned name is built character by character: each ASCII letter
      or digit lower-cased, everything else dropped. */
  lemma CleanChar(c: char)
    ensures Clean([c]) == (if IsAsciiAlnum(c) then [LowerChar(c)] else [])
  {
    AlnumsChar(c);
  }

  lemma CleanAppend(a: string, b: string)
    ensures Clean(a + b) == Clean(a) + Clean(b)
  {
    AlnumsAppend(a, b);
    var x, y := Alnums(a), Alnums(b);
    assert Lower(x + y) == Lower(x) + Lower(y) by {
      assert forall i :: 0 <= i < |x| + |y| ==> (x + y)[i] == if i < |x| then x[i] else y[i - |x|];
    }
  }

  /** Cleaning twice is cleaning once. */
  lemma {:induction false} CleanIdempotent(name: string)
    ensures Clean(Clean(name)) == Clean(name)
  {
    var c := Clean(name);
    AlnumsKeepsAlnum(c);
    assert Lower(c) == c;
  }

  /** A text of letters and digits loses nothing to `Alnums`. */
  lemma {:induction false} AlnumsKeepsAlnum(s: string)
    requires forall i :: 0 <= i < |s| ==> IsAsciiAlnum(s[i])
    ensures Alnums(s) == s
  {
    if |s| > 0 {
      AlnumsKeepsAlnum(s[1..]);
      assert [s[0]] + s[1..] == s;
    }
  }

  /** `_generate_company_email`: the list of the three formats is built
      before one is chosen, so an empty first name raises the string
      IndexError of `first_name.lower()[0]` whichever format is drawn. The host
      name is always the cleaned company plus ".com"; the drawn
      `domain_suffix` is never used. */
  function CompanyEmail(first: string, last: string, company: string, format: nat): (r: Result<string>)
    ensures r.Err? <==> |first| == 0
    ensures r.Err? ==> r.error == StringIndexErrorMessage
    ensures r.Ok? ==> exists local :: local in EmailLocals(first, last)
                        && r.value == local + "@" + Clean(company) + ".com"
  {
    if |first| == 0 then Err(StringIndexErrorMessage)
    else
      var host := "@" + Clean(company) + ".com";
      var locals := EmailLocals(first, last);
      var local := Choice(locals, format);
      Ok(local + host)
  }

  /** The local parts of the three formats: first.last, initial+last, first. */
  function EmailLocals(first: string, last: string): (ls: seq<string>)
    requires |first| > 0
    ensures |ls| == 3
  {
    [Lower(first) + "." + Lower(last), [Lower(first)[0]] + Lower(last), Lower(first)]
  }

  /** Text over the local-part characters. */
  predicate LocalText(s: string) {
    forall i :: 0 <= i < |s| ==> LocalChar(s[i])
  }

  lemma LowerKeepsLocal(s: string)
    requires LocalText(s)
    ensures LocalText(Lower(s))
  {
    forall i | 0 <= i < |s| ensures LocalChar(Lower(s)[i]) {
      assert Lower(s)[i] == LowerChar(s[i]);
    }
  }

  /** Every format's local part keeps to the local-part characters. */
  lemma LocalChoiceText(first: string, last: string, format: nat)
    requires |first| > 0 && LocalText(first) && LocalText(last)
    ensures LocalText(Choice(EmailLocals(first, last), format))
  {
    LowerKeepsLocal(first);
    LowerKeepsLocal(last);
    var lf := Lower(first);
    var ll := Lower(last);
    var local := Choice(EmailLocals(first, last), format);
    if local == lf + "." + ll {
      assert forall i :: 0 <= i < |local| ==> local[i] == (if i < |lf| then lf[i] else if i == |lf| then '.' else ll[i - |lf| - 1]);
    } else if local == [lf[0]] + ll {
      assert forall i :: 0 <= i < |local| ==> local[i] == (if i == 0 then lf[0] else ll[i - 1]);
    }
  }

  /** `local@host.com` is an address when the local part is non-empty over
      its characters and the host is non-empty lower-case letters and digits. */
  lemma AddressValid(local: string, host: string)
    requires |local| > 0 && LocalText(local) && |host| > 0
    requires forall i :: 0 <= i < |host| ==> IsDigit(host[i]) || 'a' <= host[i] <= 'z'
    ensures ValidEmail(local + "@" + host + ".com")
  {
    var s := local + "@" + host + ".com";
    var a := |local|;
    var d := a + 1 + |host|;
    assert EmailAt(s, a, d) by {
      assert forall i :: 0 <= i < a ==> s[i] == local[i];
      assert forall i :: a < i < d ==> s[i] == host[i - a - 1];
      assert s[d..] == ".com";
    }
  }

  /** With names over the local-part characters and a company name holding
      some letter or digit, every format passes `_validate_email`. */
  lemma CompanyEmailValid(first: string, last: string, company: string, format: nat)
    requires |first| > 0 && LocalText(first) && LocalText(last)
    requires exists i :: 0 <= i < |company| && IsAsciiAlnum(company[i])
    ensures CompanyEmail(first, last, company, format).Ok?
    ensures ValidEmail(CompanyEmail(first, last, company, format).value)
  {
    var local := Choice(EmailLocals(first, last), format);
    LocalChoiceText(first, last, format);
    AddressValid(local, Clean(company));
    CompanyEmailShape(first, last, company, format);
  }

  /** The address is the chosen local part, "@", the cleaned company name
      and ".com". */
  lemma CompanyEmailShape(first: string, last: string, company: string, format: nat)
    requires |first| > 0
    ensures CompanyEmail(first, last, company, format)
            == Ok(Choice(EmailLocals(first, last), format) + "@" + Clean(company) + ".com")
  {
    var local, c := Choice(EmailLocals(first, last), format), Clean(company);
    assert local + ("@" + c + ".com") == local + "@" + c + ".com";
  }

  /** "https://www.linkedin.com/in/". */
  function LinkedinPrefix(): string {
    "https://www." + "linkedin.com/in/"
  }

  /** `_generate_linkedin_url`: the lower-cased names joined by "-", with a
      three-digit number appended when the coin says so. */
  function LinkedinUrl(first: string, last: string, numbered: bool, draw: nat): (url: string)
    ensures HasPrefix(url, LinkedinPrefix())
    ensures !numbered ==> url == LinkedinPrefix() + Lower(first) + "-" + Lower(last)
    ensures numbered ==> exists n :: (100 <= n <= 999 &&
              url == LinkedinPrefix() + Lower(first) + "-" + Lower(last) + "-" + NatToString(n))
  {
    var namePart := Lower(first) + "-" + Lower(last);
    if numbered then LinkedinPrefix() + namePart + "-" + NatToString(100 + draw % 900)
    else LinkedinPrefix() + namePart
  }

  /** Every LinkedIn URL passes `_validate_url`: "www" is a host-name run
      and ".li" follows it. */
  lemma LinkedinUrlValid(first: string, last: string, numbered: bool, draw: nat)
    ensures ValidUrl(LinkedinUrl(first, last, numbered, draw))
  {
    var url := LinkedinUrl(first, last, numbered, draw);
    assert url[..28] == LinkedinPrefix();
    assert url[..8] == "https://" by { assert url[..8] == LinkedinPrefix()[..8]; }
    assert UrlAt(url, 8, 11) by {
      assert url[8] == 'w' && url[9] == 'w' && url[10] == 'w' && url[11] == '.';
      assert url[12] == 'l' && url[13] == 'i';
    }
  }

  /** `_generate_company_website`. */
  function CompanyWebsite(company: string, ext: nat): (url: string)
    ensures exists e :: e in Extensions() && url == "https://www." + Clean(company) + e
  {
    "https://www." + Clean(company) + Choice(Extensions(), ext)
  }

  /** Every website passes `_validate_url`, whatever the company name:
      the extension's "." is followed by two letters. */
  lemma WebsiteValid(company: string, ext: nat)
    ensures ValidUrl(CompanyWebsite(company, ext))
  {
    var c := Clean(company);
    var e := Choice(Extensions(), ext);
    var url := "https://www." + c + e;
    assert url[..8] == "https://";
    var k := 12 + |c|;
    assert UrlAt(url, 8, k) by {
      assert forall i :: 8 <= i < 12 ==> url[i] == "www."[i - 8];
      assert forall i :: 12 <= i < k ==> url[i] == c[i - 12];
      assert url[k..] == e;
      assert e[0] == '.' && IsAsciiLetter(e[1]) && IsAsciiLetter(e[2]);
    }
  }

  // ---------------------------------------------------------------------------
  // Leads.

  /** One lead's worth of oracle output, in the order the generator draws. */
  datatype Draws = Draws(
    industry: nat, firstName: string, lastName: string, companySuffix: nat, fakeCompany: string,
    role: nat, domainSuffix: nat, emailFormat: nat, numbered: bool, number: nat,
    extension: nat, country: nat)

  datatype GenLead = GenLead(
    fullName: string, companyName: string, roleTitle: string, industry: string,
    companyWebsite: string, email: string, linkedinUrl: string, country: string)

  /** `generate_lead`: draws the fields, then asserts that the e-mail, the
      website and the LinkedIn URL pass the validators. An empty fake
      company raises IndexError at `split()[0]`, an empty first name at the
      e-mail formats, and a failed validation raises AssertionError. */
  function GenerateLead(g: Generator, d: Draws): (r: Result<GenLead>)
    ensures r.Ok? ==> ValidEmail(r.value.email) && ValidUrl(r.value.companyWebsite) && ValidUrl(r.value.linkedinUrl)
    ensures r.Ok? ==> r.value.fullName == d.firstName + " " + d.lastName
  {
    var data := Choice(g.industries, d.industry);
    var suffix := Choice(data.companies, d.companySuffix);
    match FirstWord(d.fakeCompany)
    case None => Err(IndexErrorMessage)
    case Some(prefix) =>
      var company := prefix + " " + suffix;
      var role := Choice(data.roles, d.role);
      match CompanyEmail(d.firstName, d.lastName, company, d.emailFormat)
      case Err(e) => Err(e)
      case Ok(email) =>
        var linkedin := LinkedinUrl(d.firstName, d.lastName, d.numbered, d.number);
        var website := CompanyWebsite(company, d.extension);
        var lead := GenLead(d.firstName + " " + d.lastName, company, role, data.name,
                            website, email, linkedin, Choice(g.countries, d.country));
        if !ValidEmail(email) then Err("Invalid email: " + email)
        else if !ValidUrl(website) then Err("Invalid website: " + website)
        else if !ValidUrl(linkedin) then Err("Invalid LinkedIn: " + linkedin)
        else Ok(lead)
  }

  /** A generated lead's industry is a table industry, its role one of that
      industry's roles, and its country a table country. */
  lemma GeneratedFromTables(g: Generator, d: Draws)
    requires GenerateLead(g, d).Ok?
    ensures exists ind :: ind in g.industries && GenerateLead(g, d).value.industry == ind.name
                          && GenerateLead(g, d).value.roleTitle in ind.roles
    ensures GenerateLead(g, d).value.country in g.countries
  {
    var data := Choice(g.industries, d.industry);
    assert GenerateLead(g, d).value.industry == data.name;
  }

  /** Every company name of the generator's table starts with a letter or digit. */
  predicate CompaniesNamed(g: Generator) {
    forall i :: 0 <= i < |g.industries| ==> RowNamed(g.industries[i])
  }

  predicate RowNamed(ind: IndustryData) {
    forall j :: 0 <= j < |ind.companies| ==> |ind.companies[j]| > 0 && IsAsciiAlnum(ind.companies[j][0])
  }

  lemma DefaultCompaniesNamed(seed: int)
    ensures CompaniesNamed(NewGenerator(seed))
  {
    FirstRowsNamed(seed);
    LastRowsNamed(seed);
  }

  lemma FirstRowsNamed(seed: int)
    ensures var t := NewGenerator(seed).industries;
            RowNamed(t[0]) && RowNamed(t[1]) && RowNamed(t[2])
  {
  }

  lemma LastRowsNamed(seed: int)
    ensures var t := NewGenerator(seed).industries;
            RowNamed(t[3]) && RowNamed(t[4]) && RowNamed(t[5])
  {
  }

  /** The two IndexErrors of `generate_lead`: the company's `split()[0]`
      indexes a list, and the first initial indexes a str. */
  lemma GenerateLeadIndexErrors(g: Generator, d: Draws)
    ensures FirstWord(d.fakeCompany).None? ==> GenerateLead(g, d) == Err(IndexErrorMessage)
    ensures FirstWord(d.fakeCompany).Some? && |d.firstName| == 0 ==> GenerateLead(g, d) == Err(StringIndexErrorMessage)
  {
  }

  /** A lead is generated exactly when the fake company has a word and the
      first name is non-empty, provided the names use only the local-part
      characters: the two URL assertions never fire. */
  lemma GenerateLeadSucceeds(g: Generator, d: Draws)
    requires CompaniesNamed(g)
    requires LocalText(d.firstName) && LocalText(d.lastName)
    ensures GenerateLead(g, d).Ok? <==> FirstWord(d.fakeCompany).Some? && |d.firstName| > 0
  {
    if FirstWord(d.fakeCompany).Some? && |d.firstName| > 0 {
      var data := Choice(g.industries, d.industry);
      var suffix := Choice(data.companies, d.companySuffix);
      var company := FirstWord(d.fakeCompany).value + " " + suffix;
      assert RowNamed(data);
      assert company[|company| - |suffix|] == suffix[0];
      CompanyEmailValid(d.firstName, d.lastName, company, d.emailFormat);
      WebsiteValid(company, d.extension);
      LinkedinUrlValid(d.firstName, d.lastName, d.numbered, d.number);
    }
  }

  /** `generate_leads`: `count` leads (none for a negative count), lead `i`
      from `draws(i)`; the first lead that raises aborts the call. */
  method GenerateLeads(g: Generator, count: int, draws: nat -> Draws) returns (r: Result<seq<GenLead>>)
    ensures r.Ok? ==> |r.value| == Max(count, 0)
    ensures r.Ok? ==> forall i :: 0 <= i < |r.value| ==> GenerateLead(g, draws(i)) == Ok(r.value[i])
    ensures r.Err? ==> exists i :: 0 <= i < count && GenerateLead(g, draws(i)) == Err(r.error)
                          && forall j :: 0 <= j < i ==> GenerateLead(g, draws(j)).Ok?
  {
    var leads: seq<GenLead> := [];
    var i := 0;
    while i < count
      invariant 0 <= i <= Max(count, 0)
      invariant |leads| == i
      invariant forall j :: 0 <= j < i ==> GenerateLead(g, draws(j)) == Ok(leads[j])
    {
      var lead := GenerateLead(g, draws(i));
      if lead.Err? {
        return Err(lead.error);
      }
      leads := leads + [lead.value];
      i := i + 1;
    }
    return Ok(leads);
  }

  // ---------------------------------------------------------------------------
  // Validation summary. Each counter reaches the total exactly when every
  // lead passes its validator, and stays 0 exactly when none does.

  /** The number of leads that pass `ok`. */
  function CountWhere(leads: seq<GenLead>, ok: GenLead -> bool): (n: nat)
    ensures n <= |leads|
    ensures n == |leads| <==> forall i :: 0 <= i < |leads| ==> ok(leads[i])
    ensures n == 0 <==> forall i :: 0 <= i < |leads| ==> !ok(leads[i])
  {
    if |leads| == 0 then 0
    else CountWhere(leads[..|leads| - 1], ok) + (if ok(leads[|leads| - 1]) then 1 else 0)
  }

  function CountValidEmails(leads: seq<GenLead>): (n: nat)
    ensures n <= |leads|
    ensures n == |leads| <==> forall i :: 0 <= i < |leads| ==> ValidEmail(leads[i].email)
    ensures n == 0 <==> forall i :: 0 <= i < |leads| ==> !ValidEmail(leads[i].email)
  {
    CountWhere(leads, (l: GenLead) => ValidEmail(l.email))
  }

  function CountValidWebsites(leads: seq<GenLead>): (n: nat)
    ensures n <= |leads|
    ensures n == |leads| <==> forall i :: 0 <= i < |leads| ==> ValidUrl(leads[i].companyWebsite)
    ensures n == 0 <==> forall i :: 0 <= i < |leads| ==> !ValidUrl(leads[i].companyWebsite)
  {
    CountWhere(leads, (l: GenLead) => ValidUrl(l.companyWebsite))
  }

  function CountValidLinkedin(leads: seq<GenLead>): (n: nat)
    ensures n <= |leads|
    ensures n == |leads| <==> forall i :: 0 <= i < |leads| ==> ValidUrl(leads[i].linkedinUrl)
    ensures n == 0 <==> forall i :: 0 <= i < |leads| ==> !ValidUrl(leads[i].linkedinUrl)
  {
    CountWhere(leads, (l: GenLead) => ValidUrl(l.linkedinUrl))
  }

  /** A dict of counters kept in insertion order, as Python keeps it. */
  type Counter = seq<(string, nat)>

  predicate DistinctKeys(c: Counter) {
    forall i, j :: 0 <= i < j < |c| ==> c[i].0 != c[j].0
  }

  function Total(c: Counter): nat {
    if |c| == 0 then 0 else Total(c[..|c| - 1]) + c[|c| - 1].1
  }

  /** `d[key] = d.get(key, 0) + 1`. */
  function Bump(c: Counter, key: string): (r: Counter)
    ensures |r| == |c| || r == c + [(key, 1)]
  {
    if |c| == 0 then [(key, 1)]
    else if c[|c| - 1].0 == key then c[..|c| - 1] + [(key, c[|c| - 1].1 + 1)]
    else
      var head := Bump(c[..|c| - 1], key);
      if |head| == |c| - 1 then head + [c[|c| - 1]] else c + [(key, 1)]
  }

  /** Bumping keeps the keys in place when `key` is present, and appends
      it only when no entry has it. */
  lemma {:induction false} BumpKeys(c: Counter, key: string)
    ensures |Bump(c, key)| == |c| ==> && (forall i :: 0 <= i < |c| ==> Bump(c, key)[i].0 == c[i].0)
                                      && (exists i :: 0 <= i < |c| && c[i].0 == key)
    ensures |Bump(c, key)| != |c| ==> forall i :: 0 <= i < |c| ==> c[i].0 != key
    decreases |c|
  {
    if |c| > 0 {
      var init, last := c[..|c| - 1], c[|c| - 1];
      if last.0 == key {
        assert c[|c| - 1].0 == key;
      } else {
        BumpKeys(init, key);
        var head := Bump(init, key);
        if |head| == |init| {
          var i :| 0 <= i < |init| && init[i].0 == key;
          assert c[i].0 == key;
        }
      }
    }
  }

  /** A dict never holds a key twice: bumping keeps the keys distinct. */
  lemma BumpDistinct(c: Counter, key: string)
    requires DistinctKeys(c)
    ensures DistinctKeys(Bump(c, key))
  {
    BumpKeys(c, key);
  }

  /** The industry counter holds each industry once. */
  lemma {:induction false} DistributionDistinct(leads: seq<GenLead>)
    ensures DistinctKeys(Distribution(leads))
    decreases |leads|
  {
    if |leads| > 0 {
      DistributionDistinct(leads[..|leads| - 1]);
      BumpDistinct(Distribution(leads[..|leads| - 1]), leads[|leads| - 1].industry);
    }
  }

  /** The industry counter of `get_validation_summary`. */
  function Distribution(leads: seq<GenLead>): Counter {
    if |leads| == 0 then [] else Bump(Distribution(leads[..|leads| - 1]), leads[|leads| - 1].industry)
  }

  /** How many leads are in `industry`. */
  function InIndustry(leads: seq<GenLead>, industry: string): nat {
    if |leads| == 0 then 0
    else InIndustry(leads[..|leads| - 1], industry) + (if leads[|leads| - 1].industry == industry then 1 else 0)
  }

  /** Bumping adds one to the total. */
  lemma {:induction false} BumpTotal(c: Counter, key: string)
    ensures Total(Bump(c, key)) == Total(c) + 1
    decreases |c|
  {
    if |c| > 0 {
      var init := c[..|c| - 1];
      if c[|c| - 1].0 == key {
        assert Bump(c, key)[..|c| - 1] == init;
      } else {
        var head := Bump(init, key);
        BumpTotal(init, key);
        if |head| == |init| {
          assert (head + [c[|c| - 1]])[..|c| - 1] == head;
        } else {
          assert (c + [(key, 1)])[..|c|] == c;
        }
      }
    }
  }

  /** The industry counts add up to the number of leads. */
  lemma {:induction false} DistributionTotal(leads: seq<GenLead>)
    ensures Total(Distribution(leads)) == |leads|
    decreases |leads|
  {
    if |leads| > 0 {
      DistributionTotal(leads[..|leads| - 1]);
      BumpTotal(Distribution(leads[..|leads| - 1]), leads[|leads| - 1].industry);
    }
  }

  /** The value a counter holds for `key` (0 when absent). */
  function CountOf(c: Counter, key: string): nat {
    if |c| == 0 then 0
    else CountOf(c[..|c| - 1], key) + (if c[|c| - 1].0 == key then c[|c| - 1].1 else 0)
  }

  /** Bumping `key` adds one to its count and leaves every other count alone. */
  lemma {:induction false} BumpCount(c: Counter, key: string, other: string)
    ensures CountOf(Bump(c, key), other) == CountOf(c, other) + (if key == other then 1 else 0)
    decreases |c|
  {
    if |c| > 0 {
      var init := c[..|c| - 1];
      if c[|c| - 1].0 == key {
        assert Bump(c, key)[..|c| - 1] == init;
      } else {
        var head := Bump(init, key);
        BumpCount(init, key, other);
        if |head| == |init| {
          assert (head + [c[|c| - 1]])[..|c| - 1] == head;
        } else {
          assert (c + [(key, 1)])[..|c|] == c;
        }
      }
    }
  }

  /** Every industry's counter value is its number of leads. */
  lemma {:induction false} DistributionCounts(leads: seq<GenLead>, industry: string)
    ensures CountOf(Distribution(leads), industry) == InIndustry(leads, industry)
    decreases |leads|
  {
    if |leads| > 0 {
      DistributionCounts(leads[..|leads| - 1], industry);
      BumpCount(Distribution(leads[..|leads| - 1]), leads[|leads| - 1].industry, industry);
    }
  }

  datatype Summary = Summary(
    totalLeads: nat, validEmails: nat, validWebsites: nat, validLinkedin: nat,
    industryDistribution: Counter)

  /** `get_validation_summary`, without the formatted `validation_rate`. */
  function ValidationSummary(leads: seq<GenLead>): (s: Summary)
    ensures s.totalLeads == |leads|
    ensures s.validEmails <= s.totalLeads && s.validWebsites <= s.totalLeads && s.validLinkedin <= s.totalLeads
    ensures s.validEmails == s.totalLeads <==> forall i :: 0 <= i < |leads| ==> ValidEmail(leads[i].email)
    ensures s.validWebsites == s.totalLeads <==> forall i :: 0 <= i < |leads| ==> ValidUrl(leads[i].companyWebsite)
    ensures s.validLinkedin == s.totalLeads <==> forall i :: 0 <= i < |leads| ==> ValidUrl(leads[i].linkedinUrl)
    ensures s.validEmails == 0 <==> forall i :: 0 <= i < |leads| ==> !ValidEmail(leads[i].email)
    ensures s.validWebsites == 0 <==> forall i :: 0 <= i < |leads| ==> !ValidUrl(leads[i].companyWebsite)
    ensures s.validLinkedin == 0 <==> forall i :: 0 <= i < |leads| ==> !ValidUrl(leads[i].linkedinUrl)
  {
    Summary(|leads|, CountValidEmails(leads), CountValidWebsites(leads), CountValidLinkedin(leads), Distribution(leads))
  }

  /** The summary's industry counts add up to its total, and each one
      counts the leads of its industry. */
  lemma SummaryDistribution(leads: seq<GenLead>, industry: string)
    ensures Total(ValidationSummary(leads).industryDistribution) == ValidationSummary(leads).totalLeads
    ensures CountOf(ValidationSummary(leads).industryDistribution, industry) == InIndustry(leads, industry)
  {
    DistributionTotal(leads);
    DistributionCounts(leads, industry);
  }

  /** Generated leads are all valid, so the summary counts every one. */
  lemma {:induction false} GeneratedAllValid(leads: seq<GenLead>)
    requires forall i :: 0 <= i < |leads| ==> ValidEmail(leads[i].email)
    ensures CountValidEmails(leads) == |leads|
    decreases |leads|
  {
    if |leads| > 0 {
      GeneratedAllValid(leads[..|leads| - 1]);
    }
  }

  /** The message of Python's ZeroDivisionError. */
  const ZeroDivisionMessage: string := "division by zero"

  /** The validation rate before formatting: a percentage, and Python's
      ZeroDivisionError for an empty list. */
  function ValidationRate(validEmails: nat, total: nat): (r: Result<real>)
    ensures r.Err? <==> total == 0
    ensures r.Err? ==> r.error == ZeroDivisionMessage
    ensures r.Ok? && validEmails <= total ==> 0.0 <= r.value <= 100.0
    ensures r.Ok? && validEmails == total ==> r.value == 100.0
  {
    if total == 0 then Err(ZeroDivisionMessage)
    else Ok(validEmails as real / total as real * 100.0)
  }
}

=== FILE: messaging.dfy ===
/** The message personalizer: the prompt fields it derives from a lead and
    its enrichment, how it reads the language model's reply, and the
    fallback templates it uses when the model call fails.

    The personalizer receives the row `get_lead_with_enrichment` returns: a
    lead LEFT JOINed with its enrichment. Every enrichment column is therefore
    present as a key, holding NULL (Python `None`) when the lead has no
    enrichment row; `dict.get(key, default)` never falls back to `default`.
    That joined view is modelled as `Option<Enrichment>`. */
module Messaging {
  import opened Common
  import opened Text
  import opened LeadStore

  /** The message of Python's TypeError for `None[0]`. */
  const TypeErrorMessage: string := "'NoneType' object is not subscriptable"

  /** A personalizer holds only its model client. */
  datatype Personalizer = Personalizer

  /** The constructor refuses a missing or empty GROQ_API_KEY. */
  function NewPersonalizer(groqKey: Option<string>): (r: Result<Personalizer>)
    ensures r.Err? <==> groqKey.None? || groqKey.value == ""
    ensures r.Err? ==> r.error == KeyMissing
  {
    if groqKey.None? || groqKey.value == "" then Err(KeyMissing) else Ok(Personalizer)
  }

  /** The persona tag of the joined row as an f-string shows it: "None"
      when there is no enrichment row. */
  function PersonaShown(joined: Option<Enrichment>): (s: string)
    ensures joined.None? ==> s == "None"
    ensures joined.Some? ==> s == joined.value.personaTag
  {
    if joined.None? then "None" else joined.value.personaTag
  }

  /** The company size of the joined row as an f-string shows it. */
  function SizeShown(joined: Option<Enrichment>): (s: string)
    ensures joined.None? ==> s == "None"
    ensures joined.Some? ==> s == joined.value.companySize
  {
    if joined.None? then "None" else joined.value.companySize
  }

  /** The pain points of the joined row when Python finds them truthy. */
  predicate HasPains(joined: Option<Enrichment>) {
    joined.Some? && |joined.value.painPoints| > 0
  }

  predicate HasTriggers(joined: Option<Enrichment>) {
    joined.Some? && |joined.value.buyingTriggers| > 0
  }

  // ---------------------------------------------------------------------------
  // Prompts. Only the fields that vary are modelled; the fixed wording of the
  // instructions around them is not.

  datatype EmailPrompt = EmailPrompt(
    fullName: string, roleTitle: string, companyName: string, industry: string,
    persona: string, painText: string, triggerText: string, companySize: string,
    style: string, approach: string)

  datatype LinkedinPrompt = LinkedinPrompt(
    fullName: string, roleTitle: string, companyName: string, industry: string,
    persona: string, painText: string, style: string)

  /** The email prompt's pain point: the first two pain points joined by
      ", ", or "operational challenges" when there are none. */
  function EmailPainText(joined: Option<Enrichment>): (t: string)
    ensures !HasPains(joined) ==> t == "operational challenges"
    ensures HasPains(joined) && |joined.value.painPoints| == 1 ==> t == joined.value.painPoints[0]
    ensures HasPains(joined) && |joined.value.painPoints| >= 2 ==>
              t == joined.value.painPoints[0] + ", " + joined.value.painPoints[1]
  {
    if HasPains(joined) then
      var pp := joined.value.painPoints;
      var two := Take(pp, 2);
      assert |pp| >= 2 ==> Join(", ", two) == pp[0] + ", " + pp[1] by {
        if |pp| >= 2 {
          assert two == [pp[0], pp[1]] && two[1..] == [pp[1]];
        }
      }
      Join(", ", two)
    else "operational challenges"
  }

  /** The email prompt's buying trigger: the first one, or "business growth". */
  function TriggerText(joined: Option<Enrichment>): (t: string)
    ensures HasTriggers(joined) ==> t == joined.value.buyingTriggers[0]
    ensures !HasTriggers(joined) ==> t == "business growth"
  {
    if HasTriggers(joined) then joined.value.buyingTriggers[0] else "business growth"
  }

  /** The LinkedIn prompt's challenge: the first pain point, or "operational efficiency". */
  function LinkedinPainText(joined: Option<Enrichment>): (t: string)
    ensures HasPains(joined) ==> t == joined.value.painPoints[0]
    ensures !HasPains(joined) ==> t == "operational efficiency"
  {
    if HasPains(joined) then joined.value.painPoints[0] else "operational efficiency"
  }

  /** The style and approach of an email variation: "A" is direct, every
      other string the consultative alternative. */
  function EmailStyle(variation: string): (sa: (string, string))
    ensures variation == "A" ==> sa == ("direct and value-focused", "Start with a relevant " + "pain point, then offer a solution")
    ensures variation != "A" ==> sa == ("consultative and insight-driven", "Start with an industry " + "insight, then connect " + "to their challenges")
  {
    if variation == "A" then ("direct and value-focused", "Start with a relevant " + "pain point, then offer a solution")
    else ("consultative and insight-driven", "Start with an industry " + "insight, then connect " + "to their challenges")
  }

  function LinkedinStyle(variation: string): (s: string)
    ensures variation == "A" ==> s == "friendly and direct"
    ensures variation != "A" ==> s == "professional and value-driven"
  {
    if variation == "A" then "friendly and direct" else "professional and value-driven"
  }

  /** `_generate_email_prompt`. */
  function EmailPromptFor(lead: Lead, joined: Option<Enrichment>, variation: string): (p: EmailPrompt)
    ensures p.fullName == lead.fullName && p.roleTitle == lead.roleTitle
    ensures p.companyName == lead.companyName && p.industry == lead.industry
    ensures p.persona == PersonaShown(joined)
    ensures p.companySize == SizeShown(joined)
    ensures p.painText == EmailPainText(joined) && p.triggerText == TriggerText(joined)
    ensures (p.style, p.approach) == EmailStyle(variation)
  {
    var sa := EmailStyle(variation);
    EmailPrompt(lead.fullName, lead.roleTitle, lead.companyName, lead.industry,
                PersonaShown(joined), EmailPainText(joined), TriggerText(joined),
                SizeShown(joined), sa.0, sa.1)
  }

  /** `_generate_linkedin_prompt`. */
  function LinkedinPromptFor(lead: Lead, joined: Option<Enrichment>, variation: string): (p: LinkedinPrompt)
    ensures p.fullName == lead.fullName && p.roleTitle == lead.roleTitle
    ensures p.companyName == lead.companyName && p.industry == lead.industry
    ensures p.persona == PersonaShown(joined)
    ensures p.painText == LinkedinPainText(joined)
    ensures p.style == LinkedinStyle(variation)
  {
    LinkedinPrompt(lead.fullName, lead.roleTitle, lead.companyName, lead.industry,
                   PersonaShown(joined), LinkedinPainText(joined), LinkedinStyle(variation))
  }

  /** The two variations of a prompt differ in style alone: "A" and any
      other variation get different styles, and every variation other
      than "A" gives the same prompt. */
  lemma VariationsDifferOnlyInStyle(lead: Lead, joined: Option<Enrichment>, v: string, w: string)
    ensures EmailPromptFor(lead, joined, v).(style := "", approach := "")
         == EmailPromptFor(lead, joined, w).(style := "", approach := "")
    ensures LinkedinPromptFor(lead, joined, v).(style := "") == LinkedinPromptFor(lead, joined, w).(style := "")
    ensures v != "A" && w != "A" ==> EmailPromptFor(lead, joined, v) == EmailPromptFor(lead, joined, w)
    ensures v != "A" && w != "A" ==> LinkedinPromptFor(lead, joined, v) == LinkedinPromptFor(lead, joined, w)
    ensures v == "A" && w != "A" ==> && EmailPromptFor(lead, joined, v).style != EmailPromptFor(lead, joined, w).style
                                     && LinkedinPromptFor(lead, joined, v).style != LinkedinPromptFor(lead, joined, w).style
  {
    assert "direct and value-focused"[0] != "consultative and insight-driven"[0];
    assert "friendly and direct"[0] != "professional and value-driven"[0];
  }

  /** Both prompts fall back to their defaults together, and otherwise the
      email's pain text starts with the LinkedIn one: the first pain point. */
  lemma PainTextsAgree(joined: Option<Enrichment>)
    ensures !HasPains(joined) <==>
              EmailPainText(joined) == "operational challenges" && LinkedinPainText(joined) == "operational efficiency"
    ensures HasPains(joined) ==>
              |LinkedinPainText(joined)| <= |EmailPainText(joined)|
              && EmailPainText(joined)[..|LinkedinPainText(joined)|] == LinkedinPainText(joined)
  {
    if HasPains(joined) {
      var pp := joined.value.painPoints;
      if |pp| >= 2 {
        assert (pp[0] + ", " + pp[1])[..|pp[0]|] == pp[0];
      }
    }
  }

  // ---------------------------------------------------------------------------
  // Replies

  datatype EmailDraft = EmailDraft(subject: string, body: string, wordCount: nat)
  datatype DmDraft = DmDraft(message: string, wordCount: nat)

  /** The subject used when the reply has no "Subject:" line. */
  function DefaultSubject(industry: string): string {
    "Quick question about " + industry + " operations"
  }

  /** How `generate_email` reads a reply: strip it; when it mentions
      "Subject:", the subject is its first paragraph without any "Subject:"
      and stripped, and the body the stripped rest (the whole reply when
      there is a single paragraph); otherwise a default subject and the
      whole reply as body. The word count is that of the body. */
  function ParseEmailReply(raw: string, industry: string): (d: EmailDraft)
    ensures d.wordCount == |Words(d.body)|
    ensures !Contains(Strip(raw), "Subject:") ==> d == EmailDraft(DefaultSubject(industry), Strip(raw), d.wordCount)
    ensures Contains(Strip(raw), "Subject:") && !Contains(Strip(raw), "\n\n") ==>
              d.body == Strip(raw) && d.subject == Strip(Replace(Strip(raw), "Subject:", ""))
    ensures Contains(Strip(raw), "Subject:") && Contains(Strip(raw), "\n\n") ==>
              exists head, rest :: Strip(raw) == head + "\n\n" + rest && !Contains(head, "\n\n")
                && d.subject == Strip(Replace(head, "Subject:", "")) && d.body == Strip(rest)
    ensures Trimmed(d.body)
  {
    var content := Strip(raw);
    if Contains(content, "Subject:") then
      var parts := SplitOnce(content, "\n\n");
      var subject := Strip(Replace(parts[0], "Subject:", ""));
      var body := if |parts| > 1 then Strip(parts[1]) else content;
      EmailDraft(subject, body, |Words(body)|)
    else
      EmailDraft(DefaultSubject(industry), content, |Words(content)|)
  }

  /** How `generate_linkedin_dm` reads a reply: the stripped text and its word count. */
  function ParseDmReply(raw: string): (d: DmDraft)
    ensures d.message == Strip(raw) && Trimmed(d.message)
    ensures d.wordCount == |Words(d.message)|
  {
    var content := Strip(raw);
    DmDraft(content, |Words(content)|)
  }

  /** A reply in the format the prompt asks for, "Subject: " + subject,
      a blank line, then the body, is read back as exactly that subject and
      body, provided both are non-empty without surrounding whitespace and
      the subject has no blank line and no "Subject:" of its own. */
  lemma WellFormedReplyParses(subject: string, body: string, industry: string)
    requires |subject| > 0 && |body| > 0 && Trimmed(subject) && Trimmed(body)
    requires !Contains(subject, "\n\n") && !Contains(subject, "Subject:")
    ensures ParseEmailReply("Subject: " + subject + "\n\n" + body, industry).subject == subject
    ensures ParseEmailReply("Subject: " + subject + "\n\n" + body, industry).body == body
  {
    var head := "Subject: " + subject;
    var raw := head + "\n\n" + body;
    StripStripped(raw);
    assert Contains(raw, "Subject:") by {
      assert raw[..8] == "Subject:";
      assert OccursAt(raw, "Subject:", 0);
    }
    HeadKeepsNoBlankLine(subject);
    SeparatorAfterSubject(head, body);
    var parts := SplitOnce(raw, "\n\n");
    assert parts[0] == head && parts[1] == body by {
      assert raw[..|head|] == head;
      assert raw[|head| + 2..] == body;
    }
    HeadLosesMarker(subject);
    StripStripped(body);
  }

  /** Prefixing "Subject: " cannot create a blank line. */
  lemma HeadKeepsNoBlankLine(subject: string)
    requires !Contains(subject, "\n\n")
    ensures !Contains("Subject: " + subject, "\n\n")
  {
    var head := "Subject: " + subject;
    forall j | 0 <= j <= |head| - 2
      ensures !OccursAt(head, "\n\n", j)
    {
      if j >= 9 {
        assert head[j..j + 2] == subject[j - 9..j - 9 + 2];
        assert !OccursAt(subject, "\n\n", j - 9);
      } else {
        assert head[j] != '\n';
      }
    }
  }

  /** Removing "Subject:" from "Subject: " + subject and stripping leaves
      the subject. */
  lemma HeadLosesMarker(subject: string)
    requires Trimmed(subject) && !Contains(subject, "Subject:")
    ensures Strip(Replace("Subject: " + subject, "Subject:", "")) == subject
  {
    MarkerRemoved(subject);
    StripOneSpace(subject);
  }

  lemma MarkerRemoved(subject: string)
    requires !Contains(subject, "Subject:")
    ensures Replace("Subject: " + subject, "Subject:", "") == " " + subject
  {
    var head := "Subject: " + subject;
    var tail := " " + subject;
    assert head[..8] == "Subject:" && head[8..] == tail;
    assert !Contains(tail, "Subject:") by {
      forall j | 0 <= j <= |tail| - 8
        ensures !OccursAt(tail, "Subject:", j)
      {
        if j >= 1 {
          assert tail[j..j + 8] == subject[j - 1..j - 1 + 8];
          assert !OccursAt(subject, "Subject:", j - 1);
        } else {
          assert tail[0] == ' ';
        }
      }
    }
    ReplaceAbsent(tail, "Subject:", "");
  }

  lemma StripOneSpace(s: string)
    requires Trimmed(s)
    ensures Strip(" " + s) == s
  {
    assert (" " + s)[1..] == s;
    StripStripped(s);
  }

  /** A parsed email survives storage: the stored `subject + "\n\n" + body`
      reads back as the same subject and body, unless the subject happens to
      contain a blank line or "Subject: " (which Replace can leave behind). */
  lemma ParsedEmailSurvivesStorage(raw: string, industry: string)
    requires !Contains(ParseEmailReply(raw, industry).subject, Separator)
    requires !Contains(ParseEmailReply(raw, industry).subject, "Subject: ")
    requires Trimmed(ParseEmailReply(raw, industry).subject)
    ensures var d := ParseEmailReply(raw, industry);
            ParseEmailContent(EmailContent(d.subject, d.body)) == (d.subject, d.body)
  {
    var d := ParseEmailReply(raw, industry);
    EmailRoundTrip(d.subject, d.body);
  }

  // ---------------------------------------------------------------------------
  // Fallback templates. They index `full_name.split()` and the pain points,
  // which raises when either is empty (IndexError) or the pain points are
  // NULL (TypeError); the first name is evaluated first.

  /** Why a fallback template raises, if it does. */
  function FallbackError(lead: Lead, joined: Option<Enrichment>): (r: Option<string>)
    ensures r.None? <==> FirstWord(lead.fullName).Some? && HasPains(joined)
    ensures r == Some(TypeErrorMessage) <==> FirstWord(lead.fullName).Some? && joined.None?
  {
    if FirstWord(lead.fullName).None? then Some(IndexErrorMessage)
    else if joined.None? then Some(TypeErrorMessage)
    else if |joined.value.painPoints| == 0 then Some(IndexErrorMessage)
    else None
  }

  function FallbackEmailBody(first: string, company: string, industry: string, persona: string, pain: string): string {
    "Hi " + first + ",\n\nI noticed " + company + " is in the " + industry + " space. Many " + persona
    + " I work with face challenges with " + pain
    + EmailPitch()
  }

  /** The fixed closing of the email fallback. */
  function EmailPitch(): string {
    ".\n\nWe've helped similar " + "companies streamline these " + "processes. Would you be "
    + "open to a quick 15-minute " + "call to explore if we " + "could help?\n\nBest regards"
  }

  function FallbackDmMessage(first: string, persona: string, industry: string, pain: string): string {
    "Hi " + first + ", I work with " + persona + " in " + industry + " on " + pain
    + ". Would you be open to a quick call?"
  }

  /** The email fallback: a subject naming persona and company, a body
      addressed to the first name about the first pain point, and a nominal
      word count of 60. */
  function FallbackEmail(lead: Lead, joined: Option<Enrichment>): (r: Result<EmailDraft>)
    ensures r.Err? <==> FallbackError(lead, joined).Some?
    ensures r.Err? ==> r.error == FallbackError(lead, joined).value
    ensures r.Ok? ==> r.value.wordCount == 60
    ensures r.Ok? ==> r.value.subject == "Improving " + joined.value.personaTag + " at " + lead.companyName
    ensures r.Ok? ==> r.value.body == FallbackEmailBody(Words(lead.fullName)[0], lead.companyName, lead.industry,
                                                         joined.value.personaTag, joined.value.painPoints[0])
  {
    match FallbackError(lead, joined)
    case Some(msg) => Err(msg)
    case None =>
      var e := joined.value;
      Ok(EmailDraft("Improving " + e.personaTag + " at " + lead.companyName,
                    FallbackEmailBody(Words(lead.fullName)[0], lead.companyName, lead.industry,
                                      e.personaTag, e.painPoints[0]),
                    60))
  }

  /** The LinkedIn fallback, with a nominal word count of 25. */
  function FallbackDm(lead: Lead, joined: Option<Enrichment>): (r: Result<DmDraft>)
    ensures r.Err? <==> FallbackError(lead, joined).Some?
    ensures r.Err? ==> r.error == FallbackError(lead, joined).value
    ensures r.Ok? ==> r.value.wordCount == 25
    ensures r.Ok? ==> r.value.message == FallbackDmMessage(Words(lead.fullName)[0], joined.value.personaTag,
                                                            lead.industry, joined.value.painPoints[0])
  {
    match FallbackError(lead, joined)
    case Some(msg) => Err(msg)
    case None =>
      var e := joined.value;
      Ok(DmDraft(FallbackDmMessage(Words(lead.fullName)[0], e.personaTag, lead.industry, e.painPoints[0]), 25))
  }

  /** `generate_email`: `reply` is the model's answer to the prompt, or
      `None` when the call (or reading its content) raised. */
  function GenerateEmail(lead: Lead, joined: Option<Enrichment>, reply: Option<string>): (r: Result<EmailDraft>)
    ensures reply.Some? ==> r == Ok(ParseEmailReply(reply.value, lead.industry))
    ensures reply.None? ==> r == FallbackEmail(lead, joined)
  {
    match reply
    case Some(raw) => Ok(ParseEmailReply(raw, lead.industry))
    case None => FallbackEmail(lead, joined)
  }

  /** `generate_linkedin_dm`. */
  function GenerateDm(lead: Lead, joined: Option<Enrichment>, reply: Option<string>): (r: Result<DmDraft>)
    ensures reply.Some? ==> r == Ok(ParseDmReply(reply.value))
    ensures reply.None? ==> r == FallbackDm(lead, joined)
  {
    match reply
    case Some(raw) => Ok(ParseDmReply(raw))
    case None => FallbackDm(lead, joined)
  }

  /** The model's replies to the four prompts, in the order they are asked. */
  datatype Replies = Replies(emailA: Option<string>, emailB: Option<string>,
                             linkedinA: Option<string>, linkedinB: Option<string>)

  /** The dict `generate_all_messages` returns: keys email_a, email_b,
      linkedin_a and linkedin_b. */
  datatype AllMessages = AllMessages(emailA: EmailDraft, emailB: EmailDraft, linkedinA: DmDraft, linkedinB: DmDraft)

  /** `generate_all_messages`: the four drafts, built in key order; the
      first one that raises aborts the rest. */
  function GenerateAll(lead: Lead, joined: Option<Enrichment>, replies: Replies): (r: Result<AllMessages>)
    ensures r.Ok? ==> Ok(r.value.emailA) == GenerateEmail(lead, joined, replies.emailA)
    ensures r.Ok? ==> Ok(r.value.emailB) == GenerateEmail(lead, joined, replies.emailB)
    ensures r.Ok? ==> Ok(r.value.linkedinA) == GenerateDm(lead, joined, replies.linkedinA)
    ensures r.Ok? ==> Ok(r.value.linkedinB) == GenerateDm(lead, joined, replies.linkedinB)
  {
    var a := GenerateEmail(lead, joined, replies.emailA);
    if a.Err? then Err(a.error) else
    var b := GenerateEmail(lead, joined, replies.emailB);
    if b.Err? then Err(b.error) else
    var c := GenerateDm(lead, joined, replies.linkedinA);
    if c.Err? then Err(c.error) else
    var d := GenerateDm(lead, joined, replies.linkedinB);
    if d.Err? then Err(d.error) else
    Ok(AllMessages(a.value, b.value, c.value, d.value))
  }

  /** Some reply is missing. */
  predicate AnyMissing(replies: Replies) {
    replies.emailA.None? || replies.emailB.None? || replies.linkedinA.None? || replies.linkedinB.None?
  }

  /** `generate_all_messages` raises exactly when some model call failed
      and the lead has no first name or no pain points, and the exception
      is the one that template raises. */
  lemma GenerateAllFails(lead: Lead, joined: Option<Enrichment>, replies: Replies)
    ensures GenerateAll(lead, joined, replies).Err? <==> AnyMissing(replies) && FallbackError(lead, joined).Some?
    ensures GenerateAll(lead, joined, replies).Err? ==>
              GenerateAll(lead, joined, replies).error == FallbackError(lead, joined).value
  {
    var fails := FallbackError(lead, joined).Some?;
    assert GenerateEmail(lead, joined, replies.emailA).Err? <==> replies.emailA.None? && fails;
    assert GenerateEmail(lead, joined, replies.emailB).Err? <==> replies.emailB.None? && fails;
    assert GenerateDm(lead, joined, replies.linkedinA).Err? <==> replies.linkedinA.None? && fails;
    assert GenerateDm(lead, joined, replies.linkedinB).Err? <==> replies.linkedinB.None? && fails;
  }

  /** When every model call answers, the word counts are the real ones. */
  lemma AnsweredWordCounts(lead: Lead, joined: Option<Enrichment>, replies: Replies)
    requires !AnyMissing(replies)
    ensures GenerateAll(lead, joined, replies).Ok?
    ensures var m := GenerateAll(lead, joined, replies).value;
            && m.emailA.wordCount == |Words(m.emailA.body)| && m.emailB.wordCount == |Words(m.emailB.body)|
            && m.linkedinA.wordCount == |Words(m.linkedinA.message)|
            && m.linkedinB.wordCount == |Words(m.linkedinB.message)|
  {
  }
}

=== FILE: migrate.dfy ===
/** The schema migration that adds the `phone`, `comments` and `source`
    columns to the `leads` table.

    The database is reduced to whether its file exists and the column
    names of `leads`. Executing an ALTER may raise (a locked or read-only
    database, say): that is an oracle, the index of the first statement
    that raises together with its message. */
module Migrate {
  import opened Common

  datatype Database = Database(present: bool, columns: seq<string>)

  /** What the migration reports. */
  datatype Report = DbMissing | UpToDate | Migrated(added: nat) | MigrationFailed(error: string)

  /** A statement that raises: its position in the list and its message. */
  datatype Failure = Failure(at: nat, error: string)

  /** The three columns the migration adds, in the order it checks them. */
  function Wanted(): seq<string> {
    ["phone", "comments", "source"]
  }

  /** The names of `names` not in `columns`, in the order of `names`. */
  function Absent(names: seq<string>, columns: seq<string>): seq<string> {
    if |names| == 0 then []
    else (if names[0] in columns then [] else [names[0]]) + Absent(names[1..], columns)
  }

  /** The wanted columns the table lacks, in checking order. */
  function Missing(columns: seq<string>): (m: seq<string>)
    ensures m == Absent(Wanted(), columns)
    ensures |m| <= 3
    ensures forall c :: c in m <==> c in Wanted() && c !in columns
    ensures forall i, j :: 0 <= i < j < |m| ==> m[i] != m[j]
  {
    var w := Wanted();
    assert w[1..][1..] == w[2..] && w[2..][1..] == [];
    assert Absent(w[2..], columns) == (if "source" in columns then [] else ["source"]);
    assert Absent(w[1..], columns) == (if "comments" in columns then [] else ["comments"]) + Absent(w[2..], columns);
    (if "phone" in columns then [] else ["phone"])
    + (if "comments" in columns then [] else ["comments"])
    + (if "source" in columns then [] else ["source"])
  }

  /** The statement that adds one TEXT column. */
  function AlterFor(column: string): string {
    "ALTER TABLE leads " + "ADD COLUMN " + column + " TEXT"
  }

  /** `migrations_needed`: one ALTER per missing column, in checking order,
      and nothing else. */
  function MigrationsNeeded(columns: seq<string>): (stmts: seq<string>)
    ensures |stmts| == |Missing(columns)|
    ensures forall i :: 0 <= i < |stmts| ==> stmts[i] == AlterFor(Missing(columns)[i])
    ensures stmts == [] <==> "phone" in columns && "comments" in columns && "source" in columns
  {
    var m := Missing(columns);
    assert m == [] <==> "phone" in columns && "comments" in columns && "source" in columns by {
      if m != [] { assert m[0] in m; }
    }
    seq(|m|, i requires 0 <= i < |m| => AlterFor(m[i]))
  }

  /** Adding the missing columns leaves nothing to migrate. */
  lemma MigrationIdempotent(columns: seq<string>)
    ensures MigrationsNeeded(columns + Missing(columns)) == []
  {
    var after := columns + Missing(columns);
    forall c | c in Wanted() ensures c in after {
      if c !in columns { assert c in Missing(columns); }
    }
  }

  /** `migrate_database` as written. sqlite3 runs DDL outside any
      transaction (its implicit BEGIN precedes only INSERT, UPDATE, DELETE
      and REPLACE), so each ALTER takes effect as it executes and the
      `rollback()` in the handler undoes none of the ones before the
      failing statement. */
  function MigrateAsWritten(db: Database, failure: Option<Failure>): (r: (Report, Database))
    ensures r.1.present == db.present
    ensures !db.present ==> r == (DbMissing, db)
    ensures db.present && Missing(db.columns) == [] ==> r == (UpToDate, db)
    ensures r.0.Migrated? ==> r.1.columns == db.columns + Missing(db.columns) && r.0.added == |Missing(db.columns)|
    ensures r.0.MigrationFailed? ==>
              (&& failure.Some? && r.0.error == failure.value.error && failure.value.at < |Missing(db.columns)|
               && r.1.columns == db.columns + Missing(db.columns)[..failure.value.at])
  {
    if !db.present then (DbMissing, db)
    else
      var m := Missing(db.columns);
      if m == [] then (UpToDate, db)
      else match failure
        case Some(f) =>
          if f.at < |m| then (MigrationFailed(f.error), db.(columns := db.columns + m[..f.at]))
          else (Migrated(|m|), db.(columns := db.columns + m))
        case None => (Migrated(|m|), db.(columns := db.columns + m))
  }

  /** The migration with its ALTERs inside one transaction: a failure
      leaves the table as it was. */
  function MigrateAtomic(db: Database, failure: Option<Failure>): (r: (Report, Database))
    ensures r.1.present == db.present
    ensures !db.present ==> r == (DbMissing, db)
    ensures db.present && Missing(db.columns) == [] ==> r == (UpToDate, db)
    ensures r.0.Migrated? ==> r.1.columns == db.columns + Missing(db.columns) && r.0.added == |Missing(db.columns)|
    ensures r.0.MigrationFailed? ==> failure.Some? && r.0.error == failure.value.error && r.1 == db
  {
    if !db.present then (DbMissing, db)
    else
      var m := Missing(db.columns);
      if m == [] then (UpToDate, db)
      else match failure
        case Some(f) =>
          if f.at < |m| then (MigrationFailed(f.error), db)
          else (Migrated(|m|), db.(columns := db.columns + m))
        case None => (Migrated(|m|), db.(columns := db.columns + m))
  }

  /** The corrected migration is all or nothing: afterwards either the
      table is unchanged or every wanted column is present. */
  lemma AtomicAllOrNothing(db: Database, failure: Option<Failure>)
    ensures var after := MigrateAtomic(db, failure).1;
            after == db || MigrationsNeeded(after.columns) == []
  {
    MigrationIdempotent(db.columns);
  }

  /** Running the corrected migration again after it succeeded finds
      nothing to do. */
  lemma AtomicRerunIsUpToDate(db: Database, failure: Option<Failure>, again: Option<Failure>)
    requires db.present
    requires !MigrateAtomic(db, failure).0.MigrationFailed?
    ensures MigrateAtomic(MigrateAtomic(db, failure).1, again).0 == UpToDate
  {
    MigrationIdempotent(db.columns);
    assert |MigrationsNeeded(MigrateAtomic(db, failure).1.columns)| == 0;
  }

  /** As written, a failure at the second statement leaves the first
      column added: a table lacking all three columns ends up with `phone`
      but without `comments`. */
  lemma AsWrittenLeavesPartialSchema()
    ensures var db := Database(true, ["id", "full_name"]);
            var r := MigrateAsWritten(db, Some(Failure(1, "database is locked")));
            && r.0 == MigrationFailed("database is locked")
            && "phone" in r.1.columns && "comments" !in r.1.columns
            && MigrationsNeeded(r.1.columns) != []
  {
    var db := Database(true, ["id", "full_name"]);
    assert Missing(db.columns) == ["phone", "comments", "source"];
    var r := MigrateAsWritten(db, Some(Failure(1, "database is locked")));
    assert r.1.columns == ["id", "full_name", "phone"];
  }
}

=== FILE: outreach.dfy ===
/** The outreach dispatcher (backend/outreach.py): a fixed-window rate
    limiter with a one-second spacing rule, email sending with bounded retries
    and exponential backoff, simulated LinkedIn messages with bounded retries,
    and routing by channel.

    Time is an abstract real clock threaded through a `Dispatcher` value. It
    never runs backwards: `sleep(d)` moves it forward by `d` plus a
    non-negative overshoot, and a read of the clock may find it later than
    the previous read. Everything the environment decides for one send
    attempt (the SMTP outcome or the LinkedIn coin flip, and the overshoots)
    is one `Trial`, taken from an oracle stream `trials` at the dispatcher's
    cursor `next`, which moves on by one per attempt. */
module Outreach {
  import opened Common
  import Text

  /** A non-negative amount of time. */
  type Slack = r: real | r >= 0.0

  /** What happens to one send: for email, the SMTP exchange succeeds or
      raises with a message; for LinkedIn, `Delivered` is the 95% coin flip
      coming up success. */
  datatype Delivery = Delivered | Refused(error: string)

  /** The environment of one attempt: its delivery outcome, the time that
      passes before the limiter reads the clock, and how far the clock is
      found past the target after the window wait, at the final limiter read,
      and after the retry pause. */
  datatype Trial = Trial(delivery: Delivery, idle: Slack, waitOver: Slack, gapOver: Slack, pauseOver: Slack)

  /** The service's settings: dry-run flag, RATE_LIMIT_PER_MINUTE and MAX_RETRIES. */
  datatype Config = Config(dryRun: bool, rateLimit: int, maxRetries: int)

  const DefaultRateLimit: int := 10
  const DefaultMaxRetries: int := 2

  /** The limiter's three fields. */
  datatype Limiter = Limiter(lastSendTime: real, sendCount: nat, windowStart: real)

  /** One `OutreachService` instance, the current time and the oracle cursor. */
  datatype Dispatcher = Dispatcher(cfg: Config, limiter: Limiter, clock: real, next: nat)

  /** The constructor: no send yet (`last_send_time = 0`), an empty window
      that starts now. */
  function NewDispatcher(dryRun: bool, rateLimit: int, maxRetries: int, now: real): (d: Dispatcher)
    ensures d.cfg == Config(dryRun, rateLimit, maxRetries)
    ensures d.limiter.sendCount == 0 && d.limiter.windowStart == now && d.clock == now && d.next == 0
    ensures now >= 0.0 ==> Coherent(d)
  {
    Dispatcher(Config(dryRun, rateLimit, maxRetries), Limiter(0.0, 0, now), now, 0)
  }

  /** The limiter's timestamps are readings of the clock, so none lies ahead of it. */
  predicate Coherent(d: Dispatcher) {
    d.limiter.lastSendTime <= d.clock && d.limiter.windowStart <= d.clock
  }

  /** `_apply_rate_limit`, run against the environment of trial `t`. */
  function ApplyRateLimit(d: Dispatcher, t: Trial): (r: Dispatcher)
    ensures r.cfg == d.cfg && r.next == d.next
    ensures r.clock >= d.clock + t.idle
    ensures r.limiter.lastSendTime == r.clock
    ensures Coherent(d) ==> Coherent(r)
    // spacing: at least one second after the previous send, whatever the clock did
    ensures r.limiter.lastSendTime >= d.limiter.lastSendTime + 1.0
  {
    var lim := d.limiter;
    var current := d.clock + t.idle;
    // reset the counter when a minute has passed
    var count1: nat := if current - lim.windowStart >= 60.0 then 0 else lim.sendCount;
    var start1 := if current - lim.windowStart >= 60.0 then current else lim.windowStart;
    // at the cap: sleep until the window ends, then restart it
    var sleepTime := 60.0 - (current - start1);
    var waited := count1 >= d.cfg.rateLimit && sleepTime > 0.0;
    var clock2 := if waited then current + sleepTime + t.waitOver else current;
    var count2: nat := if waited then 0 else count1;
    var start2 := if waited then clock2 else start1;
    // at least one second since the last send, measured from `current`
    var sinceLast := current - lim.lastSendTime;
    var clock3 := if sinceLast < 1.0 then clock2 + (1.0 - sinceLast) + t.gapOver else clock2 + t.gapOver;
    Dispatcher(d.cfg, Limiter(clock3, count2 + 1, start2), clock3, d.next)
  }

  /** The fixed window: the count stays within the cap; a window at least
      60 s old restarts at the current reading; under the cap the send is
      counted in the same window; at the cap the limiter waits out the
      window and starts a new one. */
  lemma RateLimitWindow(d: Dispatcher, t: Trial)
    ensures var r := ApplyRateLimit(d, t);
            var now := d.clock + t.idle;
            var lim := d.limiter;
            (d.cfg.rateLimit >= 1 && lim.windowStart <= d.clock ==> 1 <= r.limiter.sendCount <= d.cfg.rateLimit)
            && (d.cfg.rateLimit >= 1 && now - lim.windowStart >= 60.0 ==>
                  r.limiter.windowStart == now && r.limiter.sendCount == 1)
            && (now - lim.windowStart < 60.0 && lim.sendCount < d.cfg.rateLimit ==>
                  r.limiter.windowStart == lim.windowStart && r.limiter.sendCount == lim.sendCount + 1)
            && (lim.windowStart <= d.clock && now - lim.windowStart < 60.0 && lim.sendCount >= d.cfg.rateLimit ==>
                  r.limiter.windowStart >= lim.windowStart + 60.0 && r.limiter.sendCount == 1
                  && r.clock >= lim.windowStart + 60.0)
  {
  }

  /** The spacing is measured from the reading taken before any window wait,
      so a window wait and a spacing pause add up instead of overlapping. */
  lemma WaitsAccumulate(d: Dispatcher, t: Trial)
    requires d.limiter.windowStart <= d.clock
    requires d.clock + t.idle - d.limiter.windowStart < 60.0 && d.limiter.sendCount >= d.cfg.rateLimit
    requires d.clock + t.idle - d.limiter.lastSendTime < 1.0
    ensures ApplyRateLimit(d, t).clock >=
            d.limiter.windowStart + 60.0 + (1.0 - (d.clock + t.idle - d.limiter.lastSendTime))
  {
  }

  /** The dispatcher after each of a run of consecutive limiter passes. */
  function Passes(d: Dispatcher, ts: seq<Trial>): (r: seq<Dispatcher>)
    ensures |r| == |ts|
    decreases |ts|
  {
    if |ts| == 0 then []
    else var d1 := ApplyRateLimit(d, ts[0]); [d1] + Passes(d1, ts[1..])
  }

  /** Over any run of passes from a coherent dispatcher with a positive
      cap, every window count stays between 1 and the cap. */
  lemma {:induction false} PassesStayCapped(d: Dispatcher, ts: seq<Trial>)
    requires Coherent(d) && d.cfg.rateLimit >= 1
    ensures forall i :: 0 <= i < |ts| ==>
              Coherent(Passes(d, ts)[i]) && Passes(d, ts)[i].cfg == d.cfg
              && 1 <= Passes(d, ts)[i].limiter.sendCount <= d.cfg.rateLimit
    decreases |ts|
  {
    if |ts| > 0 {
      var d1 := ApplyRateLimit(d, ts[0]);
      RateLimitWindow(d, ts[0]);
      PassesStayCapped(d1, ts[1..]);
      forall i | 0 <= i < |ts|
        ensures Coherent(Passes(d, ts)[i]) && Passes(d, ts)[i].cfg == d.cfg
                && 1 <= Passes(d, ts)[i].limiter.sendCount <= d.cfg.rateLimit
      {
        if i > 0 {
          assert Passes(d, ts)[i] == Passes(d1, ts[1..])[i - 1];
        }
      }
    }
  }

  /** Any two passes of a run are at least as many seconds apart as the
      number of passes between them. */
  lemma {:induction false} PassesSpaced(d: Dispatcher, ts: seq<Trial>)
    ensures forall i, j :: 0 <= i < j < |ts| ==>
              Passes(d, ts)[j].limiter.lastSendTime >= Passes(d, ts)[i].limiter.lastSendTime + (j - i) as real
    ensures |ts| > 0 ==> Passes(d, ts)[0].limiter.lastSendTime >= d.limiter.lastSendTime + 1.0
    decreases |ts|
  {
    if |ts| > 0 {
      var d1 := ApplyRateLimit(d, ts[0]);
      var rest := Passes(d1, ts[1..]);
      PassesSpaced(d1, ts[1..]);
      assert Passes(d, ts) == [d1] + rest;
      forall i, j | 0 <= i < j < |ts|
        ensures Passes(d, ts)[j].limiter.lastSendTime >= Passes(d, ts)[i].limiter.lastSendTime + (j - i) as real
      {
        if i == 0 {
          if j > 1 {
            assert rest[j - 1].limiter.lastSendTime >= rest[0].limiter.lastSendTime + (j - 1 - 0) as real;
          }
        } else {
          assert rest[j - 1].limiter.lastSendTime >= rest[i - 1].limiter.lastSendTime + (j - 1 - (i - 1)) as real;
        }
      }
    }
  }

  datatype SendStatus = Success | Failure

  /** The `status` string of a result dict. */
  function StatusText(s: SendStatus): string {
    match s
    case Success => "success"
    case Failure => "failed"
  }

  /** A result dict: status, message, channel and timestamp (a clock reading). */
  datatype SendResult = SendResult(status: SendStatus, message: string, channel: string, timestamp: real)

  /** A finished send: its result, the dispatcher afterwards, and how many
      attempts (rate-limiter passes) it took. */
  datatype Sent = Sent(result: SendResult, after: Dispatcher, attempts: nat)

  /** Attempts still allowed when the retry counter is `k`: the source
      retries while `k < max_retries`. */
  function Budget(maxRetries: int, k: nat): (n: nat)
    ensures n >= 1
    ensures k < maxRetries ==> n == maxRetries - k + 1
  {
    if k < maxRetries then maxRetries - k + 1 else 1
  }

  function Pow2(k: nat): (p: nat)
    ensures p >= 1
  {
    if k == 0 then 1 else 2 * Pow2(k - 1)
  }

  /** The backoff pauses after failed attempts `k`, ..., `k + m - 1`. */
  function Backoff(k: nat, m: nat): nat
    decreases m
  {
    if m == 0 then 0 else Pow2(k) + Backoff(k + 1, m - 1)
  }

  /** The pauses of the first `m` failures add up to 2^m - 1 seconds. */
  lemma {:induction false} BackoffFromZero(m: nat)
    ensures Backoff(0, m) == Pow2(m) - 1
  {
    BackoffShift(0, m);
  }

  lemma {:induction false} BackoffShift(k: nat, m: nat)
    ensures Backoff(k, m) == Pow2(k + m) - Pow2(k)
    decreases m
  {
    if m > 0 {
      BackoffShift(k + 1, m - 1);
    }
  }

  const DryRunEmailMessage: string := "Dry run - email logged"
  const EmailSentMessage: string := "Email sent successfully"
  const LinkedinSentMessage: string := "LinkedIn DM simulated successfully"
  const LinkedinFailedMessage: string := "LinkedIn DM simulation failed"

  function EmailFailedMessage(attempts: nat, error: string): string {
    "Email failed after " + Text.NatToString(attempts) + " attempts: " + error
  }

  /** `send_email` entered with `retry_count = k`, in the source's recursive
      shape: pass the limiter; in dry run report success at once; otherwise
      try SMTP; on failure, while `k < max_retries`, sleep 2^k seconds and
      try again; at the end report the last error as data. */
  function EmailFrom(d: Dispatcher, trials: nat -> Trial, k: nat): (s: Sent)
    ensures s.result.channel == "email"
    ensures 1 <= s.attempts <= Budget(d.cfg.maxRetries, k)
    ensures s.after.cfg == d.cfg && s.after.next == d.next + s.attempts
    ensures s.result.timestamp == s.after.clock
    // dry run: one limiter pass, no SMTP, always success
    ensures d.cfg.dryRun ==> s.result == SendResult(Success, DryRunEmailMessage, "email", s.after.clock) && s.attempts == 1
    decreases Budget(d.cfg.maxRetries, k)
  {
    var t := trials(d.next);
    var d1 := ApplyRateLimit(d, t).(next := d.next + 1);
    if d1.cfg.dryRun then Sent(SendResult(Success, DryRunEmailMessage, "email", d1.clock), d1, 1)
    else match t.delivery
      case Delivered => Sent(SendResult(Success, EmailSentMessage, "email", d1.clock), d1, 1)
      case Refused(e) =>
        if k < d.cfg.maxRetries then
          var rest := EmailFrom(EmailRetryFrom(d, t, k), trials, k + 1);
          rest.(attempts := rest.attempts + 1)
        else Sent(SendResult(Failure, EmailFailedMessage(k + 1, e), "email", d1.clock), d1, 1)
  }

  /** The dispatcher a retry starts from: after the limiter pass and the
      2^k-second backoff pause. */
  function EmailRetryFrom(d: Dispatcher, t: Trial, k: nat): (r: Dispatcher)
    ensures r.cfg == d.cfg && r.next == d.next + 1
  {
    var d1 := ApplyRateLimit(d, t).(next := d.next + 1);
    d1.(clock := d1.clock + Pow2(k) as real + t.pauseOver)
  }

  /** A refused live attempt with retries left is one more attempt in
      front of the retry's send. */
  lemma EmailRetries(d: Dispatcher, trials: nat -> Trial, k: nat)
    requires !d.cfg.dryRun && trials(d.next).delivery.Refused? && k < d.cfg.maxRetries
    ensures var rest := EmailFrom(EmailRetryFrom(d, trials(d.next), k), trials, k + 1);
            EmailFrom(d, trials, k) == rest.(attempts := rest.attempts + 1)
  {
  }

  /** Otherwise the send ends with this attempt: success in a dry run or
      on delivery, the last error once the retries are spent. */
  lemma EmailStops(d: Dispatcher, trials: nat -> Trial, k: nat)
    requires !(!d.cfg.dryRun && trials(d.next).delivery.Refused? && k < d.cfg.maxRetries)
    ensures var t := trials(d.next);
            var d1 := ApplyRateLimit(d, t).(next := d.next + 1);
            var s := EmailFrom(d, trials, k);
            && s.attempts == 1 && s.after == d1
            && s.result.status == (if d.cfg.dryRun || t.delivery.Delivered? then Success else Failure)
            && (!d.cfg.dryRun && t.delivery.Delivered? ==> s.result.message == EmailSentMessage)
            && (!d.cfg.dryRun && t.delivery.Refused? ==> s.result.message == EmailFailedMessage(k + 1, t.delivery.error))
  {
  }

  /** Attempts `lo`, ..., `lo + n - 1` are all refused. */
  predicate Refusals(trials: nat -> Trial, lo: nat, n: nat) {
    forall j :: lo <= j < lo + n ==> trials(j).delivery.Refused?
  }

  /** A run of refusals is its first refusal followed by the rest. */
  lemma RefusalsSplit(trials: nat -> Trial, lo: nat, n: nat)
    requires n >= 1
    ensures Refusals(trials, lo, n) <==> trials(lo).delivery.Refused? && Refusals(trials, lo + 1, n - 1)
  {
    if trials(lo).delivery.Refused? && Refusals(trials, lo + 1, n - 1) {
      forall j | lo <= j < lo + n ensures trials(j).delivery.Refused? {
        if j > lo { assert lo + 1 <= j < lo + 1 + (n - 1); }
      }
    }
  }

  /** The email result is a failure exactly when every allowed attempt was
      refused, and then every allowed attempt was made. */
  lemma {:induction false} EmailFailure(d: Dispatcher, trials: nat -> Trial, k: nat)
    ensures EmailFrom(d, trials, k).result.status == Failure <==>
              !d.cfg.dryRun && Refusals(trials, d.next, Budget(d.cfg.maxRetries, k))
    ensures EmailFrom(d, trials, k).result.status == Failure ==>
              EmailFrom(d, trials, k).attempts == Budget(d.cfg.maxRetries, k)
    decreases Budget(d.cfg.maxRetries, k)
  {
    var s := EmailFrom(d, trials, k);
    var t := trials(d.next);
    var n := Budget(d.cfg.maxRetries, k);
    RefusalsSplit(trials, d.next, n);
    if !d.cfg.dryRun && t.delivery.Refused? && k < d.cfg.maxRetries {
      var d2 := EmailRetryFrom(d, t, k);
      var rest := EmailFrom(d2, trials, k + 1);
      EmailRetries(d, trials, k);
      EmailFailure(d2, trials, k + 1);
      assert d2.next == d.next + 1 && Budget(d.cfg.maxRetries, k + 1) == n - 1;
    } else {
      EmailStops(d, trials, k);
      assert s.result.status == Failure ==> n == 1;
    }
  }

  /** A failed email reports the number of attempts made, counting from
      the first call, and the error of the last one. */
  lemma {:induction false} EmailFailureReport(d: Dispatcher, trials: nat -> Trial, k: nat)
    ensures var s := EmailFrom(d, trials, k);
            s.result.status == Failure ==>
              trials(d.next + s.attempts - 1).delivery.Refused?
              && s.result.message == EmailFailedMessage(k + s.attempts, trials(d.next + s.attempts - 1).delivery.error)
    decreases Budget(d.cfg.maxRetries, k)
  {
    var s := EmailFrom(d, trials, k);
    var t := trials(d.next);
    if !d.cfg.dryRun && t.delivery.Refused? && k < d.cfg.maxRetries {
      var d2 := EmailRetryFrom(d, t, k);
      var rest := EmailFrom(d2, trials, k + 1);
      EmailRetries(d, trials, k);
      EmailFailureReport(d2, trials, k + 1);
      assert s.result == rest.result && s.attempts == rest.attempts + 1;
      assert d2.next + rest.attempts - 1 == d.next + s.attempts - 1;
    } else {
      EmailStopReport(d, trials, k);
    }
  }

  /** An email that stops at once makes one attempt, and if it fails it
      reports that attempt. */
  lemma EmailStopReport(d: Dispatcher, trials: nat -> Trial, k: nat)
    requires !(!d.cfg.dryRun && trials(d.next).delivery.Refused? && k < d.cfg.maxRetries)
    ensures EmailFrom(d, trials, k).attempts == 1 && EmailFrom(d, trials, k).after.clock >= d.clock
    ensures var s := EmailFrom(d, trials, k);
            s.result.status == Failure ==>
              trials(d.next).delivery.Refused?
              && s.result.message == EmailFailedMessage(k + 1, trials(d.next).delivery.error)
  {
    EmailStops(d, trials, k);
  }

  /** A live email success is the first delivered attempt: every earlier
      attempt was refused. */
  lemma {:induction false} EmailSuccess(d: Dispatcher, trials: nat -> Trial, k: nat)
    ensures var s := EmailFrom(d, trials, k);
            s.result.status == Success && !d.cfg.dryRun ==>
              s.result.message == EmailSentMessage
              && trials(d.next + s.attempts - 1).delivery.Delivered?
              && Refusals(trials, d.next, s.attempts - 1)
    decreases Budget(d.cfg.maxRetries, k)
  {
    var s := EmailFrom(d, trials, k);
    var t := trials(d.next);
    if !d.cfg.dryRun && t.delivery.Refused? && k < d.cfg.maxRetries {
      var d2 := EmailRetryFrom(d, t, k);
      var rest := EmailFrom(d2, trials, k + 1);
      EmailRetries(d, trials, k);
      EmailSuccess(d2, trials, k + 1);
      assert d2.next == d.next + 1;
      RefusalsSplit(trials, d.next, s.attempts - 1);
    } else {
      EmailStops(d, trials, k);
    }
  }

  /** One more backoff pause in front of a run of pauses. */
  lemma BackoffStep(c0: real, c2: real, c3: real, k: nat, m: nat)
    requires m >= 1 && c2 >= c0 + Pow2(k) as real && c3 >= c2 + Backoff(k + 1, m - 1) as real
    ensures c3 >= c0 + Backoff(k, m) as real
  {
  }

  /** The backoff pause of every failed attempt is taken. */
  lemma {:induction false} EmailBackoffTaken(d: Dispatcher, trials: nat -> Trial, k: nat)
    ensures EmailFrom(d, trials, k).after.clock >= d.clock + Backoff(k, EmailFrom(d, trials, k).attempts - 1) as real
    decreases Budget(d.cfg.maxRetries, k)
  {
    var s := EmailFrom(d, trials, k);
    var t := trials(d.next);
    var d1 := ApplyRateLimit(d, t).(next := d.next + 1);
    if !d.cfg.dryRun && t.delivery.Refused? && k < d.cfg.maxRetries {
      var d2 := EmailRetryFrom(d, t, k);
      var rest := EmailFrom(d2, trials, k + 1);
      EmailRetries(d, trials, k);
      EmailBackoffTaken(d2, trials, k + 1);
      var c1 := ApplyRateLimit(d, t).clock;
      assert c1 >= d.clock;
      assert d2.clock == c1 + Pow2(k) as real + t.pauseOver;
      BackoffStep(d.clock, d2.clock, rest.after.clock, k, rest.attempts);
    } else {
      EmailStopReport(d, trials, k);
      assert Backoff(k, 0) == 0;
    }
  }

  /** Every email attempt passes the limiter, so each adds at least one
      second of spacing, and the limiter's readings stay behind the clock. */
  lemma {:induction false} EmailSpacing(d: Dispatcher, trials: nat -> Trial, k: nat)
    ensures Coherent(d) ==> Coherent(EmailFrom(d, trials, k).after)
    ensures EmailFrom(d, trials, k).after.limiter.lastSendTime >= d.limiter.lastSendTime + EmailFrom(d, trials, k).attempts as real
    decreases Budget(d.cfg.maxRetries, k)
  {
    var s := EmailFrom(d, trials, k);
    var t := trials(d.next);
    if !d.cfg.dryRun && t.delivery.Refused? && k < d.cfg.maxRetries {
      var d2 := EmailRetryFrom(d, t, k);
      var rest := EmailFrom(d2, trials, k + 1);
      EmailRetries(d, trials, k);
      EmailSpacing(d2, trials, k + 1);
    } else {
      EmailStops(d, trials, k);
    }
  }

  /** Every email attempt passes the limiter, so each adds at least one
      second of spacing, and the backoff pause of every failed attempt is
      taken. */
  lemma EmailTiming(d: Dispatcher, trials: nat -> Trial, k: nat)
    ensures Coherent(d) ==> Coherent(EmailFrom(d, trials, k).after)
    ensures EmailFrom(d, trials, k).after.limiter.lastSendTime >= d.limiter.lastSendTime + EmailFrom(d, trials, k).attempts as real
    ensures EmailFrom(d, trials, k).after.clock >= d.clock + Backoff(k, EmailFrom(d, trials, k).attempts - 1) as real
  {
    EmailSpacing(d, trials, k);
    EmailBackoffTaken(d, trials, k);
  }

  /** `send_email` as a bounded loop with an attempt counter; it computes
      exactly what the recursive definition computes. */
  method SendEmail(d: Dispatcher, trials: nat -> Trial) returns (s: Sent)
    ensures s == EmailFrom(d, trials, 0)
  {
    var cur := d;
    var k: nat := 0;
    while true
      invariant cur.cfg == d.cfg
      invariant var rest := EmailFrom(cur, trials, k); rest.(attempts := rest.attempts + k) == EmailFrom(d, trials, 0)
      decreases Budget(d.cfg.maxRetries, k)
    {
      var t := trials(cur.next);
      var d1 := ApplyRateLimit(cur, t).(next := cur.next + 1);
      if d1.cfg.dryRun {
        return Sent(SendResult(Success, DryRunEmailMessage, "email", d1.clock), d1, k + 1);
      }
      match t.delivery {
        case Delivered =>
          return Sent(SendResult(Success, EmailSentMessage, "email", d1.clock), d1, k + 1);
        case Refused(e) =>
          if k < cur.cfg.maxRetries {
            cur := EmailRetryFrom(cur, t, k);
            k := k + 1;
          } else {
            return Sent(SendResult(Failure, EmailFailedMessage(k + 1, e), "email", d1.clock), d1, k + 1);
          }
      }
    }
  }

  /** An email send entered with retry counter `k` whose first `f`
      attempts are refused and whose next one is delivered, with
      `k + f <= max_retries`, succeeds after exactly `f + 1` attempts. */
  lemma EmailRecoversAfterFailures(d: Dispatcher, trials: nat -> Trial, k: nat, f: nat)
    requires !d.cfg.dryRun && k + f <= d.cfg.maxRetries
    requires forall j :: d.next <= j < d.next + f ==> trials(j).delivery.Refused?
    requires trials(d.next + f).delivery.Delivered?
    ensures EmailFrom(d, trials, k).result.status == Success
    ensures EmailFrom(d, trials, k).attempts == f + 1
  {
    var s := EmailFrom(d, trials, k);
    assert s.result.status == Success by {
      EmailFailure(d, trials, k);
      assert d.next <= d.next + f < d.next + Budget(d.cfg.maxRetries, k);
    }
    var last := d.next + s.attempts - 1;
    assert trials(last).delivery.Delivered? && forall j :: d.next <= j < last ==> trials(j).delivery.Refused? by {
      EmailSuccess(d, trials, k);
    }
    assert !(last < d.next + f);
    assert !(d.next + f < last);
  }

  /** When every attempt fails, an email send entered with retry counter
      `k` makes `max_retries - k + 1` attempts and sleeps the backoff of every
      retry, 2^k + ... + 2^(m-1) seconds for `m = max_retries`; by
      `BackoffShift` that is 2^m - 2^k, so 2^m - 1 from a fresh call. */
  lemma EmailExhaustionBackoff(d: Dispatcher, trials: nat -> Trial, k: nat)
    requires k <= d.cfg.maxRetries
    requires EmailFrom(d, trials, k).result.status == Failure
    ensures EmailFrom(d, trials, k).attempts == d.cfg.maxRetries - k + 1
    ensures EmailFrom(d, trials, k).after.clock >= d.clock + Backoff(k, d.cfg.maxRetries - k) as real
  {
    EmailFailure(d, trials, k);
    EmailTiming(d, trials, k);
  }

  /** `send_linkedin_dm` entered with `retry_count = k`: pass the limiter,
      flip the coin (the dry-run flag is not consulted), and on failure, while
      `k < max_retries`, sleep one second and try again. A failed flip is a
      `Refused` trial. */
  function LinkedinFrom(d: Dispatcher, trials: nat -> Trial, k: nat): (s: Sent)
    ensures s.result.channel == "linkedin"
    ensures 1 <= s.attempts <= Budget(d.cfg.maxRetries, k)
    ensures s.after.cfg == d.cfg && s.after.next == d.next + s.attempts
    ensures s.result.timestamp == s.after.clock
    ensures s.result.message == (if s.result.status == Success then LinkedinSentMessage else LinkedinFailedMessage)
    decreases Budget(d.cfg.maxRetries, k)
  {
    var t := trials(d.next);
    var d1 := ApplyRateLimit(d, t).(next := d.next + 1);
    if t.delivery.Delivered? then Sent(SendResult(Success, LinkedinSentMessage, "linkedin", d1.clock), d1, 1)
    else if k < d.cfg.maxRetries then
      var rest := LinkedinFrom(LinkedinRetryFrom(d, t), trials, k + 1);
      rest.(attempts := rest.attempts + 1)
    else Sent(SendResult(Failure, LinkedinFailedMessage, "linkedin", d1.clock), d1, 1)
  }

  /** The dispatcher a LinkedIn retry starts from: after the limiter pass
      and the one-second pause. */
  function LinkedinRetryFrom(d: Dispatcher, t: Trial): (r: Dispatcher)
    ensures r.cfg == d.cfg && r.next == d.next + 1
  {
    var d1 := ApplyRateLimit(d, t).(next := d.next + 1);
    d1.(clock := d1.clock + 1.0 + t.pauseOver)
  }

  /** A failed flip with retries left is one more attempt in front of the
      retry's send. */
  lemma LinkedinRetries(d: Dispatcher, trials: nat -> Trial, k: nat)
    requires trials(d.next).delivery.Refused? && k < d.cfg.maxRetries
    ensures var rest := LinkedinFrom(LinkedinRetryFrom(d, trials(d.next)), trials, k + 1);
            LinkedinFrom(d, trials, k) == rest.(attempts := rest.attempts + 1)
  {
  }

  /** Otherwise the send ends with this attempt, a success exactly when the
      flip came up success. */
  lemma LinkedinStops(d: Dispatcher, trials: nat -> Trial, k: nat)
    requires !(trials(d.next).delivery.Refused? && k < d.cfg.maxRetries)
    ensures var s := LinkedinFrom(d, trials, k);
            && s.attempts == 1 && s.after == ApplyRateLimit(d, trials(d.next)).(next := d.next + 1)
            && (s.result.status == Success <==> trials(d.next).delivery.Delivered?)
  {
  }

  /** The LinkedIn result is a failure exactly when every allowed coin flip
      failed; a success is the first successful flip. */
  lemma {:induction false} LinkedinOutcome(d: Dispatcher, trials: nat -> Trial, k: nat)
    ensures var s := LinkedinFrom(d, trials, k);
            (s.result.status == Failure <==> Refusals(trials, d.next, Budget(d.cfg.maxRetries, k)))
            && (s.result.status == Failure ==> s.attempts == Budget(d.cfg.maxRetries, k))
            && (s.result.status == Success ==>
                  trials(d.next + s.attempts - 1).delivery.Delivered?
                  && Refusals(trials, d.next, s.attempts - 1))
    decreases Budget(d.cfg.maxRetries, k)
  {
    var s := LinkedinFrom(d, trials, k);
    var t := trials(d.next);
    var n := Budget(d.cfg.maxRetries, k);
    RefusalsSplit(trials, d.next, n);
    if t.delivery.Refused? && k < d.cfg.maxRetries {
      var d2 := LinkedinRetryFrom(d, t);
      var rest := LinkedinFrom(d2, trials, k + 1);
      LinkedinRetries(d, trials, k);
      LinkedinOutcome(d2, trials, k + 1);
      assert d2.next == d.next + 1 && Budget(d.cfg.maxRetries, k + 1) == n - 1;
      RefusalsSplit(trials, d.next, s.attempts - 1);
    } else {
      LinkedinStops(d, trials, k);
    }
  }

  /** Every LinkedIn attempt passes the limiter, and a one-second pause
      follows every failed attempt. */
  lemma {:induction false} LinkedinTiming(d: Dispatcher, trials: nat -> Trial, k: nat)
    ensures var s := LinkedinFrom(d, trials, k);
            (Coherent(d) ==> Coherent(s.after))
            && s.after.limiter.lastSendTime >= d.limiter.lastSendTime + s.attempts as real
            && s.after.clock >= d.clock + (s.attempts - 1) as real
    decreases Budget(d.cfg.maxRetries, k)
  {
    var t := trials(d.next);
    if t.delivery.Refused? && k < d.cfg.maxRetries {
      LinkedinTiming(LinkedinRetryFrom(d, t), trials, k + 1);
    }
  }

  /** `send_linkedin_dm` as a bounded loop with an attempt counter. */
  method SendLinkedin(d: Dispatcher, trials: nat -> Trial) returns (s: Sent)
    ensures s == LinkedinFrom(d, trials, 0)
  {
    var cur := d;
    var k: nat := 0;
    while true
      invariant cur.cfg == d.cfg
      invariant var rest := LinkedinFrom(cur, trials, k); rest.(attempts := rest.attempts + k) == LinkedinFrom(d, trials, 0)
      decreases Budget(d.cfg.maxRetries, k)
    {
      var t := trials(cur.next);
      var d1 := ApplyRateLimit(cur, t).(next := cur.next + 1);
      if t.delivery.Delivered? {
        return Sent(SendResult(Success, LinkedinSentMessage, "linkedin", d1.clock), d1, k + 1);
      }
      if k < cur.cfg.maxRetries {
        LinkedinRetries(cur, trials, k);
        cur := LinkedinRetryFrom(cur, t);
        k := k + 1;
      } else {
        return Sent(SendResult(Failure, LinkedinFailedMessage, "linkedin", d1.clock), d1, k + 1);
      }
    }
  }

  /** The LinkedIn path ignores the dry-run flag: flipping it changes nothing
      but the flag itself. */
  lemma {:induction false} LinkedinIgnoresDryRun(d: Dispatcher, trials: nat -> Trial, k: nat, dry: bool)
    ensures var flipped := d.(cfg := d.cfg.(dryRun := dry));
            LinkedinFrom(flipped, trials, k).result == LinkedinFrom(d, trials, k).result
            && LinkedinFrom(flipped, trials, k).attempts == LinkedinFrom(d, trials, k).attempts
    decreases Budget(d.cfg.maxRetries, k)
  {
    var flipped := d.(cfg := d.cfg.(dryRun := dry));
    var t := trials(d.next);
    RateLimitIgnoresDryRun(d, t, dry);
    if t.delivery.Refused? && k < d.cfg.maxRetries {
      var d2 := LinkedinRetryFrom(d, t);
      assert LinkedinRetryFrom(flipped, t) == d2.(cfg := d2.cfg.(dryRun := dry));
      LinkedinRetries(d, trials, k);
      LinkedinRetries(flipped, trials, k);
      LinkedinIgnoresDryRun(d2, trials, k + 1, dry);
    } else {
      LinkedinStops(d, trials, k);
      LinkedinStops(flipped, trials, k);
    }
  }

  /** The limiter does not read the dry-run flag. */
  lemma RateLimitIgnoresDryRun(d: Dispatcher, t: Trial, dry: bool)
    ensures ApplyRateLimit(d.(cfg := d.cfg.(dryRun := dry)), t) == ApplyRateLimit(d, t).(cfg := d.cfg.(dryRun := dry))
  {
  }

  /** Even in a dry run a LinkedIn message fails when every coin flip fails. */
  lemma DryRunLinkedinCanFail(d: Dispatcher)
    requires d.cfg.dryRun
    ensures LinkedinFrom(d, _ => Trial(Refused("coin"), 0.0, 0.0, 0.0, 0.0), 0).result.status == Failure
  {
    LinkedinOutcome(d, _ => Trial(Refused("coin"), 0.0, 0.0, 0.0, 0.0), 0);
  }

  /** What `send_outreach` returns: the result dict per channel key, and the
      dispatcher afterwards. */
  datatype Outcome = Outcome(results: map<string, SendResult>, after: Dispatcher)

  predicate WantsEmail(channel: string) { channel == "email" || channel == "both" }
  predicate WantsLinkedin(channel: string) { channel == "linkedin" || channel == "both" }

  /** `send_outreach`: email (variation A) first when asked for, then
      LinkedIn when asked for, on the same dispatcher; any other channel
      string sends nothing. */
  function SendOutreach(d: Dispatcher, trials: nat -> Trial, channel: string): (o: Outcome)
    ensures "email" in o.results <==> WantsEmail(channel)
    ensures "linkedin" in o.results <==> WantsLinkedin(channel)
    ensures o.results.Keys <= {"email", "linkedin"}
    ensures WantsEmail(channel) ==> o.results["email"] == EmailFrom(d, trials, 0).result
    ensures channel == "linkedin" ==> o.results["linkedin"] == LinkedinFrom(d, trials, 0).result
    // with both channels the LinkedIn message goes out after the email, on the advanced dispatcher
    ensures channel == "both" ==>
              o.results["linkedin"] == LinkedinFrom(EmailFrom(d, trials, 0).after, trials, 0).result
    ensures !WantsEmail(channel) && !WantsLinkedin(channel) ==> o.results == map[] && o.after == d
    ensures o.after.cfg == d.cfg && o.after.next >= d.next
  {
    var (r1, d1) := if WantsEmail(channel) then
                      var s := EmailFrom(d, trials, 0); (map["email" := s.result], s.after)
                    else (map[], d);
    if WantsLinkedin(channel) then
      var s := LinkedinFrom(d1, trials, 0);
      Outcome(r1["linkedin" := s.result], s.after)
    else Outcome(r1, d1)
  }

  /** The aggregate the callers use: every channel result is "success"
      (vacuously true for no results). */
  predicate AllSuccess(results: map<string, SendResult>) {
    forall c :: c in results ==> results[c].status == Success
  }

  /** A dispatch never moves the clock back and keeps the limiter's
      timestamps behind the clock. */
  lemma OutreachTiming(d: Dispatcher, trials: nat -> Trial, channel: string)
    requires Coherent(d)
    ensures Coherent(SendOutreach(d, trials, channel).after)
    ensures SendOutreach(d, trials, channel).after.clock >= d.clock
  {
    EmailTiming(d, trials, 0);
    var d1 := if WantsEmail(channel) then EmailFrom(d, trials, 0).after else d;
    LinkedinTiming(d1, trials, 0);
  }

  /** An unknown channel sends nothing and still counts as all-success. */
  lemma UnknownChannelVacuous(d: Dispatcher, trials: nat -> Trial, channel: string)
    requires !WantsEmail(channel) && !WantsLinkedin(channel)
    ensures AllSuccess(SendOutreach(d, trials, channel).results)
    ensures SendOutreach(d, trials, channel).after == d
  {
  }

  /** With "both", an email that succeeds next to a LinkedIn message that
      exhausts its retries makes the aggregate a failure: there is no partial
      success. */
  lemma PartialSuccessIsFailure(d: Dispatcher, trials: nat -> Trial)
    requires EmailFrom(d, trials, 0).result.status == Success
    requires LinkedinFrom(EmailFrom(d, trials, 0).after, trials, 0).result.status == Failure
    ensures !AllSuccess(SendOutreach(d, trials, "both").results)
  {
    assert SendOutreach(d, trials, "both").results["linkedin"].status == Failure;
  }

  /** In a dry run an email-only dispatch always succeeds. */
  lemma DryRunEmailAlwaysSucceeds(d: Dispatcher, trials: nat -> Trial)
    requires d.cfg.dryRun
    ensures AllSuccess(SendOutreach(d, trials, "email").results)
  {
  }
}

=== FILE: pipeline.dfy ===
/** The REST API's pipeline (backend/api.py): the shared run state, the
    endpoints that read and change it, and `execute_pipeline`, which drives
    every lead NEW -> ENRICHED -> MESSAGED -> SENT | FAILED over the store.

    The worker's outside world is an explicit `World`: the GROQ_API_KEY,
    the generator's draws, the model's replies, the outreach trials and the
    clock reading at which the outreach service is built. */
module Pipeline {
  import opened Common
  import opened LeadStore
  import Text
  import LeadGen
  import Enrich
  import Messaging
  import Outreach

  // ---------------------------------------------------------------------------
  // Run state and the endpoints that touch it.

  /** `pipeline_state`. */
  datatype RunState = RunState(running: bool, stage: Option<string>, progress: int)

  /** The state at start-up: not running, no stage, no progress. */
  const Idle: RunState := RunState(false, None, 0)

  /** A `PipelineRequest`. */
  datatype Request = Request(dryRun: bool, enrichmentMode: string, leadCount: int, channel: string)

  /** The request's field defaults. */
  function DefaultRequest(): (r: Request)
    ensures r.dryRun && r.enrichmentMode == "offline" && r.leadCount == 200 && r.channel == "both"
  {
    Request(true, "offline", 200, "both")
  }

  /** An endpoint's answer, or the HTTPException it raises. */
  datatype Reply<+T> = Answer(value: T) | HttpError(code: int, detail: string)

  /** `run_pipeline`: refused with 409 while a run is marked running;
      otherwise the request is echoed and the worker is scheduled. The
      endpoint itself never writes the run state: only the worker sets
      `running`. */
  function RunPipeline(s: RunState, req: Request): (r: (Reply<Request>, RunState))
    ensures r.0.HttpError? <==> s.running
    ensures r.0.HttpError? ==> r.0 == HttpError(409, "Pipeline already running")
    ensures r.0.Answer? ==> r.0.value == req
    ensures r.1 == s
  {
    if s.running then (HttpError(409, "Pipeline already running"), s)
    else (Answer(req), s)
  }

  /** `stop_pipeline`: flips the flag and forgets the stage; the progress
      stays. The worker never reads the flag, so a scheduled run goes on. */
  function StopPipeline(s: RunState): (r: RunState)
    ensures !r.running && r.stage.None? && r.progress == s.progress
  {
    s.(running := false, stage := None)
  }

  /** Stopping twice is stopping once. */
  lemma StopIdempotent(s: RunState)
    ensures StopPipeline(StopPipeline(s)) == StopPipeline(s)
  {
  }

  /** After a stop, a new run is always accepted, whatever was running. */
  lemma StopThenRunAccepted(s: RunState, req: Request)
    ensures RunPipeline(StopPipeline(s), req).0 == Answer(req)
  {
  }

  /** `clear_leads`: every table emptied and the run state reset. */
  function ClearLeads(s: RunState, st: Store): (r: (RunState, Store))
    ensures r.0 == Idle
    ensures r.1.leads == map[] && r.1.enrichments == [] && r.1.messages == [] && r.1.outreach == map[]
  {
    (Idle, ClearAllData(st))
  }

  /** One page of `get_leads`: the filtered count and the ids of the rows
      on the page. */
  datatype Page = Page(total: nat, limit: int, offset: int, leads: seq<nat>)

  /** The status filter a `status` query string asks for: none for an
      absent or empty string. */
  function StatusFilter(status: Option<string>): Option<LeadStatus> {
    if status.Some? && status.value != "" then ParseStatus(status.value) else None
  }

  /** `get_leads`: a non-empty status that is not a member's value is a
      400; otherwise the newest-first listing, its length as `total`, and
      the Python slice `[offset:offset + limit]` of it. */
  function GetLeads(st: Store, status: Option<string>, limit: int, offset: int): (r: Reply<Page>)
    ensures r.HttpError? <==> status.Some? && status.value != "" && ParseStatus(status.value).None?
    ensures r.HttpError? ==> r == HttpError(400, "Invalid status: " + status.value)
    ensures r.Answer? ==> var all := LeadsByStatus(st, StatusFilter(status));
              && r.value.total == |all| && r.value.limit == limit && r.value.offset == offset
              && (0 <= offset && 0 <= limit ==>
                    r.value.leads == all[Min(offset, |all|)..Min(offset + limit, |all|)])
    // negative bounds count from the end, as Python's slice does
    ensures r.Answer? ==> r.value.leads == Slice(LeadsByStatus(st, StatusFilter(status)), offset, offset + limit)
    ensures r.Answer? ==> forall k :: 0 <= k < |r.value.leads| ==>
              r.value.leads[k] in st.leads && Selected(st.leads[r.value.leads[k]], StatusFilter(status))
  {
    if status.Some? && status.value != "" && ParseStatus(status.value).None? then
      HttpError(400, "Invalid status: " + status.value)
    else
      var all := LeadsByStatus(st, StatusFilter(status));
      var page := Slice(all, offset, offset + limit);
      assert forall k :: 0 <= k < |page| ==> page[k] in all;
      Answer(Page(|all|, limit, offset, page))
  }

  /** A negative offset counts from the end of the listing: offset -3 with
      limit 2 gives the third- and second-last leads. */
  lemma NegativeOffsetFromEnd(st: Store, status: Option<string>, limit: int, offset: int)
    requires GetLeads(st, status, limit, offset).Answer?
    requires var all := LeadsByStatus(st, StatusFilter(status));
             offset < 0 && 0 <= limit && offset + limit < 0 && -offset <= |all|
    ensures var all := LeadsByStatus(st, StatusFilter(status));
            GetLeads(st, status, limit, offset).value.leads == all[|all| + offset..|all| + offset + limit]
  {
  }

  /** Consecutive pages tile the listing: the page at `offset` followed by
      the page at `offset + limit` is the listing's slice of twice the size. */
  lemma PagesTile(st: Store, status: Option<string>, limit: nat, offset: nat)
    requires GetLeads(st, status, limit, offset).Answer?
    ensures GetLeads(st, status, limit, offset + limit).Answer?
    ensures var all := LeadsByStatus(st, StatusFilter(status));
            GetLeads(st, status, limit, offset).value.leads + GetLeads(st, status, limit, offset + limit).value.leads
            == all[Min(offset, |all|)..Min(offset + 2 * limit, |all|)]
  {
    var all := LeadsByStatus(st, StatusFilter(status));
    var a, b, c := Min(offset, |all|), Min(offset + limit, |all|), Min(offset + 2 * limit, |all|);
    var first := GetLeads(st, status, limit, offset).value.leads;
    var second := GetLeads(st, status, limit, offset + limit).value.leads;
    assert first == all[a..b];
    assert second == all[b..c];
    SliceJoin(all, a, b, c);
  }

  /** Adjacent slices join. */
  lemma SliceJoin<T>(s: seq<T>, a: nat, b: nat, c: nat)
    requires a <= b <= c <= |s|
    ensures s[a..b] + s[b..c] == s[a..c]
  {
  }

  /** After `clear_leads` every listing is empty. */
  lemma ClearedListsNothing(s: RunState, st: Store, limit: int, offset: int)
    ensures GetLeads(ClearLeads(s, st).1, None, limit, offset) == Answer(Page(0, limit, offset, []))
  {
    var cleared := ClearLeads(s, st).1;
    DescendingCard(LeadsByStatus(cleared, None), cleared.leads.Keys);
  }

  // ---------------------------------------------------------------------------
  // Progress.

  /** The progress written after lead `i` of `n` in a stage that starts at
      `base`: `base + int((i / n) * 25)`, in exact arithmetic. */
  function StageTrace(base: int, n: nat): (t: seq<int>)
    ensures |t| == n
  {
    seq(n, i requires 0 <= i < n => base + (25 * i) / n)
  }

  /** Every progress value of a run that completes, in the order written. */
  function FullTrace(n1: nat, n2: nat, n3: nat): seq<int> {
    [0, 10, 25] + StageTrace(25, n1) + [50] + StageTrace(50, n2) + [75] + StageTrace(75, n3) + [100]
  }

  predicate NonDecreasing(t: seq<int>) {
    forall i, j :: 0 <= i <= j < |t| ==> t[i] <= t[j]
  }

  predicate Within(t: seq<int>, lo: int, hi: int) {
    forall i :: 0 <= i < |t| ==> lo <= t[i] <= hi
  }

  /** Multiplying by a natural keeps the order. */
  lemma {:induction false} MulMonotone(a: int, b: int, n: nat)
    requires a <= b
    ensures a * n <= b * n
  {
    if n > 0 {
      MulMonotone(a, b, n - 1);
      assert a * n == a * (n - 1) + a;
      assert b * n == b * (n - 1) + b;
    }
  }

  /** `int((i / n) * 25)` for `i < n` lies in 0..24 and grows with `i`. */
  lemma ShareBounds(i: nat, j: nat, n: nat)
    requires i <= j < n
    ensures 0 <= (25 * i) / n <= (25 * j) / n < 25
  {
    ShareGrows(i, j, n);
    ShareBelow(j, n);
  }

  /** `(25 * j) / n` for `j < n` stays below 25. */
  lemma ShareBelow(j: nat, n: nat)
    requires j < n
    ensures (25 * j) / n < 25
  {
    var q, r := (25 * j) / n, (25 * j) % n;
    assert 25 * j == q * n + r && 0 <= r < n;
    if q >= 25 {
      MulMonotone(25, q, n);
    }
  }

  /** `(25 * i) / n` is non-negative and grows with `i`. */
  lemma ShareGrows(i: nat, j: nat, n: nat)
    requires i <= j < n
    ensures 0 <= (25 * i) / n <= (25 * j) / n
  {
    var qi, qj := (25 * i) / n, (25 * j) / n;
    var ri, rj := (25 * i) % n, (25 * j) % n;
    assert 25 * i == qi * n + ri && 0 <= ri < n;
    assert 25 * j == qj * n + rj && 0 <= rj < n;
    if qi > qj {
      MulMonotone(qj + 1, qi, n);
    }
    if qi < 0 {
      MulMonotone(qi, -1, n);
    }
  }

  /** Appending the value written after lead `i` extends the stage's trace. */
  lemma StageTraceStep(base: int, n: nat, i: nat)
    requires i < n
    ensures StageTrace(base, n)[..i + 1] == StageTrace(base, n)[..i] + [base + (25 * i) / n]
  {
  }

  /** A stage's progress values never fall and stay in `base..base + 24`. */
  lemma StageTraceShape(base: int, n: nat)
    ensures NonDecreasing(StageTrace(base, n))
    ensures Within(StageTrace(base, n), base, base + 24)
  {
    var t := StageTrace(base, n);
    forall i, j | 0 <= i <= j < n ensures t[i] <= t[j] {
      ShareBounds(i, j, n);
    }
    forall i | 0 <= i < n ensures base <= t[i] <= base + 24 {
      ShareBounds(i, i, n);
    }
  }

  /** Two non-decreasing runs separated by a value `m` join into one. */
  lemma {:induction false} JoinNonDecreasing(a: seq<int>, b: seq<int>, lo: int, m: int, hi: int)
    requires NonDecreasing(a) && NonDecreasing(b)
    requires lo <= m <= hi && Within(a, lo, m) && Within(b, m, hi)
    ensures NonDecreasing(a + b) && Within(a + b, lo, hi)
  {
    var c := a + b;
    forall i, j | 0 <= i <= j < |c| ensures c[i] <= c[j] {
      if j < |a| {
        assert c[i] == a[i] && c[j] == a[j];
      } else if i >= |a| {
        assert c[i] == b[i - |a|] && c[j] == b[j - |a|];
      } else {
        assert c[i] == a[i] && c[j] == b[j - |a|];
      }
    }
    forall i | 0 <= i < |c| ensures lo <= c[i] <= hi {
      if i < |a| { assert c[i] == a[i]; } else { assert c[i] == b[i - |a|]; }
    }
  }

  /** Progress never falls and stays within 0..100 over a whole run. */
  lemma {:induction false} FullTraceShape(n1: nat, n2: nat, n3: nat)
    ensures NonDecreasing(FullTrace(n1, n2, n3)) && Within(FullTrace(n1, n2, n3), 0, 100)
  {
    StageTraceShape(25, n1);
    StageTraceShape(50, n2);
    StageTraceShape(75, n3);
    var a := [0, 10, 25] + StageTrace(25, n1);
    JoinNonDecreasing([0, 10, 25], StageTrace(25, n1), 0, 25, 49);
    var b := a + [50] + StageTrace(50, n2);
    JoinNonDecreasing([50], StageTrace(50, n2), 50, 50, 74);
    JoinNonDecreasing(a, [50] + StageTrace(50, n2), 0, 50, 74);
    assert b == a + ([50] + StageTrace(50, n2));
    JoinNonDecreasing([75], StageTrace(75, n3), 75, 75, 99);
    JoinNonDecreasing([75] + StageTrace(75, n3), [100], 75, 100, 100);
    JoinNonDecreasing(b, [75] + StageTrace(75, n3) + [100], 0, 75, 100);
    assert FullTrace(n1, n2, n3) == b + ([75] + StageTrace(75, n3) + [100]);
  }

  /** So does every prefix of it: the values an interrupted run wrote. */
  lemma PrefixShape(t: seq<int>, n1: nat, n2: nat, n3: nat)
    requires t <= FullTrace(n1, n2, n3)
    ensures NonDecreasing(t) && Within(t, 0, 100)
  {
    FullTraceShape(n1, n2, n3);
    var f := FullTrace(n1, n2, n3);
    assert forall i :: 0 <= i < |t| ==> t[i] == f[i];
  }

  // ---------------------------------------------------------------------------
  // Stages.

  /** Every lead whose status is `from` now has status `to`; every other
      lead is as it was; no lead appears or disappears. */
  predicate Moved(before: map<nat, Lead>, after: map<nat, Lead>, from: LeadStatus, to: LeadStatus) {
    && after.Keys == before.Keys
    && forall id :: id in before ==>
         after[id] == (if before[id].status == from then before[id].(status := to) else before[id])
  }

  /** The lead handed to `insert_lead` by the generator: no phone, no
      comments, no source. */
  function IntakeOf(g: LeadGen.GenLead): (d: Intake)
    ensures d.phone.None? && d.comments.None? && d.source.None?
    ensures d.fullName == g.fullName && d.industry == g.industry && d.email == g.email
  {
    Intake(g.fullName, g.companyName, g.roleTitle, g.industry, g.companyWebsite, g.email, None,
           g.linkedinUrl, g.country, None, None)
  }

  /** `keys` are exactly the `n` consecutive ids from `from`. */
  ghost predicate Numbered(keys: set<nat>, from: nat, n: nat) {
    forall id :: id in keys <==> from <= id < from + n
  }

  /** Stage 1's insert loop: the k-th lead gets the k-th fresh id and
      status NEW; earlier leads and the other tables are untouched. */
  function InsertAll(st: Store, leads: seq<LeadGen.GenLead>): (r: Store)
    ensures r.nextLeadId == st.nextLeadId + |leads|
    ensures forall id :: id in r.leads <==> id in st.leads || st.nextLeadId <= id < st.nextLeadId + |leads|
    ensures forall k :: 0 <= k < |leads| ==> r.leads[st.nextLeadId + k] == NewLead(IntakeOf(leads[k]))
    ensures forall id :: id in st.leads ==> r.leads[id] == st.leads[id]
    ensures r.enrichments == st.enrichments && r.messages == st.messages && r.outreach == st.outreach
  {
    if |leads| == 0 then st
    else
      var prev := InsertAll(st, leads[..|leads| - 1]);
      assert forall k :: 0 <= k < |leads| - 1 ==> leads[..|leads| - 1][k] == leads[k];
      InsertLead(prev, IntakeOf(leads[|leads| - 1])).store
  }

  /** A listing of distinct ids has as many entries as the set it lists. */
  lemma {:induction false} DescendingCard(ids: seq<nat>, s: set<nat>)
    requires forall j, k :: 0 <= j < k < |ids| ==> ids[j] > ids[k]
    requires forall id :: id in ids <==> id in s
    ensures |ids| == |s|
  {
    if |ids| > 0 {
      var rest := ids[1..];
      assert forall id :: id in rest <==> id in s - {ids[0]} by {
        forall id ensures id in rest <==> id in s - {ids[0]} {
          if id in rest {
            var k :| 0 <= k < |rest| && rest[k] == id;
            assert ids[k + 1] == id;
          }
          if id in ids && id != ids[0] {
            var k :| 0 <= k < |ids| && ids[k] == id;
            assert rest[k - 1] == id;
          }
        }
      }
      DescendingCard(rest, s - {ids[0]});
    }
  }

  /** `n` consecutive ids are `n` ids. */
  lemma {:induction false} NumberedCard(keys: set<nat>, from: nat, n: nat)
    requires Numbered(keys, from, n)
    ensures |keys| == n
  {
    if n > 0 {
      var top := from + n - 1;
      assert top in keys;
      NumberedCard(keys - {top}, from, n - 1);
    } else {
      assert keys == {};
    }
  }

  /** When every lead has status `s`, the stage's selection lists them all. */
  lemma SelectsAll(st: Store, s: LeadStatus)
    requires forall id :: id in st.leads ==> st.leads[id].status == s
    ensures |LeadsByStatus(st, Some(s))| == |st.leads|
  {
    DescendingCard(LeadsByStatus(st, Some(s)), st.leads.Keys);
  }

  /** `ids` lists leads of the store, none twice. */
  predicate Listed(st: Store, ids: seq<nat>) {
    forall k :: 0 <= k < |ids| ==> ids[k] in st.leads && ids[k] !in ids[..k]
  }

  /** A status listing is such a list. */
  lemma ListingListed(st: Store, s: Option<LeadStatus>)
    ensures Listed(st, LeadsByStatus(st, s))
  {
    var ids := LeadsByStatus(st, s);
    forall k | 0 <= k < |ids| ensures ids[k] !in ids[..k] {
      forall j | 0 <= j < k ensures ids[..k][j] != ids[k] {
        assert ids[..k][j] == ids[j];
      }
    }
  }

  function Elems(s: seq<nat>): set<nat> {
    set x | x in s
  }

  /** The leads with the statuses of `marks` written over theirs. */
  function Mark(m: map<nat, Lead>, marks: map<nat, LeadStatus>): (r: map<nat, Lead>)
    ensures r.Keys == m.Keys
  {
    map id | id in m :: if id in marks then m[id].(status := marks[id]) else m[id]
  }

  lemma MarkNothing(m: map<nat, Lead>)
    ensures Mark(m, map[]) == m
  {
  }

  /** One more status update is one more mark. */
  lemma MarkStep(m: map<nat, Lead>, marks: map<nat, LeadStatus>, id: nat, s: LeadStatus)
    requires id in m
    ensures Mark(m, marks[id := s]) == Mark(m, marks)[id := m[id].(status := s)]
  {
  }

  /** The marks set down by the first `i` leads of `ids`, all `s`. */
  predicate UniformMarks(marks: map<nat, LeadStatus>, ids: seq<nat>, i: nat, s: LeadStatus)
    requires i <= |ids|
  {
    marks.Keys == Elems(ids[..i]) && forall id :: id in marks ==> marks[id] == s
  }

  /** Adding the next lead's mark keeps the marks uniform. */
  lemma UniformStep(marks: map<nat, LeadStatus>, ids: seq<nat>, i: nat, s: LeadStatus)
    requires i < |ids| && UniformMarks(marks, ids, i, s)
    ensures UniformMarks(marks[ids[i] := s], ids, i + 1, s)
  {
    assert ids[..i + 1] == ids[..i] + [ids[i]];
    assert Elems(ids[..i + 1]) == Elems(ids[..i]) + {ids[i]};
  }

  /** Marking every lead of a status listing moves exactly that status. */
  lemma MarkedListing(st: Store, from: LeadStatus, marks: map<nat, LeadStatus>, to: LeadStatus)
    requires UniformMarks(marks, LeadsByStatus(st, Some(from)), |LeadsByStatus(st, Some(from))|, to)
    ensures Moved(st.leads, Mark(st.leads, marks), from, to)
  {
    var ids := LeadsByStatus(st, Some(from));
    assert ids[..|ids|] == ids;
  }

  /** Lines 240-242: store the enrichment, then mark the lead ENRICHED; a
      dict lacking a key raises before either write. */
  function EnrichOne(r: Store, id: nat, d: EnrichmentDict): (s: Result<Store>)
    ensures s.Err? <==> MissingKey(d).Some?
    ensures s.Err? ==> s.error == KeyErrorMessage(MissingKey(d).value)
    ensures s.Ok? ==> && s.value.enrichments == r.enrichments + [EnrichmentRow(id, StoredAs(d))]
                      && s.value.leads == (if id in r.leads then r.leads[id := r.leads[id].(status := ENRICHED)] else r.leads)
                      && s.value.messages == r.messages && s.value.outreach == r.outreach
                      && s.value.nextLeadId == r.nextLeadId
  {
    match InsertEnrichmentDict(r, id, d)
    case Err(e) => Err(e)
    case Ok(stored) => Ok(UpdateLeadStatus(stored, id, ENRICHED))
  }

  /** The enrichment dict made for the k-th lead of the listing. */
  function DictFor(st: Store, ids: seq<nat>, enrich: (Lead, nat) -> EnrichmentDict, k: nat): EnrichmentDict
    requires Listed(st, ids) && k < |ids|
  {
    enrich(st.leads[ids[k]], k)
  }

  /** The store after stage 2 has handled the first `i` leads of `ids`. */
  predicate EnrichedUpTo(st: Store, r: Store, ids: seq<nat>, enrich: (Lead, nat) -> EnrichmentDict,
                         marks: map<nat, LeadStatus>, i: nat)
    requires Listed(st, ids)
  {
    && i <= |ids| && r.leads == Mark(st.leads, marks) && UniformMarks(marks, ids, i, ENRICHED)
    && |r.enrichments| == |st.enrichments| + i && r.enrichments[..|st.enrichments|] == st.enrichments
    && (forall k :: 0 <= k < i ==> MissingKey(DictFor(st, ids, enrich, k)).None?)
    && (forall k :: 0 <= k < i ==>
          r.enrichments[|st.enrichments| + k] == EnrichmentRow(ids[k], StoredAs(DictFor(st, ids, enrich, k))))
    && r.messages == st.messages && r.outreach == st.outreach && r.nextLeadId == st.nextLeadId
  }

  lemma EnrichStep(st: Store, r: Store, ids: seq<nat>, enrich: (Lead, nat) -> EnrichmentDict,
                   marks: map<nat, LeadStatus>, i: nat)
    requires Listed(st, ids) && i < |ids| && EnrichedUpTo(st, r, ids, enrich, marks, i)
    requires MissingKey(DictFor(st, ids, enrich, i)).None?
    ensures EnrichedUpTo(st, EnrichOne(r, ids[i], DictFor(st, ids, enrich, i)).value, ids, enrich,
                         marks[ids[i] := ENRICHED], i + 1)
  {
    UniformStep(marks, ids, i, ENRICHED);
    MarkStep(st.leads, marks, ids[i], ENRICHED);
  }

  /** The k-th lead's dict lacks a key, and `msg` is the KeyError naming
      the first one it lacks. */
  predicate KeyErrorAt(st: Store, ids: seq<nat>, enrich: (Lead, nat) -> EnrichmentDict, k: nat, msg: string)
    requires Listed(st, ids) && k < |ids|
  {
    MissingKey(DictFor(st, ids, enrich, k)).Some? && msg == KeyErrorMessage(MissingKey(DictFor(st, ids, enrich, k)).value)
  }

  /** Before the loop nothing is enriched. */
  lemma EnrichedNothing(st: Store, ids: seq<nat>, enrich: (Lead, nat) -> EnrichmentDict)
    requires Listed(st, ids)
    ensures EnrichedUpTo(st, st, ids, enrich, map[], 0)
  {
    MarkNothing(st.leads);
    assert ids[..0] == [];
  }

  /** One pass of the stage-2 loop: the `i`-th lead is stored and marked
      ENRICHED, or its dict lacks a key and nothing is written. */
  method EnrichNext(st: Store, ids: seq<nat>, enrich: (Lead, nat) -> EnrichmentDict, r: Store,
                    ghost marks: map<nat, LeadStatus>, i: nat)
    returns (next: Store, failure: Option<string>)
    requires Listed(st, ids) && i < |ids| && EnrichedUpTo(st, r, ids, enrich, marks, i)
    ensures failure.Some? ==> next == r && KeyErrorAt(st, ids, enrich, i, failure.value)
    ensures failure.None? ==> EnrichedUpTo(st, next, ids, enrich, marks[ids[i] := ENRICHED], i + 1)
  {
    var stored := EnrichOne(r, ids[i], DictFor(st, ids, enrich, i));
    if stored.Err? {
      next, failure := r, Some(stored.error);
    } else {
      EnrichStep(st, r, ids, enrich, marks, i);
      next, failure := stored.value, None;
    }
  }

  /** The loop of stage 2 over the listing `ids`: the `i`-th lead is stored
      with the enrichment `enrich(lead, i)` and becomes ENRICHED; the first
      dict lacking a key aborts the loop, after the leads before it. */
  method EnrichLoop(st: Store, ids: seq<nat>, enrich: (Lead, nat) -> EnrichmentDict)
    returns (r: Store, trace: seq<int>, count: nat, failure: Option<string>, ghost marks: map<nat, LeadStatus>)
    requires Listed(st, ids)
    ensures count <= |ids| && (failure.None? <==> count == |ids|)
    ensures EnrichedUpTo(st, r, ids, enrich, marks, count)
    ensures failure.Some? ==> count < |ids| && KeyErrorAt(st, ids, enrich, count, failure.value)
    ensures trace == StageTrace(25, |ids|)[..count]
  {
    var n := |ids|;
    r, trace, count, failure := st, [], 0, None;
    marks := map[];
    EnrichedNothing(st, ids, enrich);
    while count < n && failure.None?
      invariant 0 <= count <= n
      invariant failure.Some? ==> count < n && KeyErrorAt(st, ids, enrich, count, failure.value)
      invariant EnrichedUpTo(st, r, ids, enrich, marks, count)
      invariant trace == StageTrace(25, n)[..count]
      decreases n - count, if failure.None? then 1 else 0
    {
      var next, stopped := EnrichNext(st, ids, enrich, r, marks, count);
      if stopped.Some? {
        failure := stopped;
      } else {
        r := next;
        marks := marks[ids[count] := ENRICHED];
        StageTraceStep(25, n, count);
        trace := trace + [25 + (25 * count) / n];
        count := count + 1;
      }
    }
  }

  /** Stage 2: each NEW lead, newest first, is stored with the enrichment
      `enrich(lead, i)` for its position `i` and becomes ENRICHED. The first
      lead whose dict lacks a key aborts the stage with KeyError, with the
      earlier leads already enriched. */
  method EnrichStage(st: Store, enrich: (Lead, nat) -> EnrichmentDict) returns (r: Store, trace: seq<int>, failure: Option<string>)
    ensures var ids := LeadsByStatus(st, Some(NEW));
            failure.None? <==> forall k :: 0 <= k < |ids| ==> MissingKey(enrich(st.leads[ids[k]], k)).None?
    ensures failure.Some? ==> var ids := LeadsByStatus(st, Some(NEW));
              exists k :: && 0 <= k < |ids| && MissingKey(enrich(st.leads[ids[k]], k)).Some?
                          && failure.value == KeyErrorMessage(MissingKey(enrich(st.leads[ids[k]], k)).value)
                          && (forall j :: 0 <= j < k ==> MissingKey(enrich(st.leads[ids[j]], j)).None?)
                          && |r.enrichments| == |st.enrichments| + k
    ensures failure.None? ==> Moved(st.leads, r.leads, NEW, ENRICHED)
    ensures failure.None? ==> var ids := LeadsByStatus(st, Some(NEW));
              && |r.enrichments| == |st.enrichments| + |ids| && r.enrichments[..|st.enrichments|] == st.enrichments
              && forall k :: 0 <= k < |ids| ==>
                   r.enrichments[|st.enrichments| + k] == EnrichmentRow(ids[k], StoredAs(enrich(st.leads[ids[k]], k)))
    ensures r.messages == st.messages && r.outreach == st.outreach && r.nextLeadId == st.nextLeadId
    ensures failure.None? ==> trace == StageTrace(25, |LeadsByStatus(st, Some(NEW))|)
    ensures failure.Some? ==> trace < StageTrace(25, |LeadsByStatus(st, Some(NEW))|)
  {
    var ids := LeadsByStatus(st, Some(NEW));
    ListingListed(st, Some(NEW));
    var count: nat;
    ghost var marks;
    r, trace, count, failure, marks := EnrichLoop(st, ids, enrich);
    if failure.None? {
      EnrichedEvery(st, r, ids, enrich, marks);
      assert StageTrace(25, |ids|)[..|ids|] == StageTrace(25, |ids|);
    } else {
      EnrichStopped(st, r, ids, enrich, marks, count, failure.value);
    }
  }

  /** The enrich loop run to the end over the NEW listing moved exactly the
      NEW leads, storing each lead's complete dict in listing order. */
  lemma EnrichedEvery(st: Store, r: Store, ids: seq<nat>, enrich: (Lead, nat) -> EnrichmentDict,
                      marks: map<nat, LeadStatus>)
    requires ids == LeadsByStatus(st, Some(NEW)) && Listed(st, ids)
    requires EnrichedUpTo(st, r, ids, enrich, marks, |ids|)
    ensures Moved(st.leads, r.leads, NEW, ENRICHED)
    ensures forall k :: 0 <= k < |ids| ==> MissingKey(enrich(st.leads[ids[k]], k)).None?
    ensures forall k :: 0 <= k < |ids| ==>
              r.enrichments[|st.enrichments| + k] == EnrichmentRow(ids[k], StoredAs(enrich(st.leads[ids[k]], k)))
  {
    MarkedListing(st, NEW, marks, ENRICHED);
    forall k | 0 <= k < |ids| ensures MissingKey(enrich(st.leads[ids[k]], k)).None? {
      assert MissingKey(DictFor(st, ids, enrich, k)).None?;
    }
  }

  /** The enrich loop stopped at lead `count`: its dict is the first one
      lacking a key, and the leads before it were stored. */
  lemma EnrichStopped(st: Store, r: Store, ids: seq<nat>, enrich: (Lead, nat) -> EnrichmentDict,
                      marks: map<nat, LeadStatus>, count: nat, msg: string)
    requires Listed(st, ids) && count < |ids|
    requires EnrichedUpTo(st, r, ids, enrich, marks, count)
    requires KeyErrorAt(st, ids, enrich, count, msg)
    ensures && MissingKey(enrich(st.leads[ids[count]], count)).Some?
            && msg == KeyErrorMessage(MissingKey(enrich(st.leads[ids[count]], count)).value)
            && (forall j :: 0 <= j < count ==> MissingKey(enrich(st.leads[ids[j]], j)).None?)
            && |r.enrichments| == |st.enrichments| + count
  {
    forall j | 0 <= j < count ensures MissingKey(enrich(st.leads[ids[j]], j)).None? {
      assert MissingKey(DictFor(st, ids, enrich, j)).None?;
    }
  }

  /** Lines 263-267: email A stored as subject, blank line, body; then
      LinkedIn A; then status MESSAGED. Variation B is never stored. */
  function MessageOne(r: Store, id: nat, m: Messaging.AllMessages): (s: Store)
    ensures s.messages == r.messages + [MessageRow(id, "email", "A", EmailContent(m.emailA.subject, m.emailA.body)),
                                        MessageRow(id, "linkedin", "A", m.linkedinA.message)]
    ensures s.leads == (if id in r.leads then r.leads[id := r.leads[id].(status := MESSAGED)] else r.leads)
    ensures s.enrichments == r.enrichments && s.outreach == r.outreach && s.nextLeadId == r.nextLeadId
  {
    var withEmail := InsertMessage(r, id, "email", "A", EmailContent(m.emailA.subject, m.emailA.body));
    UpdateLeadStatus(InsertMessage(withEmail, id, "linkedin", "A", m.linkedinA.message), id, MESSAGED)
  }

  /** The drafts for the k-th lead of the listing. */
  function DraftsFor(st: Store, ids: seq<nat>, draft: (Lead, Option<Enrichment>, nat) -> Result<Messaging.AllMessages>, k: nat)
    : Result<Messaging.AllMessages>
    requires Listed(st, ids) && k < |ids|
  {
    draft(st.leads[ids[k]], EnrichmentOf(st, ids[k]), k)
  }

  /** The store after stage 3 has handled the first `i` leads of `ids`. */
  predicate MessagedUpTo(st: Store, r: Store, ids: seq<nat>,
                         draft: (Lead, Option<Enrichment>, nat) -> Result<Messaging.AllMessages>,
                         marks: map<nat, LeadStatus>, i: nat)
    requires Listed(st, ids)
  {
    && i <= |ids| && r.leads == Mark(st.leads, marks) && UniformMarks(marks, ids, i, MESSAGED)
    && |r.messages| == |st.messages| + 2 * i && r.messages[..|st.messages|] == st.messages
    && PairsUpTo(st, r.messages, ids, draft, i)
    && r.enrichments == st.enrichments && r.outreach == st.outreach && r.nextLeadId == st.nextLeadId
  }

  /** The first `i` leads of `ids` drafted without raising, and `ms` holds
      each one's email A then LinkedIn A, in listing order, after the rows
      `st` already had. */
  predicate PairsUpTo(st: Store, ms: seq<MessageRow>, ids: seq<nat>,
                      draft: (Lead, Option<Enrichment>, nat) -> Result<Messaging.AllMessages>, i: nat)
    requires Listed(st, ids) && i <= |ids| && |ms| == |st.messages| + 2 * i
  {
    && (forall k :: 0 <= k < i ==> DraftsFor(st, ids, draft, k).Ok?)
    && (forall k :: 0 <= k < i ==>
          var m := DraftsFor(st, ids, draft, k).value;
          && ms[|st.messages| + 2 * k] == MessageRow(ids[k], "email", "A", EmailContent(m.emailA.subject, m.emailA.body))
          && ms[|st.messages| + 2 * k + 1] == MessageRow(ids[k], "linkedin", "A", m.linkedinA.message))
  }

  /** Appending the next lead's pair of rows extends the pairs by one. */
  lemma PairsStep(st: Store, ms: seq<MessageRow>, ids: seq<nat>,
                  draft: (Lead, Option<Enrichment>, nat) -> Result<Messaging.AllMessages>, i: nat)
    requires Listed(st, ids) && i < |ids| && |ms| == |st.messages| + 2 * i
    requires PairsUpTo(st, ms, ids, draft, i) && DraftsFor(st, ids, draft, i).Ok?
    ensures var m := DraftsFor(st, ids, draft, i).value;
            PairsUpTo(st, ms + [MessageRow(ids[i], "email", "A", EmailContent(m.emailA.subject, m.emailA.body)),
                                MessageRow(ids[i], "linkedin", "A", m.linkedinA.message)], ids, draft, i + 1)
  {
  }

  lemma MessageStep(st: Store, r: Store, ids: seq<nat>,
                    draft: (Lead, Option<Enrichment>, nat) -> Result<Messaging.AllMessages>,
                    marks: map<nat, LeadStatus>, i: nat)
    requires Listed(st, ids) && i < |ids| && MessagedUpTo(st, r, ids, draft, marks, i)
    requires DraftsFor(st, ids, draft, i).Ok?
    ensures MessagedUpTo(st, MessageOne(r, ids[i], DraftsFor(st, ids, draft, i).value), ids, draft,
                         marks[ids[i] := MESSAGED], i + 1)
  {
    UniformStep(marks, ids, i, MESSAGED);
    MarkStep(st.leads, marks, ids[i], MESSAGED);
    PairsStep(st, r.messages, ids, draft, i);
  }

  /** The loop of stage 3 over the listing `ids`: it stops at the first
      lead whose drafts raise, after messaging the leads before it. */
  method MessageLoop(st: Store, ids: seq<nat>, draft: (Lead, Option<Enrichment>, nat) -> Result<Messaging.AllMessages>)
    returns (r: Store, trace: seq<int>, count: nat, failure: Option<string>, ghost marks: map<nat, LeadStatus>)
    requires Listed(st, ids)
    ensures count <= |ids| && (failure.None? <==> count == |ids|)
    ensures MessagedUpTo(st, r, ids, draft, marks, count)
    ensures failure.Some? ==> DraftsFor(st, ids, draft, count) == Err(failure.value)
    ensures trace == StageTrace(50, |ids|)[..count]
  {
    var n := |ids|;
    r, trace, count, failure := st, [], 0, None;
    marks := map[];
    MarkNothing(st.leads);
    while count < n && failure.None?
      invariant 0 <= count <= n
      invariant failure.Some? ==> count < n && DraftsFor(st, ids, draft, count) == Err(failure.value)
      invariant MessagedUpTo(st, r, ids, draft, marks, count)
      invariant trace == StageTrace(50, n)[..count]
      decreases n - count, if failure.None? then 1 else 0
    {
      var id := ids[count];
      assert EnrichmentOf(r, id) == EnrichmentOf(st, id);
      var drafts := draft(st.leads[id], EnrichmentOf(r, id), count);
      if drafts.Err? {
        failure := Some(drafts.error);
      } else {
        MessageStep(st, r, ids, draft, marks, count);
        r := MessageOne(r, id, drafts.value);
        marks := marks[id := MESSAGED];
        StageTraceStep(50, n, count);
        trace := trace + [50 + (25 * count) / n];
        count := count + 1;
      }
    }
  }

  /** Stage 3: each ENRICHED lead, newest first, gets its four drafts from
      `draft(lead, joined enrichment, i)`; email A and LinkedIn A are
      stored and the lead becomes MESSAGED. The first lead whose drafts
      raise aborts the stage, with the earlier leads already messaged. */
  method MessageStage(st: Store, draft: (Lead, Option<Enrichment>, nat) -> Result<Messaging.AllMessages>)
    returns (r: Store, trace: seq<int>, failure: Option<string>)
    ensures var ids := LeadsByStatus(st, Some(ENRICHED));
            failure.None? <==> forall k :: 0 <= k < |ids| ==> draft(st.leads[ids[k]], EnrichmentOf(st, ids[k]), k).Ok?
    ensures failure.Some? ==> var ids := LeadsByStatus(st, Some(ENRICHED));
              exists k :: 0 <= k < |ids| && draft(st.leads[ids[k]], EnrichmentOf(st, ids[k]), k) == Err(failure.value)
    ensures failure.None? ==> Moved(st.leads, r.leads, ENRICHED, MESSAGED)
    ensures failure.None? ==> var ids := LeadsByStatus(st, Some(ENRICHED));
              && |r.messages| == |st.messages| + 2 * |ids| && r.messages[..|st.messages|] == st.messages
              && forall k :: 0 <= k < |ids| ==>
                   var m := draft(st.leads[ids[k]], EnrichmentOf(st, ids[k]), k).value;
                   && r.messages[|st.messages| + 2 * k] == MessageRow(ids[k], "email", "A", EmailContent(m.emailA.subject, m.emailA.body))
                   && r.messages[|st.messages| + 2 * k + 1] == MessageRow(ids[k], "linkedin", "A", m.linkedinA.message)
    ensures r.enrichments == st.enrichments && r.outreach == st.outreach && r.nextLeadId == st.nextLeadId
    ensures r.leads.Keys == st.leads.Keys
    ensures failure.None? ==> trace == StageTrace(50, |LeadsByStatus(st, Some(ENRICHED))|)
    ensures failure.Some? ==> trace < StageTrace(50, |LeadsByStatus(st, Some(ENRICHED))|)
  {
    var ids := LeadsByStatus(st, Some(ENRICHED));
    ListingListed(st, Some(ENRICHED));
    var count: nat;
    ghost var marks;
    r, trace, count, failure, marks := MessageLoop(st, ids, draft);
    if failure.None? {
      MessagedEvery(st, r, ids, draft, marks);
      assert StageTrace(50, |ids|)[..|ids|] == StageTrace(50, |ids|);
    } else {
      assert DraftsFor(st, ids, draft, count).Err?;
    }
  }

  /** The message loop run to the end over the ENRICHED listing moved
      exactly the ENRICHED leads, storing each lead's pair of rows in
      listing order. */
  lemma MessagedEvery(st: Store, r: Store, ids: seq<nat>,
                      draft: (Lead, Option<Enrichment>, nat) -> Result<Messaging.AllMessages>,
                      marks: map<nat, LeadStatus>)
    requires ids == LeadsByStatus(st, Some(ENRICHED)) && Listed(st, ids)
    requires MessagedUpTo(st, r, ids, draft, marks, |ids|)
    ensures Moved(st.leads, r.leads, ENRICHED, MESSAGED)
    ensures forall k :: 0 <= k < |ids| ==> draft(st.leads[ids[k]], EnrichmentOf(st, ids[k]), k).Ok?
    ensures forall k :: 0 <= k < |ids| ==>
              var m := draft(st.leads[ids[k]], EnrichmentOf(st, ids[k]), k).value;
              && r.messages[|st.messages| + 2 * k] == MessageRow(ids[k], "email", "A", EmailContent(m.emailA.subject, m.emailA.body))
              && r.messages[|st.messages| + 2 * k + 1] == MessageRow(ids[k], "linkedin", "A", m.linkedinA.message)
  {
    MarkedListing(st, ENRICHED, marks, MESSAGED);
    PairsListed(st, r.messages, ids, draft);
  }

  /** `PairsUpTo` over the whole listing, with each draft written out. */
  lemma PairsListed(st: Store, ms: seq<MessageRow>, ids: seq<nat>,
                    draft: (Lead, Option<Enrichment>, nat) -> Result<Messaging.AllMessages>)
    requires Listed(st, ids) && |ms| == |st.messages| + 2 * |ids|
    requires PairsUpTo(st, ms, ids, draft, |ids|)
    ensures forall k :: 0 <= k < |ids| ==> draft(st.leads[ids[k]], EnrichmentOf(st, ids[k]), k).Ok?
    ensures forall k :: 0 <= k < |ids| ==>
              var m := draft(st.leads[ids[k]], EnrichmentOf(st, ids[k]), k).value;
              && ms[|st.messages| + 2 * k] == MessageRow(ids[k], "email", "A", EmailContent(m.emailA.subject, m.emailA.body))
              && ms[|st.messages| + 2 * k + 1] == MessageRow(ids[k], "linkedin", "A", m.linkedinA.message)
  {
    forall k | 0 <= k < |ids| ensures draft(st.leads[ids[k]], EnrichmentOf(st, ids[k]), k).Ok? {
      assert DraftsFor(st, ids, draft, k).Ok?;
    }
  }

  /** The dispatcher the `k`-th dispatch of stage 4 starts from. */
  function Prev(d: Outreach.Dispatcher, outs: seq<Outreach.Outcome>, k: nat): Outreach.Dispatcher
    requires k <= |outs|
  {
    if k == 0 then d else outs[k - 1].after
  }

  /** The dispatches of stage 4, one per lead, each on the dispatcher the
      previous one left. */
  predicate Chained(d: Outreach.Dispatcher, send: Outreach.Dispatcher -> Outreach.Outcome, outs: seq<Outreach.Outcome>) {
    forall k :: 0 <= k < |outs| ==> outs[k] == send(Prev(d, outs, k))
  }

  /** The status a lead gets from its dispatch: SENT exactly when every
      channel result is a success (so also when there is none). */
  function Verdict(o: Outreach.Outcome): (s: LeadStatus)
    ensures s == SENT <==> Outreach.AllSuccess(o.results)
    ensures s == SENT || s == FAILED
  {
    if Outreach.AllSuccess(o.results) then SENT else FAILED
  }

  /** Every MESSAGED lead is now SENT or FAILED, every other lead is as
      it was, and no lead appears or disappears. */
  predicate Settled(before: map<nat, Lead>, after: map<nat, Lead>) {
    && after.Keys == before.Keys
    && forall id :: id in before ==>
         if before[id].status == MESSAGED then after[id] == before[id].(status := SENT) || after[id] == before[id].(status := FAILED)
         else after[id] == before[id]
  }

  /** The store after status updates to the first `i` leads of `ids`:
      those leads carry their `marks`, and nothing else changed. */
  predicate MarkedUpTo(st: Store, r: Store, ids: seq<nat>, marks: map<nat, LeadStatus>, i: nat)
    requires i <= |ids|
  {
    && r.leads == Mark(st.leads, marks) && marks.Keys == Elems(ids[..i])
    && r.enrichments == st.enrichments && r.messages == st.messages
    && r.outreach == st.outreach && r.nextLeadId == st.nextLeadId && r.nextOutreachId == st.nextOutreachId
  }

  lemma MarkedStep(st: Store, r: Store, ids: seq<nat>, marks: map<nat, LeadStatus>, i: nat, s: LeadStatus)
    requires i < |ids| && ids[i] in st.leads && MarkedUpTo(st, r, ids, marks, i)
    ensures MarkedUpTo(st, UpdateLeadStatus(r, ids[i], s), ids, marks[ids[i] := s], i + 1)
  {
    assert ids[..i + 1] == ids[..i] + [ids[i]];
    MarkStep(st.leads, marks, ids[i], s);
  }

  /** The first `i` leads of `ids` are marked with their dispatch's verdict. */
  predicate VerdictsUpTo(ids: seq<nat>, outs: seq<Outreach.Outcome>, marks: map<nat, LeadStatus>, i: nat)
    requires i <= |ids| && |outs| == i
  {
    && (forall k :: 0 <= k < i ==> ids[k] in marks && marks[ids[k]] == Verdict(outs[k]))
    && (forall id :: id in marks ==> marks[id] == SENT || marks[id] == FAILED)
  }

  lemma VerdictStep(ids: seq<nat>, outs: seq<Outreach.Outcome>, marks: map<nat, LeadStatus>, i: nat, o: Outreach.Outcome)
    requires i < |ids| && |outs| == i && ids[i] !in ids[..i] && VerdictsUpTo(ids, outs, marks, i)
    ensures VerdictsUpTo(ids, outs + [o], marks[ids[i] := Verdict(o)], i + 1)
  {
    forall k | 0 <= k < i + 1 ensures ids[k] in marks[ids[i] := Verdict(o)] && marks[ids[i] := Verdict(o)][ids[k]] == Verdict((outs + [o])[k]) {
      if k < i {
        assert ids[k] in ids[..i];
        assert (outs + [o])[k] == outs[k];
      }
    }
  }

  lemma ChainStep(d: Outreach.Dispatcher, send: Outreach.Dispatcher -> Outreach.Outcome, outs: seq<Outreach.Outcome>)
    requires Chained(d, send, outs)
    ensures Chained(d, send, outs + [send(Prev(d, outs, |outs|))])
  {
    var outs' := outs + [send(Prev(d, outs, |outs|))];
    forall k | 0 <= k < |outs'| ensures outs'[k] == send(Prev(d, outs', k)) {
      if k < |outs| {
        assert outs'[k] == outs[k];
      }
      if 0 < k {
        assert outs'[k - 1] == outs[k - 1];
      }
    }
  }

  /** Once every MESSAGED lead is handled, the store is settled. */
  lemma SentAll(st: Store, r: Store, outs: seq<Outreach.Outcome>, marks: map<nat, LeadStatus>)
    requires var ids := LeadsByStatus(st, Some(MESSAGED));
             |outs| == |ids| && MarkedUpTo(st, r, ids, marks, |ids|) && VerdictsUpTo(ids, outs, marks, |ids|)
    ensures Settled(st.leads, r.leads)
  {
    var ids := LeadsByStatus(st, Some(MESSAGED));
    assert ids[..|ids|] == ids;
  }

  /** The first `|outs|` leads of `ids` carry their dispatch's verdict. */
  lemma VerdictsShown(st: Store, r: Store, ids: seq<nat>, outs: seq<Outreach.Outcome>, marks: map<nat, LeadStatus>)
    requires |outs| <= |ids| && Listed(st, ids)
    requires MarkedUpTo(st, r, ids, marks, |outs|) && VerdictsUpTo(ids, outs, marks, |outs|)
    ensures forall k :: 0 <= k < |outs| ==> ids[k] in r.leads && r.leads[ids[k]].status == Verdict(outs[k])
  {
  }

  /** The state of stage 4 after dispatching `outs` to the first `|outs|`
      leads of `ids`, the dispatcher being `cur`. */
  predicate DispatchedUpTo(st: Store, r: Store, ids: seq<nat>, d: Outreach.Dispatcher,
                           send: Outreach.Dispatcher -> Outreach.Outcome, outs: seq<Outreach.Outcome>,
                           marks: map<nat, LeadStatus>, cur: Outreach.Dispatcher)
    requires Listed(st, ids)
  {
    && |outs| <= |ids|
    && (forall k :: 0 <= k < |outs| ==> Text.FirstWord(st.leads[ids[k]].fullName).Some?)
    && MarkedUpTo(st, r, ids, marks, |outs|) && VerdictsUpTo(ids, outs, marks, |outs|)
    && Chained(d, send, outs) && cur == Prev(d, outs, |outs|)
  }

  lemma DispatchStep(st: Store, r: Store, ids: seq<nat>, d: Outreach.Dispatcher,
                     send: Outreach.Dispatcher -> Outreach.Outcome, outs: seq<Outreach.Outcome>,
                     marks: map<nat, LeadStatus>, cur: Outreach.Dispatcher)
    requires Listed(st, ids) && |outs| < |ids| && DispatchedUpTo(st, r, ids, d, send, outs, marks, cur)
    requires Text.FirstWord(st.leads[ids[|outs|]].fullName).Some?
    ensures var o := send(cur);
            DispatchedUpTo(st, UpdateLeadStatus(r, ids[|outs|], Verdict(o)), ids, d, send, outs + [o],
                           marks[ids[|outs|] := Verdict(o)], o.after)
  {
    var o, i := send(cur), |outs|;
    MarkedStep(st, r, ids, marks, i, Verdict(o));
    VerdictStep(ids, outs, marks, i, o);
    ChainStep(d, send, outs);
  }

  /** Before the first dispatch nothing is handled. */
  lemma DispatchStart(st: Store, ids: seq<nat>, d: Outreach.Dispatcher, send: Outreach.Dispatcher -> Outreach.Outcome)
    requires Listed(st, ids)
    ensures DispatchedUpTo(st, st, ids, d, send, [], map[], d)
  {
    MarkNothing(st.leads);
  }

  /** One pass of the stage-4 loop: dispatch the next lead on the current
      dispatcher and record its verdict. */
  method DispatchNext(st: Store, r: Store, ids: seq<nat>, d: Outreach.Dispatcher,
                      send: Outreach.Dispatcher -> Outreach.Outcome, outs: seq<Outreach.Outcome>,
                      ghost marks: map<nat, LeadStatus>, cur: Outreach.Dispatcher)
    returns (r': Store, outs': seq<Outreach.Outcome>, ghost marks': map<nat, LeadStatus>, cur': Outreach.Dispatcher)
    requires Listed(st, ids) && |outs| < |ids| && DispatchedUpTo(st, r, ids, d, send, outs, marks, cur)
    requires Text.FirstWord(st.leads[ids[|outs|]].fullName).Some?
    ensures |outs'| == |outs| + 1 && DispatchedUpTo(st, r', ids, d, send, outs', marks', cur')
  {
    var o := send(cur);
    DispatchStep(st, r, ids, d, send, outs, marks, cur);
    r' := UpdateLeadStatus(r, ids[|outs|], Verdict(o));
    outs' := outs + [o];
    marks' := marks[ids[|outs|] := Verdict(o)];
    cur' := o.after;
  }

  /** The loop of stage 4 over the listing `ids`: it stops at the first
      lead whose full name has no word, after the leads before it. */
  method SendLoop(st: Store, ids: seq<nat>, d: Outreach.Dispatcher, send: Outreach.Dispatcher -> Outreach.Outcome)
    returns (r: Store, trace: seq<int>, outs: seq<Outreach.Outcome>, failure: Option<string>, ghost marks: map<nat, LeadStatus>)
    requires Listed(st, ids)
    ensures |outs| <= |ids| && (failure.None? <==> |outs| == |ids|)
    ensures forall k :: 0 <= k < |outs| ==> Text.FirstWord(st.leads[ids[k]].fullName).Some?
    ensures failure.Some? ==> failure.value == IndexErrorMessage
                              && Text.FirstWord(st.leads[ids[|outs|]].fullName).None?
    ensures Chained(d, send, outs)
    ensures MarkedUpTo(st, r, ids, marks, |outs|) && VerdictsUpTo(ids, outs, marks, |outs|)
    ensures trace == StageTrace(75, |ids|)[..|outs|]
  {
    var n := |ids|;
    r, trace, outs, failure := st, [], [], None;
    marks := map[];
    DispatchStart(st, ids, d, send);
    var cur := d;
    var i := 0;
    while i < n && failure.None?
      invariant |outs| == i && DispatchedUpTo(st, r, ids, d, send, outs, marks, cur)
      invariant failure.Some? ==> i < n && failure.value == IndexErrorMessage
                                  && Text.FirstWord(st.leads[ids[i]].fullName).None?
      invariant trace == StageTrace(75, n)[..i]
      decreases n - i, if failure.None? then 1 else 0
    {
      var id := ids[i];
      if Text.FirstWord(st.leads[id].fullName).None? {
        failure := Some(IndexErrorMessage);
      } else {
        // the source writes the progress after the dispatch; nothing in
        // between can fail, so the order does not show
        StageTraceStep(75, n, i);
        trace := trace + [75 + (25 * i) / n];
        r, outs, marks, cur := DispatchNext(st, r, ids, d, send, outs, marks, cur);
        i := i + 1;
      }
    }
  }

  /** Stage 4: each MESSAGED lead, newest first, is greeted by its first
      name and dispatched by `send`, each dispatch on the dispatcher
      the previous one left; the lead becomes SENT or FAILED by its
      dispatch's verdict. A full name without a word raises IndexError
      and aborts the stage. */
  method OutreachStage(st: Store, d: Outreach.Dispatcher, send: Outreach.Dispatcher -> Outreach.Outcome)
    returns (r: Store, trace: seq<int>, outs: seq<Outreach.Outcome>, failure: Option<string>)
    ensures var ids := LeadsByStatus(st, Some(MESSAGED));
            failure.None? <==> forall k :: 0 <= k < |ids| ==> Text.FirstWord(st.leads[ids[k]].fullName).Some?
    ensures failure.Some? ==> failure.value == IndexErrorMessage
    ensures Chained(d, send, outs)
    ensures failure.None? ==> var ids := LeadsByStatus(st, Some(MESSAGED));
              && |outs| == |ids|
              && forall k :: 0 <= k < |ids| ==> ids[k] in r.leads && r.leads[ids[k]].status == Verdict(outs[k])
    ensures failure.None? ==> Settled(st.leads, r.leads)
    ensures r.leads.Keys == st.leads.Keys
    ensures r.enrichments == st.enrichments && r.messages == st.messages && r.nextLeadId == st.nextLeadId
    ensures r.outreach == st.outreach && r.nextOutreachId == st.nextOutreachId
    ensures failure.None? ==> trace == StageTrace(75, |LeadsByStatus(st, Some(MESSAGED))|)
    ensures failure.Some? ==> trace < StageTrace(75, |LeadsByStatus(st, Some(MESSAGED))|)
  {
    var ids := LeadsByStatus(st, Some(MESSAGED));
    ListingListed(st, Some(MESSAGED));
    ghost var marks;
    r, trace, outs, failure, marks := SendLoop(st, ids, d, send);
    VerdictsShown(st, r, ids, outs, marks);
    if failure.None? {
      SentAll(st, r, outs, marks);
      assert StageTrace(75, |ids|)[..|ids|] == StageTrace(75, |ids|);
    }
  }

  // ---------------------------------------------------------------------------
  // The worker.

  /** Everything `execute_pipeline` reads besides its arguments. */
  datatype World = World(
    groqKey: Option<string>,
    draws: nat -> LeadGen.Draws,
    enrichReplies: nat -> Option<EnrichmentDict>,
    messageReplies: nat -> Messaging.Replies,
    trials: nat -> Outreach.Trial,
    now: real, rateLimit: int, maxRetries: int)

  /** The run state the `finally` block leaves after an exception. */
  function Aborted(error: string, progress: int): (s: RunState)
    ensures !s.running && s.stage == Some("Error: " + error) && s.progress == progress
  {
    RunState(false, Some("Error: " + error), progress)
  }

  /** Every lead of the store has status `s`. */
  predicate AllAt(st: Store, s: LeadStatus) {
    forall id :: id in st.leads ==> st.leads[id].status == s
  }

  /** A prefix followed by a non-empty tail, or a proper prefix, is a
      proper prefix, under any common head. */
  lemma PrefixAppend(a: seq<int>, t: seq<int>, u: seq<int>, rest: seq<int>)
    requires t < u || (t <= u && rest != [])
    ensures a + t < a + u + rest
  {
    assert (a + u + rest)[..|a + t|] == a + t;
  }

  /** Stage 1, lines 209-227: clear every table, generate `lead_count` leads
      and insert them; they get the next `n` ids and status NEW. */
  method GeneratePhase(st: Store, req: Request, w: World) returns (r: Store, failure: Option<string>)
    ensures failure.Some? ==> exists i :: 0 <= i < req.leadCount
                                && LeadGen.GenerateLead(LeadGen.NewGenerator(42), w.draws(i)) == Err(failure.value)
    ensures failure.None? ==> && Numbered(r.leads.Keys, st.nextLeadId, Max(req.leadCount, 0))
                              && |r.leads| == Max(req.leadCount, 0) && AllAt(r, NEW)
                              && r.enrichments == [] && r.messages == []
  {
    var n := Max(req.leadCount, 0);
    r := ClearAllData(st);
    failure := None;
    var generated := LeadGen.GenerateLeads(LeadGen.NewGenerator(42), req.leadCount, w.draws);
    if generated.Err? {
      failure := Some(generated.error);
      return;
    }
    var cleared := r;
    r := InsertAll(r, generated.value);
    forall id | id in r.leads ensures r.leads[id].status == NEW {
      var k := id - cleared.nextLeadId;
      assert r.leads[cleared.nextLeadId + k] == NewLead(IntakeOf(generated.value[k]));
    }
    NumberedCard(r.leads.Keys, st.nextLeadId, n);
  }

  /** Moving a store whose leads all had status `from` leaves them all at `to`. */
  lemma MovedAll(st: Store, r: Store, from: LeadStatus, to: LeadStatus)
    requires AllAt(st, from) && Moved(st.leads, r.leads, from, to)
    ensures AllAt(r, to)
  {
    forall id | id in r.leads ensures r.leads[id].status == to {
      assert st.leads[id].status == from;
    }
  }

  /** The same `n` leads, all ENRICHED now, with `n` more enrichment rows
      and no new message. */
  predicate EnrichedAll(st: Store, r: Store, n: nat) {
    && r.leads.Keys == st.leads.Keys && AllAt(r, ENRICHED)
    && |r.enrichments| == |st.enrichments| + n && r.messages == st.messages
  }

  /** Stage 2, lines 229-246: build the enricher, which refuses "ai" mode
      without a key, then enrich every lead; in "ai" mode a parsed reply
      lacking a key aborts the stage with KeyError. */
  method EnrichPhase(st: Store, req: Request, w: World, n: nat) returns (r: Store, t: seq<int>, failure: Option<string>)
    requires |st.leads| == n && AllAt(st, NEW)
    ensures req.enrichmentMode == "ai" && (w.groqKey.None? || w.groqKey.value == "") ==>
              failure == Some(KeyMissing) && t == []
    ensures req.enrichmentMode != "ai" ==> failure.None?
    ensures failure.Some? ==> && t <= StageTrace(25, n)
                              && (|| failure.value == KeyMissing
                                  || exists i :: 0 <= i < |IndexedKeys| && failure.value == KeyErrorMessage(IndexedKeys[i]))
    ensures failure.None? ==> t == StageTrace(25, n) && EnrichedAll(st, r, n)
  {
    r, t, failure := st, [], None;
    var enricher := Enrich.NewEnricher(req.enrichmentMode, w.groqKey);
    if enricher.Err? {
      failure := Some(enricher.error);
      return;
    }
    var en := enricher.value;
    if en.mode != "ai" {
      RulesAlwaysStored(en, w.enrichReplies);
    }
    r, t, failure := EnrichEvery(st, EnrichWith(en, w.enrichReplies), n);
  }

  /** The enrichment dict of the i-th lead: the enricher run on the model's
      i-th reply. */
  function EnrichWith(en: Enrich.Enricher, replies: nat -> Option<EnrichmentDict>): (Lead, nat) -> EnrichmentDict {
    (l: Lead, i: nat) => Enrich.EnrichLead(en, l, replies(i))
  }

  /** Outside "ai" mode every dict the enricher makes can be stored. */
  lemma RulesAlwaysStored(en: Enrich.Enricher, replies: nat -> Option<EnrichmentDict>)
    requires en.mode != "ai"
    ensures forall l: Lead, i: nat :: MissingKey(EnrichWith(en, replies)(l, i)).None?
  {
    forall l: Lead, i: nat ensures MissingKey(EnrichWith(en, replies)(l, i)).None? {
      Enrich.RulesTagged(en, l, replies(i));
    }
  }

  /** Stage 2 on a store of NEW leads: every lead becomes ENRICHED and
      gets one enrichment row, unless a dict lacking a key aborts it. */
  method EnrichEvery(st: Store, enrich: (Lead, nat) -> EnrichmentDict, n: nat)
    returns (r: Store, t: seq<int>, failure: Option<string>)
    requires |st.leads| == n && AllAt(st, NEW)
    ensures (forall l: Lead, i: nat :: MissingKey(enrich(l, i)).None?) ==> failure.None?
    ensures failure.Some? ==> && t < StageTrace(25, n)
                              && exists i :: 0 <= i < |IndexedKeys| && failure.value == KeyErrorMessage(IndexedKeys[i])
    ensures failure.None? ==> t == StageTrace(25, n) && EnrichedAll(st, r, n)
  {
    SelectsAll(st, NEW);
    r, t, failure := EnrichStage(st, enrich);
    if failure.None? {
      MovedAll(st, r, NEW, ENRICHED);
    } else {
      var ids := LeadsByStatus(st, Some(NEW));
      var k :| 0 <= k < |ids| && MissingKey(enrich(st.leads[ids[k]], k)).Some?
               && failure.value == KeyErrorMessage(MissingKey(enrich(st.leads[ids[k]], k)).value);
    }
  }

  /** Stage 3, lines 248-271: build the personalizer, which refuses to
      work without a key, then write to every lead. */
  method MessagePhase(st: Store, w: World, n: nat) returns (r: Store, t: seq<int>, failure: Option<string>)
    requires |st.leads| == n && AllAt(st, ENRICHED)
    ensures (w.groqKey.None? || w.groqKey.value == "") ==> failure.Some? && t == []
    ensures failure.Some? ==> t <= StageTrace(50, n)
    ensures failure.None? ==> && t == StageTrace(50, n) && r.leads.Keys == st.leads.Keys && AllAt(r, MESSAGED)
                              && |r.messages| == |st.messages| + 2 * n && r.enrichments == st.enrichments
  {
    r, t, failure := st, [], None;
    var personalizer := Messaging.NewPersonalizer(w.groqKey);
    if personalizer.Err? {
      failure := Some(personalizer.error);
      return;
    }
    SelectsAll(st, ENRICHED);
    r, t, failure := MessageStage(st, (l: Lead, j: Option<Enrichment>, i: nat) => Messaging.GenerateAll(l, j, w.messageReplies(i)));
    if failure.None? {
      MovedAll(st, r, ENRICHED, MESSAGED);
    }
  }

  /** Settling a store whose leads were all MESSAGED leaves each SENT or FAILED. */
  lemma SettledAllMessaged(st: Store, r: Store)
    requires AllAt(st, MESSAGED) && Settled(st.leads, r.leads)
    ensures r.leads.Keys == st.leads.Keys
    ensures forall id :: id in r.leads ==> r.leads[id].status in {SENT, FAILED}
  {
    forall id | id in r.leads ensures r.leads[id].status in {SENT, FAILED} {
      assert st.leads[id].status == MESSAGED;
    }
  }

  /** Stage 4, lines 273-310: a dispatcher for the run's dry-run flag,
      then one dispatch per lead on the requested channel. */
  method SendPhase(st: Store, req: Request, w: World, n: nat) returns (r: Store, t: seq<int>, failure: Option<string>)
    requires |st.leads| == n && AllAt(st, MESSAGED)
    ensures failure.Some? ==> t <= StageTrace(75, n)
    ensures failure.None? ==> t == StageTrace(75, n) && Settled(st.leads, r.leads)
    ensures r.enrichments == st.enrichments && r.messages == st.messages
  {
    SelectsAll(st, MESSAGED);
    var d := Outreach.NewDispatcher(req.dryRun, w.rateLimit, w.maxRetries, w.now);
    var outs;
    r, t, outs, failure := OutreachStage(st, d, dd => Outreach.SendOutreach(dd, w.trials, req.channel));
  }

  /** The progress values stages 3 and 4 write after the 50 of stage 2. */
  function LaterTrace(n: nat): seq<int> {
    StageTrace(50, n) + [75] + StageTrace(75, n) + [100]
  }

  /** Stages 3 and 4 in order, from a store of `n` ENRICHED leads; the
      trace is a proper prefix of theirs exactly when a stage raised. */
  method LaterStages(st: Store, req: Request, w: World, n: nat) returns (r: Store, t: seq<int>, failure: Option<string>)
    requires |st.leads| == n && AllAt(st, ENRICHED)
    ensures failure.None? ==> t == LaterTrace(n)
    ensures failure.Some? ==> t < LaterTrace(n)
    ensures (w.groqKey.None? || w.groqKey.value == "") ==> failure.Some? && t == []
    ensures failure.None? ==> && r.leads.Keys == st.leads.Keys
                              && (forall id :: id in r.leads ==> r.leads[id].status in {SENT, FAILED})
                              && |r.messages| == |st.messages| + 2 * n && r.enrichments == st.enrichments
  {
    var t3;
    r, t3, failure := MessagePhase(st, w, n);
    if failure.Some? {
      t := t3;
      PrefixAppend([], t3, StageTrace(50, n), [75] + StageTrace(75, n) + [100]);
      assert LaterTrace(n) == [] + StageTrace(50, n) + ([75] + StageTrace(75, n) + [100]);
      return;
    }
    var messaged := r;
    var t4;
    r, t4, failure := SendPhase(messaged, req, w, n);
    var head := t3 + [75];
    t := head + t4;
    assert LaterTrace(n) == head + StageTrace(75, n) + [100];
    if failure.Some? {
      PrefixAppend(head, t4, StageTrace(75, n), [100]);
      return;
    }
    SettledAllMessaged(messaged, r);
    t := t + [100];
  }

  /** The run's trace is a proper prefix of the full one, or the full one
      when `ok`, and starts with 0 and 10. */
  predicate TraceOf(trace: seq<int>, n: nat, ok: bool) {
    && |trace| >= 2 && trace[..2] == [0, 10]
    && (ok ==> trace == FullTrace(n, n, n))
    && (!ok ==> trace < FullTrace(n, n, n))
  }

  /** The traces of a run that stops in stage 1 or when building the enricher. */
  lemma EarlyTraces(n: nat)
    ensures TraceOf([0, 10], n, false) && TraceOf([0, 10, 25], n, false)
  {
    var full := FullTrace(n, n, n);
    assert full[..2] == [0, 10];
    assert full[..3] == [0, 10, 25];
  }

  /** The trace of a run that stops in stage 2, after the progress values
      of the leads it enriched. */
  lemma EnrichTraces(n: nat, t: seq<int>)
    requires t <= StageTrace(25, n)
    ensures TraceOf([0, 10, 25] + t, n, false)
    ensures t == [] ==> ([0, 10, 25] + t)[2] == 25
  {
    var head := [0, 10, 25];
    assert FullTrace(n, n, n) == head + StageTrace(25, n) + ([50] + LaterTrace(n));
    assert (head + t)[..2] == [0, 10];
    PrefixAppend(head, t, StageTrace(25, n), [50] + LaterTrace(n));
  }

  /** The trace of a run that reaches stage 3: what stages 3 and 4 write
      follows the 50 that closes stage 2. */
  lemma LaterTraces(n: nat, t: seq<int>, ok: bool)
    requires ok ==> t == LaterTrace(n)
    requires !ok ==> t < LaterTrace(n)
    ensures TraceOf([0, 10, 25] + StageTrace(25, n) + [50] + t, n, ok)
    ensures t == [] ==> ([0, 10, 25] + StageTrace(25, n) + [50] + t)[|StageTrace(25, n)| + 3] == 50
  {
    var head := [0, 10, 25] + StageTrace(25, n) + [50];
    assert FullTrace(n, n, n) == head + LaterTrace(n);
    assert (head + t)[..2] == [0, 10];
    if !ok {
      PrefixAppend(head, t, LaterTrace(n), []);
    }
  }

  /** Every lead of the run is SENT or FAILED, under the `n` ids after
      `from`, with one enrichment row and two message rows per lead. */
  ghost predicate Delivered(r: Store, from: nat, n: nat) {
    && Numbered(r.leads.Keys, from, n)
    && (forall id :: id in r.leads ==> r.leads[id].status in {SENT, FAILED})
    && |r.enrichments| == n && |r.messages| == 2 * n
  }

  /** The four stages in order, each starting only when the one before
      finished; the trace is a proper prefix of the full one exactly when
      a stage raised. */
  method RunStages(st: Store, req: Request, w: World) returns (r: Store, trace: seq<int>, failure: Option<string>)
    ensures TraceOf(trace, Max(req.leadCount, 0), failure.None?)
    ensures (w.groqKey.None? || w.groqKey.value == "") ==> failure.Some? && trace[|trace| - 1] <= 50
    ensures failure.None? ==> Delivered(r, st.nextLeadId, Max(req.leadCount, 0))
  {
    var n := Max(req.leadCount, 0);
    EarlyTraces(n);
    trace := [0, 10];
    r, failure := GeneratePhase(st, req, w);
    if failure.None? {
      r, trace, failure := StagesAfterGeneration(r, req, w, st.nextLeadId, n);
    }
  }

  /** Stages 2 to 4, from the `n` freshly numbered NEW leads of stage 1. */
  method StagesAfterGeneration(st: Store, req: Request, w: World, ghost from: nat, n: nat)
    returns (r: Store, trace: seq<int>, failure: Option<string>)
    requires Numbered(st.leads.Keys, from, n) && |st.leads| == n && AllAt(st, NEW)
    requires st.enrichments == [] && st.messages == []
    ensures TraceOf(trace, n, failure.None?)
    ensures (w.groqKey.None? || w.groqKey.value == "") ==> failure.Some? && trace[|trace| - 1] <= 50
    ensures failure.None? ==> Delivered(r, from, n)
  {
    EarlyTraces(n);
    var t;
    r, t, failure := EnrichPhase(st, req, w, n);
    if failure.Some? {
      trace := [0, 10, 25] + t;
      EnrichTraces(n, t);
    } else {
      var enriched := r;
      r, t, failure := LaterStages(enriched, req, w, n);
      LaterTraces(n, t, failure.None?);
      trace := [0, 10, 25] + StageTrace(25, n) + [50] + t;
    }
  }


  /** `execute_pipeline`: clear the store, then generate, enrich, write
      and send, stage by stage. Any exception ends the run with stage
      "Error: <message>" and the progress reached; `trace` lists every
      progress value written. The run state it started from plays no part:
      the worker never looks at `running`. */
  method ExecutePipeline(st: Store, req: Request, w: World)
    returns (final: RunState, r: Store, trace: seq<int>, failure: Option<string>)
    ensures !final.running
    ensures failure.None? <==> final.stage == Some("Complete")
    ensures |trace| >= 2 && trace[0] == 0 && final.progress == trace[|trace| - 1]
    ensures failure.Some? ==> final == Aborted(failure.value, trace[|trace| - 1])
    ensures NonDecreasing(trace) && Within(trace, 0, 100)
    ensures (w.groqKey.None? || w.groqKey.value == "") ==> failure.Some? && final.progress <= 50
    ensures failure.None? <==> final.progress == 100
    ensures failure.None? ==> trace == FullTrace(Max(req.leadCount, 0), Max(req.leadCount, 0), Max(req.leadCount, 0))
    ensures failure.None? ==> var n := Max(req.leadCount, 0);
              && Numbered(r.leads.Keys, st.nextLeadId, n)
              && (forall id :: id in r.leads ==> r.leads[id].status in {SENT, FAILED})
              && |r.enrichments| == n && |r.messages| == 2 * n
  {
    var n := Max(req.leadCount, 0);
    r, trace, failure := RunStages(st, req, w);
    assert trace[0] == trace[..2][0];
    PrefixShape(trace, n, n, n);
    if failure.None? {
      final := RunState(false, Some("Complete"), 100);
    } else {
      final := Aborted(failure.value, trace[|trace| - 1]);
      assert ("Error: " + failure.value)[0] == 'E';
      assert trace[|trace| - 1] < 100 by {
        FullTraceShape(n, n, n);
        var f := FullTrace(n, n, n);
        assert trace[|trace| - 1] == f[|trace| - 1];
        StageTraceShape(75, n);
      }
    }
  }
}

=== FILE: store.dfy ===
/** The lead database (backend/database.py) as an in-memory value: the four
    tables become a map of leads keyed by id plus row sequences, and every
    store operation is a pure function from store to store. */
module LeadStore {
  import opened Common
  import Text

  /** The five lead statuses; the enum's value is the member's name. */
  datatype LeadStatus = NEW | ENRICHED | MESSAGED | SENT | FAILED

  const AllStatuses: seq<LeadStatus> := [NEW, ENRICHED, MESSAGED, SENT, FAILED]

  function StatusValue(s: LeadStatus): string
  {
    match s
    case NEW => "NEW"
    case ENRICHED => "ENRICHED"
    case MESSAGED => "MESSAGED"
    case SENT => "SENT"
    case FAILED => "FAILED"
  }

  /** `LeadStatus(v)`: the member whose value is `v`; `None` where Python
      raises ValueError. */
  function ParseStatus(v: string): (r: Option<LeadStatus>)
    ensures r.Some? ==> StatusValue(r.value) == v
    ensures r.None? <==> forall s: LeadStatus :: StatusValue(s) != v
  {
    if v == "NEW" then Some(NEW)
    else if v == "ENRICHED" then Some(ENRICHED)
    else if v == "MESSAGED" then Some(MESSAGED)
    else if v == "SENT" then Some(SENT)
    else if v == "FAILED" then Some(FAILED)
    else None
  }

  /** The enum has exactly five members, with five distinct values, and
      parsing a member's value gives the member back. */
  lemma StatusEnumeration()
    ensures |AllStatuses| == 5
    ensures forall s: LeadStatus :: s in AllStatuses
    ensures forall i, j :: 0 <= i < j < |AllStatuses| ==> StatusValue(AllStatuses[i]) != StatusValue(AllStatuses[j])
    ensures forall s: LeadStatus :: ParseStatus(StatusValue(s)) == Some(s)
  {
    forall s: LeadStatus
      ensures s in AllStatuses
    {
      match s
      case NEW => assert AllStatuses[0] == s;
      case ENRICHED => assert AllStatuses[1] == s;
      case MESSAGED => assert AllStatuses[2] == s;
      case SENT => assert AllStatuses[3] == s;
      case FAILED => assert AllStatuses[4] == s;
    }
  }

  /** A lead as handed to `insert_lead`; the three optional fields may be absent. */
  datatype Intake = Intake(
    fullName: string, companyName: string, roleTitle: string, industry: string,
    companyWebsite: string, email: string, phone: Option<string>, linkedinUrl: string,
    country: string, comments: Option<string>, source: Option<string>)

  /** A row of the `leads` table. */
  datatype Lead = Lead(
    fullName: string, companyName: string, roleTitle: string, industry: string,
    companyWebsite: string, email: string, phone: string, linkedinUrl: string,
    country: string, comments: string, source: string, status: LeadStatus)

  /** What an enricher produces for one lead (a row of the `enrichment` table). */
  datatype Enrichment = Enrichment(
    companySize: string, personaTag: string, painPoints: seq<string>,
    buyingTriggers: seq<string>, confidenceScore: int, enrichmentMode: string)

  datatype EnrichmentRow = EnrichmentRow(leadId: nat, data: Enrichment)
  datatype MessageRow = MessageRow(leadId: nat, channel: string, variation: string, content: string)
  datatype OutreachRow = OutreachRow(
    leadId: nat, messageId: nat, channel: string, status: string,
    sentAt: Option<real>, errorMessage: Option<string>, retryCount: int)

  /** The four tables plus the AUTOINCREMENT counters of the two tables whose
      ids are handed out; rows of the other two tables are kept in insertion order. */
  datatype Tables = Tables(
    leads: map<nat, Lead>, enrichments: seq<EnrichmentRow>, messages: seq<MessageRow>,
    outreach: map<nat, OutreachRow>, nextLeadId: nat, nextOutreachId: nat)

  /** Every id in use lies below its table's counter; ids start at 1. */
  predicate WellFormed(t: Tables) {
    && 1 <= t.nextLeadId && 1 <= t.nextOutreachId
    && (forall id :: id in t.leads ==> 1 <= id < t.nextLeadId)
    && (forall id :: id in t.outreach ==> 1 <= id < t.nextOutreachId)
  }

  type Store = t: Tables | WellFormed(t) witness Tables(map[], [], [], map[], 1, 1)

  const EmptyStore: Store := Tables(map[], [], [], map[], 1, 1)

  /** The stored row for an intake record with status NEW and the column defaults. */
  function NewLead(d: Intake): (l: Lead)
    ensures l.status == NEW
    ensures d.phone.None? ==> l.phone == ""
    ensures d.comments.None? ==> l.comments == ""
    ensures d.source.None? ==> l.source == "external"
    ensures d.source.Some? ==> l.source == d.source.value
  {
    Lead(d.fullName, d.companyName, d.roleTitle, d.industry, d.companyWebsite, d.email,
         match d.phone case Some(p) => p case None => "",
         d.linkedinUrl, d.country,
         match d.comments case Some(c) => c case None => "",
         match d.source case Some(s) => s case None => "external",
         NEW)
  }

  datatype Inserted = Inserted(id: nat, store: Store)

  /** `insert_lead`: the new lead gets a fresh id and status NEW; nothing else changes. */
  function InsertLead(st: Store, d: Intake): (r: Inserted)
    ensures r.id !in st.leads && r.id >= 1
    ensures r.store.leads == st.leads[r.id := NewLead(d)]
    ensures r.store.nextLeadId > r.id
    ensures r.store.enrichments == st.enrichments && r.store.messages == st.messages
    ensures r.store.outreach == st.outreach
  {
    var id := st.nextLeadId;
    Inserted(id, st.(leads := st.leads[id := NewLead(d)], nextLeadId := id + 1))
  }

  /** The write `insert_enrichment` makes for a dict holding every key. */
  function InsertEnrichment(st: Store, leadId: nat, e: Enrichment): (r: Store)
    ensures r.leads == st.leads && r.messages == st.messages
    ensures r.outreach == st.outreach && r.nextLeadId == st.nextLeadId
    ensures r.enrichments == st.enrichments + [EnrichmentRow(leadId, e)]
  {
    st.(enrichments := st.enrichments + [EnrichmentRow(leadId, e)])
  }

  /** An enrichment as the dict `insert_enrichment` is handed: the rules
      fill every field, but a model's parsed reply may lack any of them. */
  datatype EnrichmentDict = EnrichmentDict(
    companySize: Option<string>, personaTag: Option<string>, painPoints: Option<seq<string>>,
    buyingTriggers: Option<seq<string>>, confidenceScore: Option<int>, enrichmentMode: Option<string>)

  /** The dict holding every field of `e`. */
  function AsDict(e: Enrichment): (d: EnrichmentDict)
    ensures MissingKey(d).None?
  {
    EnrichmentDict(Some(e.companySize), Some(e.personaTag), Some(e.painPoints), Some(e.buyingTriggers),
                   Some(e.confidenceScore), Some(e.enrichmentMode))
  }

  /** The keys `insert_enrichment` indexes, in the order it reads them
      (`enrichment_mode` is read with a default instead). */
  const IndexedKeys: seq<string> :=
    ["company_size", "persona_tag", "pain_points", "buying_triggers", "confidence_score"]

  /** Whether the dict holds each of `IndexedKeys`, in the same order. */
  function Holds(d: EnrichmentDict): seq<bool> {
    [d.companySize.Some?, d.personaTag.Some?, d.painPoints.Some?, d.buyingTriggers.Some?, d.confidenceScore.Some?]
  }

  /** The key whose lookup raises: the first indexed key the dict lacks. */
  function MissingKey(d: EnrichmentDict): (k: Option<string>)
    ensures k.None? <==> forall i :: 0 <= i < |IndexedKeys| ==> Holds(d)[i]
    ensures k.Some? ==> exists i :: && 0 <= i < |IndexedKeys| && !Holds(d)[i] && k.value == IndexedKeys[i]
                                   && forall j :: 0 <= j < i ==> Holds(d)[j]
  {
    var h := Holds(d);
    if !h[0] then Some(IndexedKeys[0])
    else if !h[1] then Some(IndexedKeys[1])
    else if !h[2] then Some(IndexedKeys[2])
    else if !h[3] then Some(IndexedKeys[3])
    else if !h[4] then Some(IndexedKeys[4])
    else None
  }

  /** `str(KeyError(key))`: the key in single quotes. */
  function KeyErrorMessage(key: string): string {
    "'" + key + "'"
  }

  /** The row a dict holding every indexed key is stored as: its own
      values, with "offline" for a missing `enrichment_mode`. */
  function StoredAs(d: EnrichmentDict): (e: Enrichment)
    requires MissingKey(d).None?
    ensures AsDict(e).(enrichmentMode := d.enrichmentMode) == d
    ensures d.enrichmentMode.None? ==> e.enrichmentMode == "offline"
  {
    Enrichment(d.companySize.value, d.personaTag.value, d.painPoints.value, d.buyingTriggers.value,
               d.confidenceScore.value, if d.enrichmentMode.Some? then d.enrichmentMode.value else "offline")
  }

  /** `insert_enrichment`: looking up a missing key raises KeyError before
      anything is written; otherwise one row is appended. */
  function InsertEnrichmentDict(st: Store, leadId: nat, d: EnrichmentDict): (r: Result<Store>)
    ensures r.Err? <==> MissingKey(d).Some?
    ensures r.Err? ==> r.error == KeyErrorMessage(MissingKey(d).value)
    ensures r.Ok? ==> && r.value.enrichments == st.enrichments + [EnrichmentRow(leadId, StoredAs(d))]
                      && r.value.leads == st.leads && r.value.messages == st.messages
                      && r.value.outreach == st.outreach && r.value.nextLeadId == st.nextLeadId
  {
    if MissingKey(d).Some? then Err(KeyErrorMessage(MissingKey(d).value))
    else Ok(InsertEnrichment(st, leadId, StoredAs(d)))
  }

  /** A dict's `enrichment_mode` plays no part in whether it can be stored. */
  lemma ModeNotIndexed(d: EnrichmentDict, mode: Option<string>)
    ensures MissingKey(d.(enrichmentMode := mode)) == MissingKey(d)
  {
    assert Holds(d.(enrichmentMode := mode)) == Holds(d);
  }

  /** An enrichment written as a dict is read back as itself. */
  lemma DictRoundTrip(e: Enrichment)
    ensures StoredAs(AsDict(e)) == e
  {
  }

  /** A complete enrichment is stored as itself. */
  lemma CompleteDictStored(st: Store, leadId: nat, e: Enrichment)
    ensures InsertEnrichmentDict(st, leadId, AsDict(e)) == Ok(InsertEnrichment(st, leadId, e))
  {
  }

  function InsertMessage(st: Store, leadId: nat, channel: string, variation: string, content: string): (r: Store)
    ensures r.leads == st.leads && r.enrichments == st.enrichments
    ensures r.messages == st.messages + [MessageRow(leadId, channel, variation, content)]
    ensures r.outreach == st.outreach
    ensures r.nextLeadId == st.nextLeadId && r.nextOutreachId == st.nextOutreachId
  {
    st.(messages := st.messages + [MessageRow(leadId, channel, variation, content)])
  }

  /** `insert_outreach`: a PENDING row with no retries under a fresh id. */
  function InsertOutreach(st: Store, leadId: nat, messageId: nat, channel: string): (r: Inserted)
    ensures r.id !in st.outreach
    ensures r.store.outreach == st.outreach[r.id := OutreachRow(leadId, messageId, channel, "PENDING", None, None, 0)]
    ensures r.store.leads == st.leads && r.store.enrichments == st.enrichments && r.store.messages == st.messages
    ensures r.store.nextLeadId == st.nextLeadId
  {
    var id := st.nextOutreachId;
    Inserted(id, st.(outreach := st.outreach[id := OutreachRow(leadId, messageId, channel, "PENDING", None, None, 0)],
                     nextOutreachId := id + 1))
  }

  /** `update_lead_status`: overwrites the one lead's status whatever it was
      (there is no transition check); an unknown id changes nothing. */
  function UpdateLeadStatus(st: Store, id: nat, s: LeadStatus): (r: Store)
    ensures r.leads.Keys == st.leads.Keys
    ensures id in st.leads ==> r.leads[id] == st.leads[id].(status := s)
    ensures forall other :: other in st.leads && other != id ==> r.leads[other] == st.leads[other]
    ensures r.enrichments == st.enrichments && r.messages == st.messages && r.outreach == st.outreach
    ensures r.nextLeadId == st.nextLeadId && r.nextOutreachId == st.nextOutreachId
  {
    if id in st.leads then st.(leads := st.leads[id := st.leads[id].(status := s)]) else st
  }

  /** Any status can follow any other: the store never refuses a backward move. */
  lemma NoTransitionCheck(st: Store, id: nat, from: LeadStatus, to: LeadStatus)
    requires id in st.leads && st.leads[id].status == from
    ensures UpdateLeadStatus(st, id, to).leads[id].status == to
  {
  }

  /** `update_outreach_status`: 'SENT' stamps `sent_at`; any other status
      bumps `retry_count` by one. Both overwrite status and error message. */
  function UpdateOutreachStatus(st: Store, oid: nat, status: string, error: Option<string>, now: real): (r: Store)
    ensures r.leads == st.leads && r.outreach.Keys == st.outreach.Keys
    ensures oid in st.outreach && status == "SENT" ==>
      r.outreach[oid] == st.outreach[oid].(status := status, sentAt := Some(now), errorMessage := error)
    ensures oid in st.outreach && status != "SENT" ==>
      r.outreach[oid] == st.outreach[oid].(status := status, errorMessage := error,
                                           retryCount := st.outreach[oid].retryCount + 1)
    ensures oid in st.outreach && status != "SENT" ==> r.outreach[oid].sentAt == st.outreach[oid].sentAt
    ensures oid !in st.outreach ==> r == st
    ensures forall o :: o in st.outreach && o != oid ==> r.outreach[o] == st.outreach[o]
    ensures r.enrichments == st.enrichments && r.messages == st.messages
    ensures r.nextLeadId == st.nextLeadId && r.nextOutreachId == st.nextOutreachId
  {
    if oid !in st.outreach then st
    else
      var row := st.outreach[oid];
      var row' := if status == "SENT" then row.(status := status, sentAt := Some(now), errorMessage := error)
                  else row.(status := status, errorMessage := error, retryCount := row.retryCount + 1);
      st.(outreach := st.outreach[oid := row'])
  }

  /** The `WHERE status = ?` filter; no filter selects every lead. */
  predicate Selected(l: Lead, status: Option<LeadStatus>) {
    status.None? || l.status == status.value
  }

  /** Selected ids below `hi`, newest (highest id) first. */
  function Collect(leads: map<nat, Lead>, status: Option<LeadStatus>, hi: nat): (ids: seq<nat>)
    ensures forall k :: 0 <= k < |ids| ==> ids[k] < hi && ids[k] in leads && Selected(leads[ids[k]], status)
    ensures forall id :: 0 <= id < hi && id in leads && Selected(leads[id], status) ==> id in ids
    ensures forall j, k :: 0 <= j < k < |ids| ==> ids[j] > ids[k]
    decreases hi
  {
    if hi == 0 then []
    else
      var rest := Collect(leads, status, hi - 1);
      if hi - 1 in leads && Selected(leads[hi - 1], status) then [hi - 1] + rest else rest
  }

  /** `get_leads_by_status`: exactly the leads with that status (all leads for
      no status), each once, newest first. */
  function LeadsByStatus(st: Store, status: Option<LeadStatus>): (ids: seq<nat>)
    ensures forall id :: id in ids <==> id in st.leads && Selected(st.leads[id], status)
    ensures forall j, k :: 0 <= j < k < |ids| ==> ids[j] > ids[k]
  {
    Collect(st.leads, status, st.nextLeadId)
  }

  /** A freshly inserted lead is the newest: it heads the full listing and
      the NEW listing. */
  lemma InsertedListedFirst(st: Store, d: Intake, s: Option<LeadStatus>)
    requires s == None || s == Some(NEW)
    ensures var r := InsertLead(st, d);
            |LeadsByStatus(r.store, s)| > 0 && LeadsByStatus(r.store, s)[0] == r.id
  {
    var r := InsertLead(st, d);
    var ids := LeadsByStatus(r.store, s);
    assert r.id in ids;
    var k :| 0 <= k < |ids| && ids[k] == r.id;
    assert ids[0] >= ids[k];
    assert ids[0] in r.store.leads;
  }

  /** After a status update the lead is listed under its new status and
      under no other. */
  lemma UpdateMovesListing(st: Store, id: nat, s: LeadStatus, other: LeadStatus)
    requires id in st.leads && other != s
    ensures id in LeadsByStatus(UpdateLeadStatus(st, id, s), Some(s))
    ensures id !in LeadsByStatus(UpdateLeadStatus(st, id, s), Some(other))
  {
  }

  /** The enrichment the LEFT JOIN of `get_lead_with_enrichment` pairs with a
      lead: its first enrichment row, if any. */
  function EnrichmentOf(st: Store, id: nat): (r: Option<Enrichment>)
    ensures r.Some? <==> exists i :: 0 <= i < |st.enrichments| && st.enrichments[i].leadId == id
    ensures r.Some? ==> exists i :: 0 <= i < |st.enrichments| && st.enrichments[i] == EnrichmentRow(id, r.value)
  {
    FirstEnrichment(st.enrichments, id)
  }

  function FirstEnrichment(rows: seq<EnrichmentRow>, id: nat): (r: Option<Enrichment>)
    ensures r.Some? <==> exists i :: 0 <= i < |rows| && rows[i].leadId == id
    ensures r.Some? ==> exists i :: 0 <= i < |rows| && rows[i] == EnrichmentRow(id, r.value)
  {
    if |rows| == 0 then None
    else if rows[0].leadId == id then Some(rows[0].data)
    else
      var r := FirstEnrichment(rows[1..], id);
      assert r.Some? ==> exists i :: 0 <= i < |rows| && rows[i] == EnrichmentRow(id, r.value) by {
        if r.Some? {
          var i :| 0 <= i < |rows[1..]| && rows[1..][i] == EnrichmentRow(id, r.value);
          assert rows[i + 1] == EnrichmentRow(id, r.value);
        }
      }
      assert (exists i :: 0 <= i < |rows| && rows[i].leadId == id) ==> r.Some? by {
        if exists i :: 0 <= i < |rows| && rows[i].leadId == id {
          var i :| 0 <= i < |rows| && rows[i].leadId == id;
          assert rows[1..][i - 1].leadId == id;
        }
      }
      r
  }

  /** The separator between subject and body in a stored email. */
  const Separator: string := "\n\n"

  /** The stored email format: subject, a blank line, body. */
  function EmailContent(subject: string, body: string): string {
    subject + Separator + body
  }

  /** How `get_lead_messages` reads an email row back: split at the first
      blank line; the subject loses every "Subject: " and surrounding
      whitespace; the body is the stripped rest, or the whole content when
      there is no blank line. */
  function ParseEmailContent(content: string): (r: (string, string))
    ensures !Text.Contains(content, Separator) ==> r.1 == content
    ensures Text.Contains(content, Separator) ==> Text.Strip(r.1) == r.1
    ensures Trimmed(r.0)
    ensures !Text.Contains(content, Separator) ==> r.0 == Text.Strip(Text.Replace(content, "Subject: ", ""))
    ensures Text.Contains(content, Separator) ==>
              var head := Text.SplitOnce(content, Separator)[0];
              && content[..|head|] == head && !Text.Contains(head, Separator)
              && r.0 == Text.Strip(Text.Replace(head, "Subject: ", ""))
    ensures Text.Contains(content, Separator) ==>
              var parts := Text.SplitOnce(content, Separator);
              && |parts| == 2 && content == parts[0] + Separator + parts[1]
              && r.1 == Text.Strip(parts[1])
  {
    var parts := Text.SplitOnce(content, Separator);
    var subject := Text.Strip(Text.Replace(parts[0], "Subject: ", ""));
    var body := if |parts| > 1 then Text.Strip(parts[1]) else content;
    Text.StripIdempotent(parts[|parts| - 1]);
    (subject, body)
  }

  /** A text with no surrounding whitespace. */
  predicate Trimmed(s: string) {
    |s| == 0 || (!Text.IsSpace(s[0]) && !Text.IsSpace(s[|s| - 1]))
  }

  /** Reading back a stored email gives the subject and body that were
      written, when the subject has no blank line and no "Subject: " in it
      and neither part has surrounding whitespace. */
  lemma EmailRoundTrip(subject: string, body: string)
    requires !Text.Contains(subject, Separator) && !Text.Contains(subject, "Subject: ")
    requires Trimmed(subject) && Trimmed(body)
    ensures ParseEmailContent(EmailContent(subject, body)) == (subject, body)
  {
    var content := EmailContent(subject, body);
    SeparatorAfterSubject(subject, body);
    assert content[..|subject|] == subject;
    assert content[|subject| + 2..] == body;
    Text.ReplaceAbsent(subject, "Subject: ", "");
    Text.StripStripped(subject);
    Text.StripStripped(body);
  }

  /** In a stored email whose subject has no blank line and does not end in
      whitespace, the first blank line is the one right after the subject. */
  lemma SeparatorAfterSubject(subject: string, body: string)
    requires !Text.Contains(subject, Separator) && Trimmed(subject)
    ensures Text.Find(EmailContent(subject, body), Separator) == |subject|
  {
    var content := EmailContent(subject, body);
    assert Text.OccursAt(content, Separator, |subject|) by {
      assert content[|subject|..|subject| + 2] == Separator;
    }
    forall j | 0 <= j < |subject|
      ensures !Text.OccursAt(content, Separator, j)
    {
      if j + 2 <= |subject| {
        assert content[j..j + 2] == subject[j..j + 2];
        assert !Text.OccursAt(subject, Separator, j);
      } else {
        assert content[j] == subject[|subject| - 1];
        assert !Text.IsSpace(content[j]);
      }
    }
  }

  /** How one message row is presented by `get_lead_messages`. */
  datatype MessageView = EmailView(subject: string, body: string) | DirectView(message: string)

  /** The result key of a message row: channel, "_", lower-cased variation
      (the email branch builds the same key with a literal "email"). */
  function MessageKey(m: MessageRow): (k: string)
    ensures |k| == |m.channel| + 1 + |m.variation|
    ensures k[..|m.channel| + 1] == m.channel + "_"
    ensures forall i :: |m.channel| + 1 <= i < |k| ==> !('A' <= k[i] <= 'Z')
  {
    m.channel + "_" + Text.Lower(m.variation)
  }

  /** The case of a row's variation does not matter: "A" and "a" land
      under the same key. */
  lemma MessageKeyIgnoresCase(m: MessageRow)
    ensures MessageKey(m.(variation := Text.Lower(m.variation))) == MessageKey(m)
  {
    Text.LowerIdempotent(m.variation);
  }

  function ViewOf(m: MessageRow): (v: MessageView)
    ensures m.channel == "email" <==> v.EmailView?
    ensures m.channel != "email" ==> v == DirectView(m.content)
  {
    if m.channel == "email" then
      var p := ParseEmailContent(m.content);
      EmailView(p.0, p.1)
    else DirectView(m.content)
  }

  /** The lead's message rows newest first (reverse insertion order). */
  function NewestFirst(rows: seq<MessageRow>, id: nat): (r: seq<MessageRow>)
    ensures forall m :: m in r <==> m in rows && m.leadId == id
  {
    if |rows| == 0 then []
    else
      var last := rows[|rows| - 1];
      var rest := NewestFirst(rows[..|rows| - 1], id);
      assert forall m :: m in rows <==> m in rows[..|rows| - 1] || m == last;
      if last.leadId == id then [last] + rest else rest
  }

  /** The loop of `get_lead_messages`: each row writes its key, later rows overwrite. */
  function FoldViews(rows: seq<MessageRow>): (m: map<string, MessageView>)
    ensures m.Keys == set r | r in rows :: MessageKey(r)
  {
    if |rows| == 0 then map[]
    else
      var last := rows[|rows| - 1];
      assert forall r :: r in rows <==> r in rows[..|rows| - 1] || r == last;
      FoldViews(rows[..|rows| - 1])[MessageKey(last) := ViewOf(last)]
  }

  /** The row processed last among those sharing a key decides that key's view. */
  lemma {:induction false} FoldViewsLastWins(rows: seq<MessageRow>, j: nat)
    requires j < |rows|
    requires forall k :: j < k < |rows| ==> MessageKey(rows[k]) != MessageKey(rows[j])
    ensures FoldViews(rows)[MessageKey(rows[j])] == ViewOf(rows[j])
    decreases |rows|
  {
    if j < |rows| - 1 {
      FoldViewsLastWins(rows[..|rows| - 1], j);
    }
  }

  /** `get_lead_messages`. */
  function LeadMessages(st: Store, id: nat): (m: map<string, MessageView>)
    ensures forall k :: k in m <==> exists r :: r in st.messages && r.leadId == id && MessageKey(r) == k
  {
    var rows := NewestFirst(st.messages, id);
    var m := FoldViews(rows);
    assert forall k :: k in m <==> exists r :: r in rows && MessageKey(r) == k;
    m
  }

  /** For a key written by several rows, the oldest row (processed last) wins. */
  lemma LeadMessagesOldestWins(st: Store, id: nat, j: nat)
    requires var rows := NewestFirst(st.messages, id);
      j < |rows| && forall k :: j < k < |rows| ==> MessageKey(rows[k]) != MessageKey(rows[j])
    ensures var rows := NewestFirst(st.messages, id);
      LeadMessages(st, id)[MessageKey(rows[j])] == ViewOf(rows[j])
  {
    FoldViewsLastWins(NewestFirst(st.messages, id), j);
  }

  /** The ids of leads with status `s`. */
  function WithStatus(st: Store, s: LeadStatus): set<nat> {
    set id | id in st.leads && st.leads[id].status == s
  }

  function CountStatus(st: Store, s: LeadStatus): nat {
    |WithStatus(st, s)|
  }

  function CountOutreach(st: Store, status: string): nat {
    |set o | o in st.outreach && st.outreach[o].status == status|
  }

  /** A subset is no larger than its superset. */
  lemma {:induction false} SubsetCard<T>(a: set<T>, b: set<T>)
    requires a <= b
    ensures |a| <= |b|
    decreases |b|
  {
    if a != {} {
      var x :| x in a;
      SubsetCard(a - {x}, b - {x});
    }
  }

  /** No outreach row is both SENT and FAILED, so the two counts together
      are at most the number of rows. */
  lemma OutreachCountsBounded(st: Store)
    ensures CountOutreach(st, "SENT") + CountOutreach(st, "FAILED") <= |st.outreach|
  {
    var sent := set o | o in st.outreach && st.outreach[o].status == "SENT";
    var failed := set o | o in st.outreach && st.outreach[o].status == "FAILED";
    assert sent !! failed;
    assert |sent + failed| == |sent| + |failed|;
    SubsetCard(sent + failed, st.outreach.Keys);
  }

  datatype Metrics = Metrics(
    totalLeads: nat, leadsEnriched: nat, messagesGenerated: nat,
    messagesSent: nat, messagesFailed: nat, statusBreakdown: map<LeadStatus, nat>)

  /** `get_metrics`. The GROUP BY breakdown lists only statuses that occur. */
  function GetMetrics(st: Store): (m: Metrics)
    ensures m.totalLeads == |st.leads|
    ensures forall s: LeadStatus :: s in m.statusBreakdown <==> exists id :: id in st.leads && st.leads[id].status == s
    ensures forall s :: s in m.statusBreakdown ==> m.statusBreakdown[s] == CountStatus(st, s)
    ensures m.leadsEnriched == CountStatus(st, ENRICHED) + CountStatus(st, MESSAGED) + CountStatus(st, SENT)
    ensures m.messagesGenerated == |st.messages|
    ensures m.messagesSent == CountOutreach(st, "SENT") && m.messagesFailed == CountOutreach(st, "FAILED")
    ensures m.messagesSent + m.messagesFailed <= |st.outreach|
  {
    OutreachCountsBounded(st);
    var breakdown := StatusBreakdown(st);
    Metrics(|st.leads|, Get(breakdown, ENRICHED) + Get(breakdown, MESSAGED) + Get(breakdown, SENT),
            |st.messages|, CountOutreach(st, "SENT"), CountOutreach(st, "FAILED"), breakdown)
  }

  /** The `GROUP BY status` counts: a key for each status that occurs,
      mapped to its number of leads. */
  function StatusBreakdown(st: Store): (b: map<LeadStatus, nat>)
    ensures forall s: LeadStatus :: s in b <==> exists id :: id in st.leads && st.leads[id].status == s
    ensures forall s :: s in b ==> b[s] == CountStatus(st, s)
    ensures forall s :: Get(b, s) == CountStatus(st, s)
  {
    var breakdown := map s | s in {NEW, ENRICHED, MESSAGED, SENT, FAILED} && CountStatus(st, s) > 0 :: CountStatus(st, s);
    assert forall s: LeadStatus :: s in breakdown <==> exists id :: id in st.leads && st.leads[id].status == s by {
      forall s: LeadStatus
        ensures s in breakdown <==> exists id :: id in st.leads && st.leads[id].status == s
      {
        if exists id :: id in st.leads && st.leads[id].status == s {
          var id :| id in st.leads && st.leads[id].status == s;
          assert id in WithStatus(st, s);
        }
      }
    }
    breakdown
  }

  /** `status_counts.get(s, 0)`. */
  function Get(m: map<LeadStatus, nat>, s: LeadStatus): nat {
    if s in m then m[s] else 0
  }

  /** The ids of leads whose status is one of `ss`. */
  function WithStatuses(st: Store, ss: seq<LeadStatus>): set<nat> {
    set id | id in st.leads && st.leads[id].status in ss
  }

  /** The summed counts of the statuses `ss`. */
  function CountStatuses(st: Store, ss: seq<LeadStatus>): nat {
    if ss == [] then 0 else CountStatus(st, ss[0]) + CountStatuses(st, ss[1..])
  }

  /** The per-status counts partition the leads. */
  lemma StatusCountsPartition(st: Store)
    ensures CountStatus(st, NEW) + CountStatus(st, ENRICHED) + CountStatus(st, MESSAGED)
            + CountStatus(st, SENT) + CountStatus(st, FAILED) == |st.leads|
  {
    var ss := [NEW, ENRICHED, MESSAGED, SENT, FAILED];
    StatusesCount(st, ss);
    assert WithStatuses(st, ss) == st.leads.Keys;
    assert CountStatuses(st, ss[4..]) == CountStatus(st, FAILED);
    assert CountStatuses(st, ss[3..]) == CountStatus(st, SENT) + CountStatuses(st, ss[4..]);
    assert CountStatuses(st, ss[2..]) == CountStatus(st, MESSAGED) + CountStatuses(st, ss[3..]);
    assert CountStatuses(st, ss[1..]) == CountStatus(st, ENRICHED) + CountStatuses(st, ss[2..]);
  }

  /** Over distinct statuses, the summed counts count the leads having one
      of them. */
  lemma {:induction false} StatusesCount(st: Store, ss: seq<LeadStatus>)
    requires forall i, j :: 0 <= i < j < |ss| ==> ss[i] != ss[j]
    ensures |WithStatuses(st, ss)| == CountStatuses(st, ss)
  {
    if ss == [] {
      assert WithStatuses(st, ss) == {};
    } else {
      var rest := ss[1..];
      assert ss[0] !in rest by {
        forall j | 0 <= j < |rest| ensures rest[j] != ss[0] {
          assert rest[j] == ss[j + 1];
        }
      }
      StatusesCount(st, rest);
      StatusesSplit(st, ss);
      var x, y := WithStatus(st, ss[0]), WithStatuses(st, rest);
      assert x * y == {};
    }
  }

  /** The leads having one of `ss` are those having its first status plus
      those having one of the rest. */
  lemma StatusesSplit(st: Store, ss: seq<LeadStatus>)
    requires ss != []
    ensures WithStatuses(st, ss) == WithStatus(st, ss[0]) + WithStatuses(st, ss[1..])
  {
    forall id
      ensures id in WithStatuses(st, ss) <==> id in WithStatus(st, ss[0]) || id in WithStatuses(st, ss[1..])
    {
      if id in st.leads {
        assert ss == [ss[0]] + ss[1..];
      }
    }
  }

  /** `clear_all_data`: every table emptied; the AUTOINCREMENT counters are
      kept, so ids are never reused. */
  function ClearAllData(st: Store): (r: Store)
    ensures r.leads == map[] && r.enrichments == [] && r.messages == [] && r.outreach == map[]
    ensures r.nextLeadId == st.nextLeadId && r.nextOutreachId == st.nextOutreachId
  {
    Tables(map[], [], [], map[], st.nextLeadId, st.nextOutreachId)
  }

  /** A cleared store reports zero everywhere and an empty breakdown. */
  lemma ClearedMetrics(st: Store)
    ensures GetMetrics(ClearAllData(st)) == Metrics(0, 0, 0, 0, 0, map[])
  {
    var r := ClearAllData(st);
    var m := GetMetrics(r);
    assert forall s :: CountStatus(r, s) == 0 by {
      forall s ensures CountStatus(r, s) == 0 {
        assert WithStatus(r, s) == {};
      }
    }
    assert m.statusBreakdown == map[];
  }
}

=== FILE: text.dfy ===
/** The handful of Python `str` operations the system relies on, with the
    same edge-case behaviour: `in`, `split(sep, 1)`, `replace`, `strip()`,
    `split()`, ASCII `lower()`, `join` and `str(n)` for naturals. */
module Text {
  import opened Common

  /** Python's `str.isspace()` character set (used by `strip()` and `split()`). */
  predicate IsSpace(c: char) {
    var n := c as int;
    n == 0x20 || 0x09 <= n <= 0x0D || 0x1C <= n <= 0x1F || n == 0x85 || n == 0xA0
    || n == 0x1680 || 0x2000 <= n <= 0x200A || n == 0x2028 || n == 0x2029
    || n == 0x202F || n == 0x205F || n == 0x3000
  }

  predicate IsAsciiLetter(c: char) { 'a' <= c <= 'z' || 'A' <= c <= 'Z' }
  predicate IsDigit(c: char) { '0' <= c <= '9' }
  predicate IsAsciiAlnum(c: char) { IsAsciiLetter(c) || IsDigit(c) }

  /** `sub` occurs in `s` starting at index `i`. */
  predicate OccursAt(s: string, sub: string, i: int) {
    0 <= i && i + |sub| <= |s| && s[i..i + |sub|] == sub
  }

  /** Python's `sub in s`. */
  predicate Contains(s: string, sub: string) {
    exists i :: 0 <= i <= |s| - |sub| && OccursAt(s, sub, i)
  }

  /** Index of the first occurrence of `sub` in `s`, if any. */
  function Find(s: string, sub: string): (r: int)
    ensures r == -1 || OccursAt(s, sub, r)
    ensures r == -1 <==> !Contains(s, sub)
    ensures r != -1 ==> forall j :: 0 <= j < r ==> !OccursAt(s, sub, j)
  {
    FindFrom(s, sub, 0)
  }

  function FindFrom(s: string, sub: string, from: nat): (r: int)
    requires from <= |s| + 1
    ensures r == -1 || (from <= r && OccursAt(s, sub, r))
    ensures r == -1 <==> forall j :: from <= j <= |s| - |sub| ==> !OccursAt(s, sub, j)
    ensures r != -1 ==> forall j :: from <= j < r ==> !OccursAt(s, sub, j)
    decreases |s| + 1 - from
  {
    if from + |sub| > |s| then -1
    else if s[from..from + |sub|] == sub then from
    else FindFrom(s, sub, from + 1)
  }

  /** Python's `s.split(sep, 1)`: one part when `sep` is absent, otherwise the
      text before the first `sep` and everything after it. */
  function SplitOnce(s: string, sep: string): (parts: seq<string>)
    requires |sep| > 0
    ensures 1 <= |parts| <= 2
    ensures |parts| == 1 <==> !Contains(s, sep)
    ensures |parts| == 1 ==> parts[0] == s
    ensures |parts| == 2 ==> s == parts[0] + sep + parts[1] && !Contains(parts[0], sep)
  {
    var i := Find(s, sep);
    if i == -1 then [s]
    else
      var p := [s[..i], s[i + |sep|..]];
      assert s == p[0] + sep + p[1] by {
        assert s == s[..i] + s[i..i + |sep|] + s[i + |sep|..];
      }
      assert !Contains(p[0], sep) by {
        forall j | 0 <= j <= |p[0]| - |sep|
          ensures !OccursAt(p[0], sep, j)
        {
          assert j < i && !OccursAt(s, sep, j);
          assert p[0][j..j + |sep|] == s[j..j + |sep|];
        }
      }
      p
  }

  /** Python's `s.replace(pat, repl)`: every non-overlapping occurrence of
      `pat`, scanning left to right. */
  function Replace(s: string, pat: string, repl: string): string
    requires |pat| > 0
    decreases |s|
  {
    if |s| < |pat| then s
    else if s[..|pat|] == pat then repl + Replace(s[|pat|..], pat, repl)
    else [s[0]] + Replace(s[1..], pat, repl)
  }

  /** Replacing a text that does not occur changes nothing. */
  lemma {:induction false} ReplaceAbsent(s: string, pat: string, repl: string)
    requires |pat| > 0
    requires !Contains(s, pat)
    ensures Replace(s, pat, repl) == s
    decreases |s|
  {
    if |s| >= |pat| {
      assert !OccursAt(s, pat, 0);
      assert !Contains(s[1..], pat) by {
        forall j | 0 <= j <= |s[1..]| - |pat|
          ensures !OccursAt(s[1..], pat, j)
        {
          assert !OccursAt(s, pat, j + 1);
          assert s[1..][j..j + |pat|] == s[j + 1..j + 1 + |pat|];
        }
      }
      ReplaceAbsent(s[1..], pat, repl);
      assert [s[0]] + s[1..] == s;
    }
  }

  /** The number of whitespace characters at the start of `s`. */
  function LeadingSpaces(s: string): (n: nat)
    ensures n <= |s|
    ensures forall i :: 0 <= i < n ==> IsSpace(s[i])
    ensures n < |s| ==> !IsSpace(s[n])
  {
    if |s| > 0 && IsSpace(s[0]) then 1 + LeadingSpaces(s[1..]) else 0
  }

  /** The number of whitespace characters at the end of `s`. */
  function TrailingSpaces(s: string): (n: nat)
    ensures n <= |s|
    ensures forall i :: |s| - n <= i < |s| ==> IsSpace(s[i])
    ensures n < |s| ==> !IsSpace(s[|s| - n - 1])
  {
    if |s| > 0 && IsSpace(s[|s| - 1]) then 1 + TrailingSpaces(s[..|s| - 1]) else 0
  }

  /** Python's `s.strip()`: `s` is the result framed by whitespace runs. */
  function Strip(s: string): (r: string)
    ensures |r| == 0 || (!IsSpace(r[0]) && !IsSpace(r[|r| - 1]))
    ensures LeadingSpaces(s) + |r| <= |s|
    ensures r == s[LeadingSpaces(s)..LeadingSpaces(s) + |r|]
    ensures forall i :: LeadingSpaces(s) + |r| <= i < |s| ==> IsSpace(s[i])
  {
    var lo := LeadingSpaces(s);
    var t := s[lo..];
    var hi := TrailingSpaces(t);
    if hi == |t| then [] else t[..|t| - hi]
  }

  /** A text with no surrounding whitespace is its own strip. */
  lemma StripStripped(s: string)
    requires |s| == 0 || (!IsSpace(s[0]) && !IsSpace(s[|s| - 1]))
    ensures Strip(s) == s
  {
  }

  /** `strip()` is idempotent. */
  lemma StripIdempotent(s: string)
    ensures Strip(Strip(s)) == Strip(s)
  {
    StripStripped(Strip(s));
  }

  /** The tokens of Python's `s.split()` (no argument): maximal runs of
      non-whitespace characters. */
  function Words(s: string): (ws: seq<string>)
    ensures forall k :: 0 <= k < |ws| ==> |ws[k]| > 0
    ensures forall k, i :: 0 <= k < |ws| && 0 <= i < |ws[k]| ==> !IsSpace(ws[k][i])
    ensures |ws| == 0 <==> forall i :: 0 <= i < |s| ==> IsSpace(s[i])
    decreases |s|
  {
    if |s| == 0 then []
    else if IsSpace(s[0]) then
      assert forall i :: 1 <= i < |s| ==> s[i] == s[1..][i - 1];
      Words(s[1..])
    else
      var n := TokenLength(s);
      [s[..n]] + Words(s[n..])
  }

  /** Length of the run of non-whitespace characters that starts `s`. */
  function TokenLength(s: string): (n: nat)
    ensures n <= |s|
    ensures forall i :: 0 <= i < n ==> !IsSpace(s[i])
    ensures n < |s| ==> IsSpace(s[n])
  {
    if |s| == 0 || IsSpace(s[0]) then 0 else 1 + TokenLength(s[1..])
  }

  /** Position `i` of `s` begins a word: a non-space character at the start
      of the text or right after a space. */
  predicate WordStart(s: string, i: int)
    requires 0 <= i < |s|
  {
    !IsSpace(s[i]) && (i == 0 || IsSpace(s[i - 1]))
  }

  /** The number of word starts in `s[from..]`, counted position by position. */
  function WordStarts(s: string, from: nat): nat
    requires from <= |s|
    decreases |s| - from
  {
    if from == |s| then 0
    else (if !IsSpace(s[from]) && (from == 0 || IsSpace(s[from - 1])) then 1 else 0) + WordStarts(s, from + 1)
  }

  /** `len(s.split())` equals the number of positions where a word starts. */
  lemma {:induction false} WordCountIsWordStarts(s: string)
    ensures |Words(s)| == WordStarts(s, 0)
    decreases |s|
  {
    if |s| == 0 {
    } else if IsSpace(s[0]) {
      WordCountIsWordStarts(s[1..]);
      ShiftAfterSpace(s);
    } else {
      var n := TokenLength(s);
      WordCountIsWordStarts(s[n..]);
      InsideToken(s, 1, n);
      if n < |s| {
        Suffix(s, n, n);
      }
    }
  }

  /** Dropping a leading space does not change the count of word starts. */
  lemma ShiftAfterSpace(s: string)
    requires |s| > 0 && IsSpace(s[0])
    ensures WordStarts(s, 0) == WordStarts(s[1..], 0)
  {
    ShiftAfterSpaceAt(s, 1);
    if |s| > 1 {
      assert WordStarts(s, 0) == WordStarts(s, 1);
    }
  }

  /** From a position right after a space, counting in `s` or in its suffix agrees. */
  lemma ShiftAfterSpaceAt(s: string, n: nat)
    requires 0 < n <= |s| && IsSpace(s[n - 1])
    ensures WordStarts(s, n) == WordStarts(s[n..], 0)
  {
    Suffix(s, n, n);
  }

  /** Counting from `from >= n` in `s` equals counting from `from - n` in
      `s[n..]`, provided position `n` counts the same in both. */
  lemma {:induction false} Suffix(s: string, n: nat, from: nat)
    requires 0 < n <= from <= |s|
    requires from == n < |s| ==> IsSpace(s[n - 1]) || IsSpace(s[n])
    ensures WordStarts(s, from) == WordStarts(s[n..], from - n)
    decreases |s| - from
  {
    if from < |s| {
      Suffix(s, n, from + 1);
    }
  }

  /** No word starts strictly inside the first token. */
  lemma {:induction false} InsideToken(s: string, from: nat, n: nat)
    requires 1 <= from <= n <= |s|
    requires forall i :: 0 <= i < n ==> !IsSpace(s[i])
    ensures WordStarts(s, from) == WordStarts(s, n)
    decreases n - from
  {
    if from < n {
      InsideToken(s, from + 1, n);
    }
  }

  /** Python's ASCII `lower()` on one character (other characters unchanged). */
  function LowerChar(c: char): (r: char)
    ensures IsAsciiLetter(c) ==> 'a' <= r <= 'z'
    ensures !('A' <= c <= 'Z') ==> r == c
  {
    if 'A' <= c <= 'Z' then (c as int + 32) as char else c
  }

  /** `s.lower()` restricted to ASCII: every capital A-Z becomes its small
      letter and every other character is kept. */
  function Lower(s: string): (r: string)
    ensures |r| == |s|
    ensures forall i :: 0 <= i < |s| ==> r[i] == LowerChar(s[i])
    ensures forall i :: 0 <= i < |r| ==> !('A' <= r[i] <= 'Z')
  {
    seq(|s|, i requires 0 <= i < |s| => LowerChar(s[i]))
  }

  /** Lower-casing twice is lower-casing once. */
  lemma LowerIdempotent(s: string)
    ensures Lower(Lower(s)) == Lower(s)
  {
    assert forall i :: 0 <= i < |s| ==> Lower(Lower(s))[i] == Lower(s)[i];
  }

  /** `sep.join(xs)`. */
  function Join(sep: string, xs: seq<string>): string
  {
    if |xs| == 0 then "" else if |xs| == 1 then xs[0] else xs[0] + sep + Join(sep, xs[1..])
  }

  function DigitChar(d: nat): (c: char)
    requires d < 10
    ensures IsDigit(c)
  {
    ('0' as int + d) as char
  }

  /** `str(n)` for a natural number. */
  function NatToString(n: nat): (r: string)
    ensures |r| > 0
    ensures forall i :: 0 <= i < |r| ==> IsDigit(r[i])
    ensures n < 10 ==> |r| == 1
    ensures n >= 10 ==> |r| == |NatToString(n / 10)| + 1
  {
    if n < 10 then [DigitChar(n)] else NatToString(n / 10) + [DigitChar(n % 10)]
  }

  /** Three-digit numbers print as exactly three digits. */
  lemma ThreeDigits(n: nat)
    requires 100 <= n <= 999
    ensures |NatToString(n)| == 3
  {
    assert |NatToString(n / 10)| == |NatToString(n / 10 / 10)| + 1;
  }

  /** The first token of `s.split()`, or `None` where Python's `split()[0]`
      raises IndexError. */
  function FirstWord(s: string): (r: Option<string>)
    ensures r.Some? <==> |Words(s)| > 0
    ensures r.Some? ==> r.value == Words(s)[0]
  {
    var ws := Words(s);
    if |ws| == 0 then None else Some(ws[0])
  }

  /** `w` occurs in `s` at `i` as a maximal run: after a space or at the
      start, and before a space or at the end. */
  predicate RunAt(s: string, i: int, w: string) {
    && 0 <= i && i + |w| <= |s| && w == s[i..i + |w|]
    && (i == 0 || IsSpace(s[i - 1]))
    && (i + |w| == |s| || IsSpace(s[i + |w|]))
  }

  /** The first token is the maximal run of non-space characters that
      starts at the first non-space character of `s`. */
  lemma {:induction false} WordsHead(s: string)
    requires |Words(s)| > 0
    ensures LeadingSpaces(s) < |s|
    ensures RunAt(s, LeadingSpaces(s), Words(s)[0])
    decreases |s|
  {
    var w := Words(s)[0];
    if IsSpace(s[0]) {
      var t := s[1..];
      assert Words(s) == Words(t);
      WordsHead(t);
      assert LeadingSpaces(s) == 1 + LeadingSpaces(t);
      RunInSuffix(s, 1, LeadingSpaces(t), w);
    } else {
      var n := TokenLength(s);
      assert Words(s) == [s[..n]] + Words(s[n..]);
      assert LeadingSpaces(s) == 0;
      assert RunAt(s, 0, w);
    }
  }

  /** `full_name.split()[0]` is the leading word of the text: only spaces
      come before it, it starts with a non-space character, and it runs up
      to the next space or the end. Without such a word it raises. */
  lemma FirstWordIsLeadingRun(s: string)
    ensures FirstWord(s).None? <==> forall j :: 0 <= j < |s| ==> IsSpace(s[j])
    ensures FirstWord(s).Some? ==>
              exists i :: && 0 <= i < |s| && (forall j :: 0 <= j < i ==> IsSpace(s[j]))
                          && !IsSpace(s[i]) && RunAt(s, i, FirstWord(s).value)
  {
    if FirstWord(s).Some? {
      WordsHead(s);
      var i := LeadingSpaces(s);
      assert !IsSpace(s[i]) && RunAt(s, i, FirstWord(s).value);
    }
  }

  /** A run of a suffix `s[n..]` is a run of `s`, unless it starts the
      suffix right after a non-space character. */
  lemma RunInSuffix(s: string, n: nat, i: int, w: string)
    requires n <= |s| && RunAt(s[n..], i, w)
    requires i > 0 || n == 0 || IsSpace(s[n - 1])
    ensures RunAt(s, n + i, w)
  {
    var t := s[n..];
    assert t[i..i + |w|] == s[n + i..n + i + |w|];
    assert i > 0 ==> t[i - 1] == s[n + i - 1];
    assert i + |w| < |t| ==> t[i + |w|] == s[n + i + |w|];
  }

  /** Every token is a maximal run of non-space characters of `s`. */
  lemma {:induction false} WordIsRun(s: string, k: nat)
    requires k < |Words(s)|
    ensures exists i :: RunAt(s, i, Words(s)[k])
    decreases |s|
  {
    var w := Words(s)[k];
    if IsSpace(s[0]) {
      assert Words(s) == Words(s[1..]);
      WordIsRun(s[1..], k);
      var i :| RunAt(s[1..], i, w);
      RunInSuffix(s, 1, i, w);
    } else {
      var n := TokenLength(s);
      assert Words(s) == [s[..n]] + Words(s[n..]);
      if k == 0 {
        assert RunAt(s, 0, w);
      } else {
        var t := s[n..];
        assert w == Words(t)[k - 1];
        WordIsRun(t, k - 1);
        var i :| RunAt(t, i, w);
        assert IsSpace(t[0]) && !IsSpace(w[0]) && w[0] == t[i];
        RunInSuffix(s, n, i, w);
      }
    }
  }
}

=== FILE: tools.dfy ===
/** The MCP server's tools (mcp_server/server.py): `list_tools` advertises
    six tools and `call_tool` runs one of them against the store.

    Unlike the API worker, a tool works on one status listing, newest first,
    cut to its first `limit` entries when a limit is given, and a tool that
    finds no lead to work on says so and changes nothing. A reply is reduced
    to the values its text shows. An exception that escapes a handler is an
    `Err` carrying its message; the store keeps whatever was written before
    it, since every database call commits on its own. */
module Tools {
  import opened Common
  import opened LeadStore
  import LeadGen
  import Enrich
  import Messaging
  import Outreach
  import Text
  import Pipeline

  /** The tools `list_tools` advertises, in its order. */
  const ToolNames: seq<string> :=
    ["generate_leads", "enrich_leads", "generate_messages", "send_outreach", "get_status", "get_metrics"]

  /** The `arguments` dict: one optional entry per key some tool reads. */
  datatype Arguments = Arguments(
    count: Option<int>, seed: Option<int>, mode: Option<string>,
    limit: Option<int>, channel: Option<string>, dryRun: Option<bool>)

  /** `arguments.get(key, default)`. */
  function OrDefault<T>(o: Option<T>, default: T): T {
    match o
    case Some(x) => x
    case None => default
  }

  /** What the tools read besides the store and the arguments: Faker's and
      `random`'s draws for each seed, the model's replies, GROQ_API_KEY, the
      SMTP and coin-flip trials, the clock and the outreach settings. */
  datatype Env = Env(
    groqKey: Option<string>,
    draws: int -> nat -> LeadGen.Draws,
    enrichReplies: nat -> Option<EnrichmentDict>,
    messageReplies: nat -> Messaging.Replies,
    trials: nat -> Outreach.Trial,
    now: real, rateLimit: int, maxRetries: int)

  /** `get_metrics`' percentages. */
  datatype Shares = Shares(enriched: real, sent: real, failureRate: real)

  /** What a reply shows. */
  datatype Report =
    | Generated(count: nat, summary: LeadGen.Summary, rate: real, firstId: nat, lastId: nat)
    | NothingToDo(status: LeadStatus)
    | Enriched(count: nat, mode: string)
    | Drafted(count: nat)
    | Dispatched(channel: string, dryRun: bool, sent: nat, failed: nat)
    | Status(metrics: Metrics)
    | Detailed(metrics: Metrics, shares: Shares)
    | UnknownTool(name: string)

  // ---------------------------------------------------------------------------
  // Picking the leads to work on.

  /** A prefix of a listing is a listing. */
  lemma PrefixListed(st: Store, ids: seq<nat>, m: nat)
    requires Pipeline.Listed(st, ids) && m <= |ids|
    ensures Pipeline.Listed(st, ids[..m])
  {
    forall k | 0 <= k < m ensures ids[..m][k] in st.leads && ids[..m][k] !in ids[..m][..k] {
      assert ids[..m][..k] == ids[..k];
    }
  }

  /** The leads a tool works on: the leads with status `s`, newest first,
      cut by `leads[:limit]` when `limit` is truthy, so a negative limit
      drops that many of the oldest. */
  function Picked(st: Store, s: LeadStatus, limit: Option<int>): (ids: seq<nat>)
    ensures Pipeline.Listed(st, ids)
    ensures |ids| <= |LeadsByStatus(st, Some(s))| && ids == LeadsByStatus(st, Some(s))[..|ids|]
    ensures !Truthy(limit) ==> ids == LeadsByStatus(st, Some(s))
    ensures Truthy(limit) && limit.value > 0 ==> |ids| == Min(limit.value, |LeadsByStatus(st, Some(s))|)
    ensures Truthy(limit) && limit.value < 0 ==> |ids| == Max(0, |LeadsByStatus(st, Some(s))| + limit.value)
  {
    var all := LeadsByStatus(st, Some(s));
    Pipeline.ListingListed(st, Some(s));
    if Truthy(limit) then
      var ids := Take(all, limit.value);
      PrefixListed(st, all, |ids|);
      ids
    else all
  }

  /** A lead of a newest-first listing left out of a prefix of it is older
      than every lead in the prefix. */
  lemma {:induction false} PrefixNewer(all: seq<nat>, ids: seq<nat>)
    requires forall j, k :: 0 <= j < k < |all| ==> all[j] > all[k]
    requires |ids| <= |all| && ids == all[..|ids|]
    ensures forall id, k :: id in all && id !in ids && 0 <= k < |ids| ==> id < ids[k]
  {
    forall id, k | id in all && id !in ids && 0 <= k < |ids| ensures id < ids[k] {
      var m :| 0 <= m < |all| && all[m] == id;
      assert m >= |ids|;
      assert ids[k] == all[k];
    }
  }

  /** The picked leads all have the status asked for, and a lead with that
      status that was not picked is older than every picked one. */
  lemma PickedNewest(st: Store, s: LeadStatus, limit: Option<int>)
    ensures var ids := Picked(st, s, limit);
            && (forall k :: 0 <= k < |ids| ==> ids[k] in st.leads && st.leads[ids[k]].status == s)
            && forall id, k :: id in st.leads && st.leads[id].status == s && id !in ids && 0 <= k < |ids| ==> id < ids[k]
  {
    var all := LeadsByStatus(st, Some(s));
    var ids := Picked(st, s, limit);
    forall k | 0 <= k < |ids| ensures ids[k] in st.leads && st.leads[ids[k]].status == s {
      assert ids[k] == all[k] && all[k] in all;
    }
    PrefixNewer(all, ids);
  }

  /** The leads listed in `ids` now have status `to`; every other lead is as
      it was; no lead appears or disappears. */
  ghost predicate MovedOnly(before: map<nat, Lead>, after: map<nat, Lead>, ids: seq<nat>, to: LeadStatus) {
    && after.Keys == before.Keys
    && forall id :: id in before ==> after[id] == (if id in ids then before[id].(status := to) else before[id])
  }

  /** Marking every lead of `ids` with `to` is moving exactly those leads. */
  lemma UniformMoved(m: map<nat, Lead>, marks: map<nat, LeadStatus>, ids: seq<nat>, to: LeadStatus)
    requires Pipeline.UniformMarks(marks, ids, |ids|, to)
    ensures MovedOnly(m, Pipeline.Mark(m, marks), ids, to)
  {
    assert ids[..|ids|] == ids;
  }

  // ---------------------------------------------------------------------------
  // generate_leads

  /** `r` holds the leads of `st` unchanged and new NEW leads with exactly
      the ids `first` to `last`. */
  ghost predicate Appended(st: Store, r: Store, first: nat, last: int) {
    && (forall id :: id in r.leads <==> id in st.leads || first <= id <= last)
    && (forall id :: first <= id <= last ==> id in r.leads && r.leads[id].status == NEW)
    && (forall id :: id in st.leads ==> id in r.leads && r.leads[id] == st.leads[id])
  }

  /** The insert loop appends its leads under the next ids, all NEW. */
  lemma InsertedNew(st: Store, leads: seq<LeadGen.GenLead>)
    ensures Appended(st, Pipeline.InsertAll(st, leads), st.nextLeadId, st.nextLeadId + |leads| - 1)
  {
    var r := Pipeline.InsertAll(st, leads);
    forall id | st.nextLeadId <= id <= st.nextLeadId + |leads| - 1 ensures id in r.leads && r.leads[id].status == NEW {
      var k := id - st.nextLeadId;
      var l := NewLead(Pipeline.IntakeOf(leads[k]));
      assert r.leads[st.nextLeadId + k] == l;
      assert l.status == NEW;
    }
    assert forall id :: id in r.leads <==> id in st.leads || st.nextLeadId <= id <= st.nextLeadId + |leads| - 1;
    assert forall id :: id in st.leads ==> id in r.leads && r.leads[id] == st.leads[id];
  }

  /** Every one of the first `n` draws yields a lead. */
  predicate AllDrawn(g: LeadGen.Generator, draws: nat -> LeadGen.Draws, n: int) {
    forall i :: 0 <= i < n ==> LeadGen.GenerateLead(g, draws(i)).Ok?
  }

  /** Every lead `generate_leads` returns passed the three validators, so
      the summary counts all of them as valid. */
  lemma GeneratedCountValid(g: LeadGen.Generator, draws: nat -> LeadGen.Draws, leads: seq<LeadGen.GenLead>)
    requires forall i :: 0 <= i < |leads| ==> LeadGen.GenerateLead(g, draws(i)) == Ok(leads[i])
    ensures var s := LeadGen.ValidationSummary(leads);
            s.validEmails == |leads| && s.validWebsites == |leads| && s.validLinkedin == |leads|
  {
    forall i | 0 <= i < |leads|
      ensures LeadGen.ValidEmail(leads[i].email) && LeadGen.ValidUrl(leads[i].companyWebsite)
      ensures LeadGen.ValidUrl(leads[i].linkedinUrl)
    {
      assert LeadGen.GenerateLead(g, draws(i)).Ok?;
    }
  }

  /** Lines 130-161: generate `count` leads (200 by default) from the
      seed's draws (42 by default) and insert them after the existing ones.
      The validation summary divides by the number of leads, so a count of
      0 or less raises ZeroDivisionError, with nothing inserted. */
  method GenerateLeadsTool(st: Store, args: Arguments, env: Env) returns (r: Store, reply: Result<Report>)
    ensures var seed := OrDefault(args.seed, 42);
            reply.Ok? <==> OrDefault(args.count, 200) > 0
                           && AllDrawn(LeadGen.NewGenerator(seed), env.draws(seed), OrDefault(args.count, 200))
    ensures OrDefault(args.count, 200) <= 0 ==> reply == Err(LeadGen.ZeroDivisionMessage)
    ensures reply.Err? ==> r == st
    // for a positive count the first failing draw's exception propagates
    ensures var seed := OrDefault(args.seed, 42);
            var g := LeadGen.NewGenerator(seed);
            reply.Err? && OrDefault(args.count, 200) > 0 ==>
              exists i :: && 0 <= i < OrDefault(args.count, 200)
                          && LeadGen.GenerateLead(g, env.draws(seed)(i)) == Err(reply.error)
                          && forall j :: 0 <= j < i ==> LeadGen.GenerateLead(g, env.draws(seed)(j)).Ok?
    ensures reply.Ok? ==> && reply.value.Generated?
                          && reply.value.count == OrDefault(args.count, 200)
                          && reply.value.firstId == st.nextLeadId
                          && reply.value.lastId == st.nextLeadId + reply.value.count - 1
    ensures reply.Ok? ==> Appended(st, r, reply.value.firstId, reply.value.lastId)
    // every generated lead passed the validators, so the reported rate is 100%
    ensures reply.Ok? ==> reply.value.summary.validEmails == reply.value.count && reply.value.rate == 100.0
    ensures reply.Ok? ==> reply.value.summary.validWebsites == reply.value.count
                          && reply.value.summary.validLinkedin == reply.value.count
    ensures r.enrichments == st.enrichments && r.messages == st.messages && r.outreach == st.outreach
  {
    var n := OrDefault(args.count, 200);
    var seed := OrDefault(args.seed, 42);
    var g := LeadGen.NewGenerator(seed);
    var draws := env.draws(seed);
    var generated := LeadGen.GenerateLeads(g, n, draws);
    if generated.Err? {
      return st, Err(generated.error);
    }
    var leads := generated.value;
    if n <= 0 {
      // nothing was inserted; the summary's rate divides by zero
      assert leads == [];
      var rate := LeadGen.ValidationRate(0, 0);
      return st, Err(rate.error);
    }
    r, reply := ReportGenerated(st, g, draws, leads);
  }

  /** The success path of `generate_leads`: insert the generated leads and
      report the summary of a batch that passed every validator. */
  method ReportGenerated(st: Store, g: LeadGen.Generator, draws: nat -> LeadGen.Draws, leads: seq<LeadGen.GenLead>)
    returns (r: Store, reply: Result<Report>)
    requires |leads| > 0
    requires forall i :: 0 <= i < |leads| ==> LeadGen.GenerateLead(g, draws(i)) == Ok(leads[i])
    ensures reply.Ok? && reply.value.Generated?
    ensures reply.value.count == |leads| && reply.value.firstId == st.nextLeadId
    ensures reply.value.lastId == st.nextLeadId + |leads| - 1
    ensures Appended(st, r, reply.value.firstId, reply.value.lastId)
    ensures reply.value.summary.validEmails == |leads| && reply.value.rate == 100.0
    ensures reply.value.summary.validWebsites == |leads| && reply.value.summary.validLinkedin == |leads|
    ensures r.enrichments == st.enrichments && r.messages == st.messages && r.outreach == st.outreach
  {
    GeneratedCountValid(g, draws, leads);
    InsertedNew(st, leads);
    r := Pipeline.InsertAll(st, leads);
    var summary := LeadGen.ValidationSummary(leads);
    var rate := LeadGen.ValidationRate(summary.validEmails, summary.totalLeads);
    reply := Ok(Generated(|leads|, summary, rate.value, st.nextLeadId, st.nextLeadId + |leads| - 1));
  }

  // ---------------------------------------------------------------------------
  // enrich_leads

  /** The leads of `ids` are now ENRICHED, nothing else moved, and one
      enrichment row per lead, in order, follows the rows there were: the
      k-th stored from the dict `enrich` made for the k-th lead. */
  ghost predicate EnrichedAll(st: Store, r: Store, ids: seq<nat>, enrich: (Lead, nat) -> EnrichmentDict) {
    && MovedOnly(st.leads, r.leads, ids, ENRICHED)
    && |r.enrichments| == |st.enrichments| + |ids| && r.enrichments[..|st.enrichments|] == st.enrichments
    && forall k :: 0 <= k < |ids| ==>
         && ids[k] in st.leads && MissingKey(enrich(st.leads[ids[k]], k)).None?
         && r.enrichments[|st.enrichments| + k] == EnrichmentRow(ids[k], StoredAs(enrich(st.leads[ids[k]], k)))
  }

  /** The enrich loop stopped after `i` leads of `ids` enriched exactly
      the first `i`. */
  lemma LoopEnrichedAll(st: Store, r: Store, ids: seq<nat>, enrich: (Lead, nat) -> EnrichmentDict,
                        marks: map<nat, LeadStatus>, i: nat)
    requires Pipeline.Listed(st, ids)
    requires Pipeline.EnrichedUpTo(st, r, ids, enrich, marks, i)
    ensures EnrichedAll(st, r, ids[..i], enrich)
  {
    var prefix := ids[..i];
    assert prefix[..|prefix|] == ids[..i];
    UniformMoved(st.leads, marks, prefix, ENRICHED);
    forall k | 0 <= k < |prefix|
      ensures && prefix[k] in st.leads && MissingKey(enrich(st.leads[prefix[k]], k)).None?
              && r.enrichments[|st.enrichments| + k] == EnrichmentRow(prefix[k], StoredAs(enrich(st.leads[prefix[k]], k)))
    {
      assert prefix[k] == ids[k];
      assert MissingKey(Pipeline.DictFor(st, ids, enrich, k)).None?;
    }
  }

  /** Lines 163-196: enrich the picked NEW leads with an enricher in the
      requested mode ("offline" by default). The enricher is built only
      when there is a lead, so "ai" mode without a key raises only then; in
      "ai" mode a parsed reply lacking a key raises KeyError part way, the
      leads before it staying enriched. */
  method EnrichLeadsTool(st: Store, args: Arguments, env: Env) returns (r: Store, reply: Result<Report>)
    ensures var ids := Picked(st, NEW, args.limit);
            ids == [] ==> r == st && reply == Ok(NothingToDo(NEW))
    ensures var ids := Picked(st, NEW, args.limit);
            ids != [] && OrDefault(args.mode, "offline") == "ai" && (env.groqKey.None? || env.groqKey.value == "") ==>
              r == st && reply == Err(KeyMissing)
    ensures OrDefault(args.mode, "offline") != "ai" ==> reply.Ok?
    ensures var ids := Picked(st, NEW, args.limit);
            var enrich := Pipeline.EnrichWith(Enrich.Enricher(OrDefault(args.mode, "offline")), env.enrichReplies);
            reply.Err? && env.groqKey.Some? && env.groqKey.value != "" ==>
              exists k :: && 0 <= k < |ids| && ids[k] in st.leads && MissingKey(enrich(st.leads[ids[k]], k)).Some?
                          && reply.error == KeyErrorMessage(MissingKey(enrich(st.leads[ids[k]], k)).value)
                          && EnrichedAll(st, r, ids[..k], enrich)
    ensures reply.Ok? && Picked(st, NEW, args.limit) != [] ==>
              && reply.value == Enriched(|Picked(st, NEW, args.limit)|, OrDefault(args.mode, "offline"))
              && EnrichedAll(st, r, Picked(st, NEW, args.limit),
                             Pipeline.EnrichWith(Enrich.Enricher(OrDefault(args.mode, "offline")), env.enrichReplies))
    ensures r.messages == st.messages && r.outreach == st.outreach
  {
    var mode := OrDefault(args.mode, "offline");
    var ids := Picked(st, NEW, args.limit);
    if ids == [] {
      return st, Ok(NothingToDo(NEW));
    }
    var enricher := Enrich.NewEnricher(mode, env.groqKey);
    if enricher.Err? {
      return st, Err(enricher.error);
    }
    var enrich := Pipeline.EnrichWith(enricher.value, env.enrichReplies);
    var trace, count, failure;
    ghost var marks;
    r, trace, count, failure, marks := Pipeline.EnrichLoop(st, ids, enrich);
    if failure.Some? {
      assert mode == "ai" by {
        assert enrich(st.leads[ids[count]], count) == Enrich.EnrichLead(enricher.value, st.leads[ids[count]], env.enrichReplies(count));
      }
      LoopEnrichedAll(st, r, ids, enrich, marks, count);
      return r, Err(failure.value);
    }
    LoopEnrichedAll(st, r, ids, enrich, marks, |ids|);
    assert ids[..|ids|] == ids;
    reply := Ok(Enriched(|ids|, mode));
  }

  // ---------------------------------------------------------------------------
  // generate_messages

  /** Lines 220-226: the rows stored for one lead: both email variations as
      subject, blank line, body, then both LinkedIn variations. */
  function DraftRows(id: nat, m: Messaging.AllMessages): seq<MessageRow> {
    [ MessageRow(id, "email", "A", EmailContent(m.emailA.subject, m.emailA.body)),
      MessageRow(id, "email", "B", EmailContent(m.emailB.subject, m.emailB.body)),
      MessageRow(id, "linkedin", "A", m.linkedinA.message),
      MessageRow(id, "linkedin", "B", m.linkedinB.message) ]
  }

  /** Lines 220-228: the four inserts, then status MESSAGED: the lead's four
      rows follow the rows there were, and no other table changes. */
  function StoreDrafts(r: Store, id: nat, m: Messaging.AllMessages): (r2: Store)
    ensures r2.messages == r.messages + DraftRows(id, m)
    ensures r2.leads == (if id in r.leads then r.leads[id := r.leads[id].(status := MESSAGED)] else r.leads)
    ensures r2.enrichments == r.enrichments && r2.outreach == r.outreach && r2.nextLeadId == r.nextLeadId
  {
    var withEmailA := InsertMessage(r, id, "email", "A", EmailContent(m.emailA.subject, m.emailA.body));
    var withEmailB := InsertMessage(withEmailA, id, "email", "B", EmailContent(m.emailB.subject, m.emailB.body));
    var withDmA := InsertMessage(withEmailB, id, "linkedin", "A", m.linkedinA.message);
    var withDmB := InsertMessage(withDmA, id, "linkedin", "B", m.linkedinB.message);
    var rows := DraftRows(id, m);
    assert r.messages + rows == r.messages + [rows[0]] + [rows[1]] + [rows[2]] + [rows[3]];
    UpdateLeadStatus(withDmB, id, MESSAGED)
  }

  /** The drafts for a lead: `generate_all_messages` on the lead, its joined
      enrichment and the model's replies for its position. */
  function DraftWith(replies: nat -> Messaging.Replies): (Lead, Option<Enrichment>, nat) -> Result<Messaging.AllMessages> {
    (l: Lead, j: Option<Enrichment>, i: nat) => Messaging.GenerateAll(l, j, replies(i))
  }

  /** The rows written for the first `i` leads of `ids`, in order. */
  function Written(st: Store, ids: seq<nat>, draft: (Lead, Option<Enrichment>, nat) -> Result<Messaging.AllMessages>, i: nat)
    : (rows: seq<MessageRow>)
    requires Pipeline.Listed(st, ids) && i <= |ids|
    requires forall k :: 0 <= k < i ==> Pipeline.DraftsFor(st, ids, draft, k).Ok?
    ensures |rows| == 4 * i
  {
    if i == 0 then []
    else Written(st, ids, draft, i - 1) + DraftRows(ids[i - 1], Pipeline.DraftsFor(st, ids, draft, i - 1).value)
  }

  lemma WrittenStep(st: Store, ids: seq<nat>, draft: (Lead, Option<Enrichment>, nat) -> Result<Messaging.AllMessages>, i: nat)
    requires Pipeline.Listed(st, ids) && i < |ids|
    requires forall k :: 0 <= k <= i ==> Pipeline.DraftsFor(st, ids, draft, k).Ok?
    ensures Written(st, ids, draft, i + 1) == Written(st, ids, draft, i) + DraftRows(ids[i], Pipeline.DraftsFor(st, ids, draft, i).value)
  {
  }

  /** The store after the first `i` leads of `ids` got their drafts. */
  predicate DraftedUpTo(st: Store, r: Store, ids: seq<nat>,
                        draft: (Lead, Option<Enrichment>, nat) -> Result<Messaging.AllMessages>,
                        marks: map<nat, LeadStatus>, i: nat)
    requires Pipeline.Listed(st, ids)
  {
    && i <= |ids| && r.leads == Pipeline.Mark(st.leads, marks) && Pipeline.UniformMarks(marks, ids, i, MESSAGED)
    && (forall k :: 0 <= k < i ==> Pipeline.DraftsFor(st, ids, draft, k).Ok?)
    && r.messages == st.messages + Written(st, ids, draft, i)
    && r.enrichments == st.enrichments && r.outreach == st.outreach && r.nextLeadId == st.nextLeadId
  }

  lemma DraftStep(st: Store, r: Store, ids: seq<nat>,
                  draft: (Lead, Option<Enrichment>, nat) -> Result<Messaging.AllMessages>,
                  marks: map<nat, LeadStatus>, i: nat)
    requires Pipeline.Listed(st, ids) && i < |ids| && DraftedUpTo(st, r, ids, draft, marks, i)
    requires Pipeline.DraftsFor(st, ids, draft, i).Ok?
    ensures DraftedUpTo(st, StoreDrafts(r, ids[i], Pipeline.DraftsFor(st, ids, draft, i).value), ids, draft,
                        marks[ids[i] := MESSAGED], i + 1)
  {
    var m := Pipeline.DraftsFor(st, ids, draft, i).value;
    Pipeline.UniformStep(marks, ids, i, MESSAGED);
    Pipeline.MarkStep(st.leads, marks, ids[i], MESSAGED);
    WrittenStep(st, ids, draft, i);
  }

  /** The leads drafted so far are exactly the ones moved to MESSAGED. */
  lemma DraftedPrefix(st: Store, r: Store, ids: seq<nat>,
                      draft: (Lead, Option<Enrichment>, nat) -> Result<Messaging.AllMessages>,
                      marks: map<nat, LeadStatus>, k: nat)
    requires Pipeline.Listed(st, ids) && DraftedUpTo(st, r, ids, draft, marks, k)
    ensures MovedOnly(st.leads, r.leads, ids[..k], MESSAGED)
  {
    assert ids[..k][..k] == ids[..k];
    UniformMoved(st.leads, marks, ids[..k], MESSAGED);
  }

  /** The loop of lines 216-229 over `ids`: it stops at the first lead whose
      drafts raise, after storing the drafts of the leads before it. */
  method DraftLoop(st: Store, ids: seq<nat>, draft: (Lead, Option<Enrichment>, nat) -> Result<Messaging.AllMessages>)
    returns (r: Store, count: nat, failure: Option<string>, ghost marks: map<nat, LeadStatus>)
    requires Pipeline.Listed(st, ids)
    ensures count <= |ids| && (failure.None? <==> count == |ids|)
    ensures DraftedUpTo(st, r, ids, draft, marks, count)
    ensures failure.Some? ==> Pipeline.DraftsFor(st, ids, draft, count) == Err(failure.value)
  {
    var n := |ids|;
    r, count, failure := st, 0, None;
    marks := map[];
    Pipeline.MarkNothing(st.leads);
    while count < n && failure.None?
      invariant 0 <= count <= n
      invariant failure.Some? ==> count < n && Pipeline.DraftsFor(st, ids, draft, count) == Err(failure.value)
      invariant DraftedUpTo(st, r, ids, draft, marks, count)
      decreases n - count, if failure.None? then 1 else 0
    {
      var id := ids[count];
      assert EnrichmentOf(r, id) == EnrichmentOf(st, id);
      var drafts := draft(st.leads[id], EnrichmentOf(r, id), count);
      if drafts.Err? {
        failure := Some(drafts.error);
      } else {
        DraftStep(st, r, ids, draft, marks, count);
        r := StoreDrafts(r, id, drafts.value);
        marks := marks[id := MESSAGED];
        count := count + 1;
      }
    }
  }

  /** Lines 198-241: store the four drafts of each picked ENRICHED lead and
      mark it MESSAGED. The personalizer is built only when there is a
      lead; the first lead whose drafts raise aborts the tool. */
  method GenerateMessagesTool(st: Store, args: Arguments, env: Env) returns (r: Store, reply: Result<Report>)
    ensures var ids := Picked(st, ENRICHED, args.limit);
            ids == [] ==> r == st && reply == Ok(NothingToDo(ENRICHED))
    ensures var ids := Picked(st, ENRICHED, args.limit);
            ids != [] && (env.groqKey.None? || env.groqKey.value == "") ==> r == st && reply == Err(KeyMissing)
    // a raise at lead k leaves the leads before it stored and MESSAGED
    ensures var ids := Picked(st, ENRICHED, args.limit);
            reply.Err? && env.groqKey.Some? && env.groqKey.value != "" ==>
              exists k :: && 0 <= k < |ids|
                          && Pipeline.DraftsFor(st, ids, DraftWith(env.messageReplies), k) == Err(reply.error)
                          && (forall j :: 0 <= j < k ==> Pipeline.DraftsFor(st, ids, DraftWith(env.messageReplies), j).Ok?)
                          && r.messages == st.messages + Written(st, ids, DraftWith(env.messageReplies), k)
                          && MovedOnly(st.leads, r.leads, ids[..k], MESSAGED)
    ensures reply.Ok? && Picked(st, ENRICHED, args.limit) != [] ==>
              var ids := Picked(st, ENRICHED, args.limit);
              && reply.value == Drafted(|ids|)
              && MovedOnly(st.leads, r.leads, ids, MESSAGED)
              && (forall k :: 0 <= k < |ids| ==> Pipeline.DraftsFor(st, ids, DraftWith(env.messageReplies), k).Ok?)
              && r.messages == st.messages + Written(st, ids, DraftWith(env.messageReplies), |ids|)
              && |r.messages| == |st.messages| + 4 * |ids|
    ensures r.enrichments == st.enrichments && r.outreach == st.outreach
  {
    var ids := Picked(st, ENRICHED, args.limit);
    if ids == [] {
      return st, Ok(NothingToDo(ENRICHED));
    }
    var personalizer := Messaging.NewPersonalizer(env.groqKey);
    if personalizer.Err? {
      return st, Err(personalizer.error);
    }
    var count, failure;
    ghost var marks;
    r, count, failure, marks := DraftLoop(st, ids, DraftWith(env.messageReplies));
    if failure.Some? {
      DraftedPrefix(st, r, ids, DraftWith(env.messageReplies), marks, count);
      return r, Err(failure.value);
    }
    UniformMoved(st.leads, marks, ids, MESSAGED);
    reply := Ok(Drafted(|ids|));
  }

  // ---------------------------------------------------------------------------
  // send_outreach

  /** One dispatch of a lead on the requested channel. */
  function SendWith(trials: nat -> Outreach.Trial, channel: string): Outreach.Dispatcher -> Outreach.Outcome {
    dd => Outreach.SendOutreach(dd, trials, channel)
  }

  /** How many of the leads of `ids` have status `s`. */
  function CountAt(leads: map<nat, Lead>, ids: seq<nat>, s: LeadStatus): (c: nat)
    ensures c <= |ids|
    ensures c == |ids| <==> forall k :: 0 <= k < |ids| ==> ids[k] in leads && leads[ids[k]].status == s
    ensures c == 0 <==> forall k :: 0 <= k < |ids| ==> !(ids[k] in leads && leads[ids[k]].status == s)
  {
    if |ids| == 0 then 0
    else CountAt(leads, ids[..|ids| - 1], s) + (if ids[|ids| - 1] in leads && leads[ids[|ids| - 1]].status == s then 1 else 0)
  }

  /** When every lead of `ids` is SENT or FAILED, the two counts add up to
      the number of leads. */
  lemma {:induction false} SentFailedPartition(leads: map<nat, Lead>, ids: seq<nat>)
    requires forall k :: 0 <= k < |ids| ==> ids[k] in leads && leads[ids[k]].status in {SENT, FAILED}
    ensures CountAt(leads, ids, SENT) + CountAt(leads, ids, FAILED) == |ids|
  {
    if |ids| > 0 {
      var init := ids[..|ids| - 1];
      assert forall k :: 0 <= k < |init| ==> init[k] == ids[k];
      SentFailedPartition(leads, init);
    }
  }

  /** The send loop raised IndexError at lead `|outs|` of `ids`: its full
      name has no word, the leads before it had one and carry their
      dispatch's verdict, and every other lead is as it was. */
  ghost predicate HaltedAt(st: Store, r: Store, ids: seq<nat>, outs: seq<Outreach.Outcome>)
    requires Pipeline.Listed(st, ids)
  {
    && |outs| < |ids|
    && Text.FirstWord(st.leads[ids[|outs|]].fullName).None?
    && (forall k :: 0 <= k < |outs| ==> Text.FirstWord(st.leads[ids[k]].fullName).Some?)
    && (forall k :: 0 <= k < |outs| ==> ids[k] in r.leads && r.leads[ids[k]].status == Pipeline.Verdict(outs[k]))
    && (forall id :: id in st.leads && id !in ids[..|outs|] ==> id in r.leads && r.leads[id] == st.leads[id])
  }

  /** A lead outside the first `i` of `ids` keeps its row. */
  lemma MarkedKept(st: Store, r: Store, ids: seq<nat>, marks: map<nat, LeadStatus>, i: nat)
    requires i <= |ids| && Pipeline.MarkedUpTo(st, r, ids, marks, i)
    ensures forall id :: id in st.leads && id !in ids[..i] ==> id in r.leads && r.leads[id] == st.leads[id]
  {
    forall id | id in st.leads && id !in ids[..i] ensures id in r.leads && r.leads[id] == st.leads[id] {
      assert id !in Pipeline.Elems(ids[..i]);
    }
  }

  /** Lines 243-303: dispatch every picked MESSAGED lead on the channel
      ("both" by default) from one dispatcher (dry run by default), greeting
      it by the first word of its full name, and mark it SENT when every
      channel result is a success, FAILED otherwise. A full name without a
      word raises IndexError and aborts the tool. No outreach row is
      recorded. */
  method SendOutreachTool(st: Store, args: Arguments, env: Env)
    returns (r: Store, outs: seq<Outreach.Outcome>, reply: Result<Report>)
    ensures var ids := Picked(st, MESSAGED, args.limit);
            ids == [] ==> r == st && reply == Ok(NothingToDo(MESSAGED))
    ensures var ids := Picked(st, MESSAGED, args.limit);
            reply.Err? <==> exists k :: 0 <= k < |ids| && Text.FirstWord(st.leads[ids[k]].fullName).None?
    ensures reply.Err? ==> reply.error == IndexErrorMessage
    ensures reply.Err? ==> HaltedAt(st, r, Picked(st, MESSAGED, args.limit), outs)
    ensures var d := Outreach.NewDispatcher(OrDefault(args.dryRun, true), env.rateLimit, env.maxRetries, env.now);
            Pipeline.Chained(d, SendWith(env.trials, OrDefault(args.channel, "both")), outs)
    ensures reply.Ok? && Picked(st, MESSAGED, args.limit) != [] ==>
              var ids := Picked(st, MESSAGED, args.limit);
              && reply.value.Dispatched?
              && |outs| == |ids|
              && reply.value.channel == OrDefault(args.channel, "both")
              && reply.value.dryRun == OrDefault(args.dryRun, true)
              && (forall k :: 0 <= k < |ids| ==> ids[k] in r.leads && r.leads[ids[k]].status == Pipeline.Verdict(outs[k]))
              && (forall id :: id in st.leads && id !in ids ==> id in r.leads && r.leads[id] == st.leads[id])
              && reply.value.sent == CountAt(r.leads, ids, SENT)
              && reply.value.failed == CountAt(r.leads, ids, FAILED)
              && reply.value.sent + reply.value.failed == |ids|
    ensures r.leads.Keys == st.leads.Keys
    // nothing is written to the outreach table, so the sent and failed
    // counts `get_status` shows do not move
    ensures r.enrichments == st.enrichments && r.messages == st.messages && r.outreach == st.outreach
  {
    var channel := OrDefault(args.channel, "both");
    var dryRun := OrDefault(args.dryRun, true);
    var ids := Picked(st, MESSAGED, args.limit);
    var d := Outreach.NewDispatcher(dryRun, env.rateLimit, env.maxRetries, env.now);
    if ids == [] {
      return st, [], Ok(NothingToDo(MESSAGED));
    }
    var trace, failure;
    ghost var marks;
    r, trace, outs, failure, marks := Pipeline.SendLoop(st, ids, d, SendWith(env.trials, channel));
    if failure.Some? {
      LoopHalted(st, r, ids, outs, marks);
      return r, outs, Err(failure.value);
    }
    DispatchedEvery(st, r, ids, outs, marks);
    reply := Ok(Dispatched(channel, dryRun, CountAt(r.leads, ids, SENT), CountAt(r.leads, ids, FAILED)));
  }

  /** A send loop stopped before the end of `ids` halted at lead `|outs|`. */
  lemma LoopHalted(st: Store, r: Store, ids: seq<nat>, outs: seq<Outreach.Outcome>, marks: map<nat, LeadStatus>)
    requires Pipeline.Listed(st, ids) && |outs| < |ids|
    requires Text.FirstWord(st.leads[ids[|outs|]].fullName).None?
    requires forall k :: 0 <= k < |outs| ==> Text.FirstWord(st.leads[ids[k]].fullName).Some?
    requires Pipeline.MarkedUpTo(st, r, ids, marks, |outs|) && Pipeline.VerdictsUpTo(ids, outs, marks, |outs|)
    ensures HaltedAt(st, r, ids, outs)
  {
    Pipeline.VerdictsShown(st, r, ids, outs, marks);
    MarkedKept(st, r, ids, marks, |outs|);
  }

  /** A send loop run to the end gave every lead of `ids` its verdict and
      left the other leads alone; the SENT and FAILED counts add up. */
  lemma DispatchedEvery(st: Store, r: Store, ids: seq<nat>, outs: seq<Outreach.Outcome>, marks: map<nat, LeadStatus>)
    requires Pipeline.Listed(st, ids) && |outs| == |ids|
    requires Pipeline.MarkedUpTo(st, r, ids, marks, |outs|) && Pipeline.VerdictsUpTo(ids, outs, marks, |outs|)
    ensures forall k :: 0 <= k < |ids| ==> ids[k] in r.leads && r.leads[ids[k]].status == Pipeline.Verdict(outs[k])
    ensures forall id :: id in st.leads && id !in ids ==> id in r.leads && r.leads[id] == st.leads[id]
    ensures CountAt(r.leads, ids, SENT) + CountAt(r.leads, ids, FAILED) == |ids|
  {
    Pipeline.VerdictsShown(st, r, ids, outs, marks);
    MarkedKept(st, r, ids, marks, |outs|);
    assert ids[..|ids|] == ids;
    forall k | 0 <= k < |ids| ensures ids[k] in r.leads && r.leads[ids[k]].status in {SENT, FAILED} {
      var v := Pipeline.Verdict(outs[k]);
      assert v == SENT || v == FAILED;
    }
    SentFailedPartition(r.leads, ids);
  }

  // ---------------------------------------------------------------------------
  // get_status and get_metrics

  /** A percentage that is 0 when its divisor is. */
  function Percent(part: nat, whole: nat): real {
    if whole > 0 then part as real / whole as real * 100.0 else 0.0
  }

  /** Lines 322-349: the enriched share of all leads; the sent share of all
      leads, 0 while no message was generated; the failure rate over
      generated messages. */
  function SharesOf(m: Metrics): (sh: Shares)
    ensures m.totalLeads == 0 ==> sh.enriched == 0.0 && sh.sent == 0.0
    ensures m.messagesGenerated == 0 ==> sh.sent == 0.0 && sh.failureRate == 0.0
    ensures m.totalLeads > 0 ==> sh.enriched * m.totalLeads as real == 100.0 * m.leadsEnriched as real
    ensures m.totalLeads > 0 && m.messagesGenerated > 0 ==> sh.sent * m.totalLeads as real == 100.0 * m.messagesSent as real
    ensures m.messagesGenerated > 0 ==> sh.failureRate * m.messagesGenerated as real == 100.0 * m.messagesFailed as real
  {
    Shares(Percent(m.leadsEnriched, m.totalLeads),
           if m.messagesGenerated > 0 then Percent(m.messagesSent, m.totalLeads) else 0.0,
           Percent(m.messagesFailed, m.messagesGenerated))
  }

  /** A part of a whole is at most 100 percent of it. */
  lemma PercentBounded(part: nat, whole: nat)
    requires part <= whole
    ensures 0.0 <= Percent(part, whole) <= 100.0
  {
    if whole > 0 {
      assert part as real / whole as real <= 1.0;
    }
  }

  /** The enriched share `get_metrics` shows lies between 0 and 100 percent:
      the leads counted as enriched (ENRICHED, MESSAGED or SENT) are some of
      the leads. An empty store shows 0 for every share. */
  lemma EnrichedShareBounded(st: Store)
    ensures 0.0 <= SharesOf(GetMetrics(st)).enriched <= 100.0
    ensures |st.leads| == 0 ==> SharesOf(GetMetrics(st)).enriched == 0.0 && SharesOf(GetMetrics(st)).sent == 0.0
  {
    StatusCountsPartition(st);
    PercentBounded(GetMetrics(st).leadsEnriched, GetMetrics(st).totalLeads);
  }

  // ---------------------------------------------------------------------------
  // call_tool

  /** The six tools. */
  datatype Tool = LeadSearch | Enriching | Drafting | Sending | StatusQuery | MetricsQuery
  {
    /** The name `list_tools` advertises for the tool. */
    function Name(): string {
      match this
      case LeadSearch => "generate_leads"
      case Enriching => "enrich_leads"
      case Drafting => "generate_messages"
      case Sending => "send_outreach"
      case StatusQuery => "get_status"
      case MetricsQuery => "get_metrics"
    }
  }

  /** The `if`/`elif` chain of `call_tool`: the tool a name selects, if any. */
  function ToolNamed(name: string): (t: Option<Tool>)
    ensures t.Some? <==> name in ToolNames
    ensures t.Some? ==> t.value.Name() == name
  {
    if name == "generate_leads" then Some(LeadSearch)
    else if name == "enrich_leads" then Some(Enriching)
    else if name == "generate_messages" then Some(Drafting)
    else if name == "send_outreach" then Some(Sending)
    else if name == "get_status" then Some(StatusQuery)
    else if name == "get_metrics" then Some(MetricsQuery)
    else None
  }

  /** Every tool is selected by its own name, so no two share one. */
  lemma ToolNamedRoundTrip(t: Tool)
    ensures ToolNamed(t.Name()) == Some(t)
  {
  }

  /** The two tools that create and enrich leads. */
  method RunLeadTool(t: Tool, args: Arguments, st: Store, env: Env) returns (r: Store, reply: Result<Report>)
    requires t == LeadSearch || t == Enriching
    ensures reply.Ok? ==> reply.value.Generated? || reply.value.Enriched? || reply.value.NothingToDo?
    ensures r.messages == st.messages && r.outreach == st.outreach
    ensures t == LeadSearch ==> r.enrichments == st.enrichments
  {
    if t == LeadSearch {
      r, reply := GenerateLeadsTool(st, args, env);
    } else {
      r, reply := EnrichLeadsTool(st, args, env);
    }
  }

  /** The two tools that draft and send messages. */
  method RunOutreachTool(t: Tool, args: Arguments, st: Store, env: Env) returns (r: Store, reply: Result<Report>)
    requires t == Drafting || t == Sending
    ensures reply.Ok? ==> reply.value.Drafted? || reply.value.Dispatched? || reply.value.NothingToDo?
    ensures r.enrichments == st.enrichments && r.outreach == st.outreach
    ensures t == Sending ==> r.leads.Keys == st.leads.Keys && r.messages == st.messages
  {
    if t == Drafting {
      r, reply := GenerateMessagesTool(st, args, env);
    } else {
      var outs;
      r, outs, reply := SendOutreachTool(st, args, env);
    }
  }

  /** `call_tool`: run the named tool; any other name is answered with
      "Unknown tool" and changes nothing, and the two read-only tools change
      nothing either. No tool writes the outreach table, only
      `enrich_leads` writes enrichments and only `generate_messages`
      writes messages. */
  method CallTool(name: string, args: Arguments, st: Store, env: Env) returns (r: Store, reply: Result<Report>)
    ensures name !in ToolNames ==> r == st && reply == Ok(UnknownTool(name))
    ensures name in ToolNames && reply.Ok? ==> !reply.value.UnknownTool?
    ensures name == "get_status" ==> r == st && reply == Ok(Status(GetMetrics(st)))
    ensures name == "get_metrics" ==> r == st && reply == Ok(Detailed(GetMetrics(st), SharesOf(GetMetrics(st))))
    ensures name == "send_outreach" ==> r.leads.Keys == st.leads.Keys
    ensures r.outreach == st.outreach
    ensures name != "enrich_leads" ==> r.enrichments == st.enrichments
    ensures name != "generate_messages" ==> r.messages == st.messages
  {
    match ToolNamed(name)
    case None =>
      r, reply := st, Ok(UnknownTool(name));
    case Some(t) =>
      if t == LeadSearch || t == Enriching {
        r, reply := RunLeadTool(t, args, st, env);
      } else if t == Drafting || t == Sending {
        r, reply := RunOutreachTool(t, args, st, env);
      } else if t == StatusQuery {
        r, reply := st, Ok(Status(GetMetrics(st)));
      } else {
        r, reply := st, Ok(Detailed(GetMetrics(st), SharesOf(GetMetrics(st))));
      }
  }
}
